=== FILE: README.md ===
# CSE Motors: authentication, authorization and form rules

This project models the decision logic of the CSE Motors Express application
(jlucas97/CSE-340-WebBackend). It covers the request state a middleware chain
passes along: the body, the `jwt` cookie, `res.locals`, the flash store, the
cookie operations and the validation errors. Each middleware, validator and
handler is a pure function from that state to a `Step`, whose outcome is one of:

- `Next`, to go on;
- `Redirect` or `Render`, to answer, or `Handled`, for an answer from a handler whose code is not part of this model;
- `NoResponse`, to answer nothing;
- `NextError`, to pass an error on.

The modules follow the program:

| module | models | notes |
|---|---|---|
| `AuthMiddleware` | `checkJWTToken`, `checkLogin`, `checkAccountType` | `jwt.verify` is an oracle |
| `Flash` | connect-flash | a push queues a message; reading a category hands its messages back and empties it |
| `HtmlBuilders` | `getNav`, `buildClassificationList`, the not-found branch of `buildDetailView` | |
| `AccountStore` | the `account` table and the five statements of the account model | |
| `Validation` | express-validator as the rule modules use it | sanitizers write back into the body; `withMessage` binds to the validator before it; `bail` stops a chain that has an error; "Invalid value" is the default message |
| `AccountValidation`, `InventoryValidation` | the rule sets and the `check…Data` middleware | |
| `AccountController` | `buildLogin`, `buildRegister`, `loginAccount`, `registerAccount` | |
| `Routes` | both route tables as data | also holds a runner that executes a chain the way Express does, with the JWT middleware in front |

`Wrappers`, `Strings` and `Http` hold the shared pieces. `Wrappers` has `Option`
and `Result`. `Strings` has JavaScript's `trim`, integer text, loose equality,
and the two length measures of validator.js. `Http` has the request and
response state.

The classification rows are a parameter. So are the account table, the JWT
verifier, and the validator.js functions whose internals are not modelled
(`isEmail`, `normalizeEmail`, `isFloat`).

Three behaviours of the source follow from the code as written. Lemmas state
them.

1. **Login email is not normalized.** Registration stores the normalized email,
   but login looks up the email as typed. An address the normalizer changes,
   for example by lower-casing it, can register but never log in. See
   `Routes.UnnormalizedEmailLocksOut`, with `Routes.RegisterThenLogInThroughRoutes`
   as the case that works.
2. **The two length rules count differently.** The registration password policy
   counts UTF-16 units. The login rule counts code points, not counting variation
   selectors. A strong password that reaches 12 UTF-16 units only because each
   emoji counts as two, so that it has fewer than 12 characters by the login
   count, registers but is always refused by the login rule. See
   `Routes.ShortCountedPasswordLocksOut` and `Routes.StrongButShortPassword`.
3. **Several handlers the routes name do not exist.** The account controller
   exports only `buildLogin`, `buildRegister`, `loginAccount` and
   `registerAccount`. The inventory controller exports only the three open
   handlers. Any other name a route reads is `undefined`.
   - Wrapped in `handleErrors`, an `undefined` handler throws a TypeError when
     it is called, and that error goes on with `next(err)`.
   - Passed to the router unwrapped, an `undefined` handler makes Express throw
     when the route is declared. The update form and the info update do this,
     so requiring the account route module throws before any account route
     exists. See `Routes.AccountRoutesDoNotLoad` and `Routes.StaffViewsPassError`.

   The lemmas about the account routes therefore describe the routes as the
   module declares them. They hold once the two missing handlers are defined.

## Model

| member | source | states |
|---|---|---|
| AuthMiddleware.CheckJWTToken | utilities/index.js:117-134 | always calls `next` and never answers. With no token: `loggedin` is 0, nothing else changes, and no cookie is cleared. With an accepted token: `accountData` is the decoded payload and `loggedin` is 1. With a rejected token: the `jwt` cookie is cleared, `loggedin` is 0, and `accountData` is left as it was |
| AuthMiddleware.CheckLogin | utilities/index.js:139-146 | continues, unchanged, exactly when `loggedin` is truthy. Otherwise it queues "Please log in." and redirects to /account/login |
| AuthMiddleware.CheckAccountType | utilities/index.js:151-172 | continues exactly when the visitor is logged in and the payload's `account_type` is "Employee" or "Admin". Otherwise it redirects to /account/login: with "Please log in" when `loggedin` or `accountData` is falsy, and with the not-authorized notice otherwise |
| AuthMiddleware.StaffGateImpliesLoginGate | utilities/index.js:139-168 | whoever passes the staff gate also passes the login gate |
| AuthMiddleware.LoginGateAfterToken | utilities/index.js:117-146 | after the JWT middleware, the login gate admits a request exactly when it carried a token the verifier accepts, whatever `res.locals` held before |
| AuthMiddleware.StaffGateAfterToken | utilities/index.js:117-172 | after the JWT middleware, the staff gate admits exactly an accepted token whose payload names a staff type. Stale `accountData` never opens it |
| AuthMiddleware.StaffGateByAccountType | utilities/index.js:162-166 | for a logged-in claims payload with type t, the gate passes exactly when t is "Employee" or "Admin". "Client", "admin" and "employee" get the not-authorized notice |
| AuthMiddleware.CheckJWTTokenIdempotent | utilities/index.js:117-134 | running the JWT middleware twice leaves the same login state as running it once |
| Flash.Push | controllers/accountController.js:45 | queues the message behind those pending in its category and leaves other categories alone |
| Flash.Take | controllers/accountController.js:46 | hands back every pending message of the category, empties it, and leaves other categories alone |
| Flash.ReadOnce | controllers/accountController.js:45-46 | a second read with no push in between is empty |
| Flash.PushThenTake | controllers/accountController.js:45-46 | the next read returns the pushed message behind the older ones, and leaves the store as if neither the push nor the read had happened |
| HtmlBuilders.GetNav | utilities/index.js:9-27 | the list built row by row in the loop is the navigation list `Nav` |
| HtmlBuilders.NavBeginsWithHome | utilities/index.js:11-12 | the navigation list opens with `<ul>` and the Home link, whatever the rows |
| HtmlBuilders.NavItemInPlace | utilities/index.js:13-24 | each row contributes exactly one list item, after the items of earlier rows and before those of later rows |
| Strings.ConcatAppend | utilities/index.js:13-24 | the strings a loop appends for two consecutive runs of rows are the first run's followed by the second's |
| HtmlBuilders.Options | utilities/index.js:92-101 | one option per row, in row order, with the row's id and name. An option is selected exactly when the argument is not null and loosely equals the row's id |
| HtmlBuilders.BuildClassificationList | utilities/index.js:87-104 | the string built option by option is the placeholder option with an empty value, then the row options, inside the select element |
| HtmlBuilders.NothingSelectedWithoutArgument | utilities/index.js:94-99 | with a null argument no option is selected |
| HtmlBuilders.EchoedIdSelected | utilities/index.js:94-99 | a form that echoes a row's id as text selects that row |
| HtmlBuilders.BuildDetailView | utilities/index.js:65-81 | answers the not-found notice exactly when there is no vehicle |
| HtmlBuilders.VehicleById | models/inventory-model.js:29-39 | the vehicle found has the id and is a row of the table. None is found exactly when no row has the id |
| HtmlBuilders.DetailNotFoundExactlyWhenMissing | utilities/index.js:65-81 | for a looked-up id, the detail view is the not-found notice exactly when no row has the id. Otherwise it shows a row with that id |
| AccountStore.RegisterAccount | models/account-model.js:6-12 | fails exactly when the database is down or the next id is taken. Otherwise it appends exactly one row under the next id, with the password as given and type 'Client', returns that row with row count 1, and keeps the table valid. On a valid, reachable table it always succeeds |
| AccountStore.GetAccountById | models/account-model.js:17-27 | a failure becomes null. An unknown id gives undefined. A known id gives the first matching row projected without its password |
| AccountStore.GetAccountByEmail | models/account-model.js:32-43 | a failure is rethrown. No matching row gives undefined. Otherwise it returns the first row, in storage order, whose email is exactly the one given |
| AccountStore.UpdateAccountInfo | models/account-model.js:48-71 | fails exactly when the database is down. Otherwise it changes only the names and email of the rows with the id and leaves every other row and column as it was. Row count 0 means the id is unknown, and then nothing changes. On a valid table a known id reports row count 1 |
| AccountStore.UpdatePassword | models/account-model.js:77-86 | like the info update, but only the password of the rows with the id changes |
| AccountStore.UpdateWhereIdFacts | models/account-model.js:50-57 | an update by id that keeps the id changes exactly the matching rows. Its count is 0 exactly when the id is unknown. It keeps a valid table valid |
| AccountStore.RegisteredAccountFoundByEmail | models/account-model.js:6-43 | after registering under an unused email, the email lookup finds exactly the new Client row with the password as given |
| AccountStore.PasswordHiddenFromProjection | models/account-model.js:19-20 | a password change is invisible through `getAccountById` |
| AccountStore.RegistrationKeepsExistingRows | models/account-model.js:8 | registration leaves every existing row as `getAccountById` shows it |
| AccountStore.EmailLookupAgreesWithIdLookup | models/account-model.js:17-43 | on a valid table, the account the email lookup finds is the one the id lookup finds under its id |
| AccountStore.RegisterKeepsEmailFree | models/account-model.js:6-12 | registering one email leaves every other unused email unused |
| Strings.Trim | utilities/account-validation.js:13 | the result is empty exactly when the input is all JavaScript whitespace; otherwise it starts and ends with non-whitespace. It equals the input when that has no surrounding whitespace |
| Strings.TrimSlice | utilities/account-validation.js:13 | for every input, the trimmed result is a slice of it with nothing but whitespace before and after |
| Strings.TrimIdempotent | utilities/account-validation.js:13 | trimming twice is trimming once |
| Strings.ParseIntRoundTrip | utilities/inventory-validation.js:35 | every integer's decimal text passes `isInt` and denotes that integer |
| Strings.LooseEqualsOwnText | utilities/account-validation.js:144 | a number is loosely equal (`==`) to its own decimal text |
| Strings.PointZeroIsZero | utilities/account-validation.js:144 | ".0" has no integer digits, yet it is loosely equal to 0 |
| Strings.MinusPointZeroIsZero | utilities/account-validation.js:144 | "-.0" is loosely equal to 0 |
| Strings.LonePointNotNumber | utilities/account-validation.js:144 | a lone "." is not a number |
| Validation.Escape | utilities/account-validation.js:14 | the result has no markup character left. It is empty exactly when the input is. A string without HTML-special characters is unchanged |
| Validation.StrongPasswordMeaning | utilities/account-validation.js:46-52 | a password is strong exactly when it has at least 12 UTF-16 units, a lower-case letter, an upper-case letter, a digit and a symbol |
| Validation.MessageOf | utilities/account-validation.js:28-40 | a failed validator reports its bound `withMessage`, else a thrown error's message, else "Invalid value" |
| Validation.IndependentChainsApart | utilities/account-validation.js:9-55 | chains over different fields report as if each ran alone on the submitted body |
| Validation.ApplyRules | routes/accountRoute.js:53-66 | a rule set as middleware keeps the recorded errors as a prefix and changes nothing but the body and the errors |
| AccountValidation.RegistrationRulesMeaning | utilities/account-validation.js:9-55 | the registration rules report no error exactly when: the first name has at least 1 and the last name at least 2 characters, counted the validator.js way after trimming and escaping; the trimmed email is an email; the store is reachable and has no account under the normalized email; and the trimmed password is strong |
| AccountValidation.RegistrationRulesBody | utilities/account-validation.js:12-53 | after the rules, the body holds the names trimmed and escaped, the email trimmed and normalized, and the password trimmed |
| AccountValidation.RegistrationEmailTaken | utilities/account-validation.js:33-40 | with the store reachable, the "Email exists" error is reported exactly when an account already has the normalized email |
| AccountValidation.ExistsOnlyFromLookup | utilities/account-validation.js:33-40 | no other registration check produces the "Email exists" message |
| AccountValidation.PasswordPolicyShared | utilities/account-validation.js:180-186 | the password update uses the very same policy chain as registration |
| AccountValidation.UpdatePasswordRulesMeaning | utilities/account-validation.js:175-189 | the update reports no error exactly when the trimmed password is strong. An empty password is reported twice, first with the default message |
| AccountValidation.Named | utilities/account-validation.js:66-68 | keeps exactly the errors whose message is not "Invalid value" |
| AccountValidation.CheckRegData | utilities/account-validation.js:60-84 | calls `next` exactly when no error was recorded. If errors remain after filtering out the default message, it renders the registration view with them and the names and email, never the password. If none remain, it answers nothing |
| AccountValidation.RegistrationErrorsNamed | utilities/account-validation.js:9-55 | every default-message error of the registration rules comes with a named one, so the silent branch of `checkRegData` is never taken after these rules |
| AccountValidation.RegistrationPipeline | utilities/account-validation.js:9-84 | after the registration rules, `checkRegData` passes exactly a valid registration. Otherwise the form always comes back, echoing the sanitized names and normalized email |
| AccountValidation.LoginRulesReport | utilities/account-validation.js:89-100 | the login rules report no error exactly when the trimmed email is an email and the trimmed password has at least 12 characters. They leave both fields trimmed |
| AccountValidation.LoginAcceptsWeakPassword | utilities/account-validation.js:95-98 | the login rule asks for length only: twelve lower-case letters pass it though the password policy refuses them |
| AccountValidation.CheckLoginData | utilities/account-validation.js:105-120 | calls `next` exactly when no error was recorded. Otherwise it renders the login view with every error and the submitted email |
| AccountValidation.LoginPipeline | utilities/account-validation.js:89-120 | after the login rules, `checkLoginData` passes exactly a valid login. Otherwise it answers 200 with the login view |
| AccountValidation.OwnershipMeaning | utilities/account-validation.js:141-147 | with the store reachable, the update email check fails exactly when the lookup finds an account whose id is not loosely equal to the submitted `account_id` |
| AccountValidation.OwnEmailAccepted | utilities/account-validation.js:141-147 | keeping one's own email passes: no "in use" error when the account found is the one the form's id names |
| AccountValidation.OwnershipFrame | utilities/account-validation.js:144 | of the other fields, the ownership check reads only `account_id` |
| AccountValidation.UpdateAccountRulesMeaning | utilities/account-validation.js:125-149 | the update rules report no error exactly when both trimmed names are not empty, the trimmed email is an email, and the email is free or already belongs to this account |
| AccountValidation.UpdateRulesFirstStep | utilities/account-validation.js:127-130 | the first-name chain trims the field and records "First name is required." only when it is blank, ahead of the later chains, which see the trimmed body |
| AccountValidation.CheckUpdateAccountData | utilities/account-validation.js:154-170 | calls `next` exactly when no error was recorded. Otherwise it answers 400 with the update view, the errors, and the id, names and email |
| AccountValidation.CheckUpdatePasswordData | utilities/account-validation.js:194-207 | calls `next` exactly when no error was recorded. Otherwise it answers 400 with the update view, the errors, and only the id |
| AccountValidation.UpdateAccountRulesBody | utilities/account-validation.js:125-149 | the update rules leave both names and the email trimmed in the body, and `account_id` as submitted |
| AccountValidation.UpdateAccountPipeline | utilities/account-validation.js:125-170 | after the update rules, `checkUpdateAccountData` passes exactly a valid update. Otherwise it answers 400 with every error the rules found, echoing the trimmed names and email and the submitted id |
| AccountValidation.UpdatePasswordPipeline | utilities/account-validation.js:175-207 | after the password rule, `checkUpdatePasswordData` passes exactly a strong trimmed password. Otherwise it answers 400 with the password errors, echoing only the submitted id |
| InventoryValidation.ClassificationRuleMeaning | utilities/inventory-validation.js:7-13 | the name passes exactly when, trimmed, it is a non-empty run of ASCII letters and digits. A blank name reports only the "required" message (bail) |
| InventoryValidation.ClassificationRulesReport | utilities/inventory-validation.js:7-13 | the rule reports exactly the errors `ClassificationErrors` lists and leaves the name trimmed |
| InventoryValidation.InventoryRulesMeaning | utilities/inventory-validation.js:32-66 | the rules report no error exactly when all of the following hold. The classification id is an integer. Make, model, image, thumbnail and color are not blank once trimmed. The year is an integer from 1886 to the year after loading. The trimmed description has at least 10 characters. The price is present and positive. The mileage is an integer of at least 0 |
| InventoryValidation.InventoryRulesReport | utilities/inventory-validation.js:32-66 | the rules report, in field order, exactly the errors `InventoryErrors` lists |
| InventoryValidation.CheckClassificationData | utilities/inventory-validation.js:16-29 | calls `next` exactly when no error was recorded. Otherwise it answers 400 with the add-classification view, the errors, the name and a null notice |
| InventoryValidation.CheckInventoryData | utilities/inventory-validation.js:69-84 | calls `next` exactly when no error was recorded. Otherwise it answers 400 with the add-inventory view, echoing every submitted field, which overrides a fixed entry of the same name. The select list keeps the submitted classification, and the navigation bar is built from the classifications unless the body has a `nav` field |
| InventoryValidation.CheckUpdateData | utilities/inventory-validation.js:89-129 | calls `next` exactly when no error was recorded. Otherwise it answers 400 with the edit view titled "Edit " + make + " " + model, the navigation bar, the errors, the select list and every vehicle field, and no other local |
| InventoryValidation.EditLocals | utilities/inventory-validation.js:107-126 | the refused edit shows the title "Edit " + make + " " + model, the navigation bar built from the classifications, the errors, the select list for the submitted classification, and every submitted vehicle field; its locals are exactly these |
| InventoryValidation.ClassificationPipeline | utilities/inventory-validation.js:7-29 | after the rule, the handler is reached exactly for a valid name. Otherwise the form comes back with the trimmed name and the rule's errors |
| InventoryValidation.InventoryPipeline | utilities/inventory-validation.js:32-84 | after the rules, the handler is reached exactly for a valid form. Otherwise it comes back with exactly the listed errors |
| InventoryValidation.UpdatePipeline | utilities/inventory-validation.js:89-129 | the same rules decide the vehicle update. A refused edit is titled with the trimmed make and model |
| AccountController.BuildLogin | controllers/accountController.js:9-19 | answers 200 with the login page: the login view, titled "Login", with the navigation list and no other locals |
| AccountController.LoginPageShared | controllers/accountController.js:9-97 | the login form, a refused login form, bad credentials, a failed lookup and a stored registration all show the same login page. They differ only in status (200, 200, 401, 500, 201) and in the extra locals: the errors and email, or the notice |
| AccountController.RegisterPageShared | controllers/accountController.js:24-96 | the registration form, a refused registration form and the 501 answer show the registration view with the navigation list. Only the form passes null errors. The refused form is titled "Registration", not "Register", and the 501 answer passes no errors |
| AccountController.BuildRegister | controllers/accountController.js:24-31 | renders the registration view titled "Register" with null errors |
| AccountController.LoginAccount | controllers/accountController.js:36-62 | redirects home exactly when the store is reachable, an account has the email, and the submitted password equals the stored one as plain text. Otherwise: 500 exactly when the lookup fails, with the "went wrong" notice queued; 401 exactly for bad credentials. No cookie is set and no token is issued on any path |
| AccountController.UnknownEmailLikeWrongPassword | controllers/accountController.js:43-53 | an unknown email and a wrong password get the same answer and the same flash |
| AccountController.UnknownEmailRejected | controllers/accountController.js:41-47 | with the store reachable, an email no account holds is answered 401 |
| AccountController.RejectionNotice | controllers/accountController.js:45-46 | the 401 answer shows the "invalid" notice when no older notice was pending, and the oldest pending one otherwise |
| AccountController.RegisterAccount | controllers/accountController.js:69-98 | stores the submitted fields unchanged. A store failure goes to the error handler and leaves the table unchanged. A row count above 0 queues the congratulation notice and answers 201 with the login view. A row count of 0 queues the failure notice and answers 501 with the registration view |
| AccountController.RegistrationAlwaysCreated | controllers/accountController.js:82-97 | on a valid, reachable table the answer is always 201, so the 501 branch cannot be reached, and the table stays valid |
| AccountController.RegisterThenLogin | controllers/accountController.js:75-80 | after registering under an unused email, a login with the same email and password passes the plain-text comparison and redirects home with the welcome notice |
| Routes.AccountGates | routes/accountRoute.js:11-72 | exactly the dashboard, the update form, and the update and password submissions are behind the login gate. No account route uses the staff gate |
| Routes.AccountRoutesWellOrdered | routes/accountRoute.js:11-72 | on every account route a gate can only come first, the handler comes last and nowhere else, each rule set is followed at once by its own checker, and every checker follows a rule set |
| Routes.InventoryRoutesWellOrdered | routes/inventoryRoute.js:9-72 | on every inventory route a gate can only come first, the handler comes last and nowhere else, and each rule set is followed at once by a checker written for it |
| Routes.InventoryGates | routes/inventoryRoute.js:9-72 | the first three routes are open GETs and every other route starts with the staff gate. No inventory route uses the login gate. The delete submission runs no rules |
| Routes.GatedFormsValidateBeforeHandling | routes/inventoryRoute.js:26-60 | the gated form submissions run gate, rules, the matching checker and handler, in that order. This holds for the two account updates as well. The vehicle update reuses the inventory rules with its own checker |
| Routes.LoginGateGuardsRoute | routes/accountRoute.js:11-37 | behind the login gate, a request without an accepted token is redirected to the login page before any rule or handler runs, and the table is untouched |
| Routes.StaffGateGuardsRoute | routes/inventoryRoute.js:14-72 | behind the staff gate, only an accepted token naming an Employee or Admin goes on. Everyone else is redirected first |
| Routes.InventoryManagementNeedsStaff | routes/inventoryRoute.js:14-72 | no management route reaches its handler without a staff token. A Client or visitor is redirected and the table is unchanged |
| Routes.StaffViewsPassError | routes/inventoryRoute.js:14-72 | a staff request to a staff-only view reaches the missing handler, whose TypeError goes on as `next(err)`. The table is unchanged |
| Routes.AccountRoutesDoNotLoad | routes/accountRoute.js:18-29 | exactly the update form and the info update pass an unwrapped, undefined handler to the router, so the account route module cannot load |
| Routes.InventoryRoutesLoad | routes/inventoryRoute.js:9-72 | every missing inventory handler is wrapped, so the inventory route module loads |
| Routes.LogoutHandler | routes/accountRoute.js:68-72 | redirects home. The last cookie operation clears `jwt`, after the earlier ones. The next read of "success" ends with "You have been logged out.", after the messages already pending. Other categories, the body, the token and the errors are unchanged |
| Routes.LogoutAlwaysSignsOut | routes/accountRoute.js:68-72 | whatever the login state, logout clears the cookie, queues the message, redirects home and leaves the table unchanged |
| Routes.RegisterRouteGuardsTable | routes/accountRoute.js:61-66 | a registration the rules refuse is answered with the registration view and never reaches the table. One they accept goes to `registerAccount` with the sanitized fields |
| Routes.LoginRouteOnlyReads | routes/accountRoute.js:53-58 | the login route never writes the table. A refused form gets the login view. An accepted one goes to `loginAccount` with the trimmed fields |
| Routes.RegisterRouteStores | routes/accountRoute.js:61-66 | a valid registration on a valid table answers 201 and appends exactly the sanitized Client account under the next id |
| Routes.RegisterThenLogInThroughRoutes | routes/accountRoute.js:53-66 | if normalizing leaves the typed email as it is and the trimmed password has at least 12 characters by the login count, logging in after registering redirects home |
| Routes.UnnormalizedEmailLocksOut | utilities/account-validation.js:28-31 | if the normalizer changes the typed email, the account is stored under the normalized form, and a login with the typed email answers 401 |
| Routes.ShortCountedPasswordLocksOut | utilities/account-validation.js:95-98 | a strong password shorter than 12 characters by the login count registers with 201, but every login with it gets the login form back |
| Routes.StrongButShortPassword | utilities/account-validation.js:46-52 | such passwords exist: "Aa1!" followed by four emoji is strong, trim-stable and 8 characters long by the login count |

## Left out

- JWT verification is an oracle from the token to an optional payload. The secret, the signature and expiry are inside it. No code here issues a token.
- SQL text, the `pg` pool and the database errors are not modelled. The store is a sequence of rows in storage order, because a query without ORDER BY returns the first match in that order. That is also why it is not a map keyed by id. A `false` online flag makes every statement fail.
- `isEmail`, `normalizeEmail` and `isFloat({ gt: 0 })` are oracles. Their validator.js internals are not modelled.
- Strings.JsNumberAsInt: integer text is compared exactly. JavaScript first rounds a number beyond 2^53 to the nearest double, so two different large integers can be loosely equal there and not here. The hexadecimal, octal, binary and exponent forms of JavaScript number text are not modelled.
- `isInt` accepts decimal integer text only; the other number forms are not modelled.
- Express rendering, EJS views and redirect mechanics are outcome values only.
- async/Promise plumbing is modelled only through the wrapped flag, which records whether a handler runs inside `handleErrors`. A wrapped handler's failure goes on as `NextError`. An unwrapped one answers nothing.
- A failing `getNav` query is not modelled: the classification rows are always available.
- The server entry point is not part of this model. Its mount order is assumed to put `checkJWTToken` in front of every route.
- The three inventory handlers the inventory controller does export, and models/inventory-model.js apart from `getVehicleById`, are left out. They are outside the authorization core. They answer `Handled` with their name.
- The detail handler (controllers/invController.js:24-40) reads `data.inv_make` after building the view. So for a missing vehicle it passes an error on instead of showing the notice. That handler is not part of this model.
- `buildClassificationGrid` is left out, and so is the vehicle branch of `buildDetailView`. Both depend on `Intl.NumberFormat` number formatting.
- `registerAccount` receives a missing body field as the empty string. The source would pass `undefined`, which the driver sends as NULL.
- Logging and dotenv configuration are left out: they have no effect on any decision.
- Flash.Push: models a non-empty message only. connect-flash queues a message only when it is non-empty; an empty one reads and empties the category. The application never pushes an empty message.

=== FILE: account_controller.dfy ===
/** The exported handlers of controllers/accountController.js: the login and
    registration views, and the outcome logic of processing a login or a
    registration. The classification rows (for the navigation list) and the
    account table are parameters; a handler that writes the table returns the
    table afterwards. */
module AccountController {
  import opened Wrappers
  import opened Http
  import Flash
  import AccountStore
  import HtmlBuilders
  import opened AccountValidation

  const NoticeCategory := "notice"
  const InvalidCredentials := "Invalid email or password. Please try again."
  const LoginFailed := "Something went wrong during login."
  const RegistrationFailed := "Sorry, the registration failed."
  const HomePath := "/"

  function Welcome(firstname: string): string {
    "Welcome back, " + firstname + "!"
  }

  function Registered(firstname: string): string {
    "Congratulations, you're registered " + firstname + ". Please log in."
  }

  /** A handler's answer together with the account table it leaves behind. */
  datatype Effect = Effect(step: Step, db: AccountStore.Db)

  /** The login page as every path that shows it renders it: the login view,
      titled "Login", with the navigation list. */
  predicate LoginPage(out: Outcome, rows: seq<HtmlBuilders.Classification>) {
    && out.Render? && out.view == LoginView
    && "title" in out.locals && out.locals["title"] == Str("Login")
    && "nav" in out.locals && out.locals["nav"] == Str(HtmlBuilders.Nav(rows))
  }

  /** The registration page: the registration view with the navigation list. */
  predicate RegisterPage(out: Outcome, rows: seq<HtmlBuilders.Classification>) {
    && out.Render? && out.view == RegisterView
    && "title" in out.locals && "nav" in out.locals && out.locals["nav"] == Str(HtmlBuilders.Nav(rows))
  }

  /** buildLogin: the login page with nothing but its title and the navigation
      list, answered 200. */
  function BuildLogin(req: Request, rows: seq<HtmlBuilders.Classification>): (r: Step)
    ensures r.req == req
    ensures LoginPage(r.out, rows) && r.out.status == Ok && r.out.locals.Keys == {"title", "nav"}
  {
    Step(req, Render(Ok, LoginView, map["title" := Str("Login"), "nav" := Str(HtmlBuilders.Nav(rows))]))
  }

  /** buildRegister: the registration view with no errors (`null`). */
  function BuildRegister(req: Request, rows: seq<HtmlBuilders.Classification>): (r: Step)
    ensures r.req == req
    ensures RegisterPage(r.out, rows) && r.out.status == Ok
    ensures r.out.locals.Keys == {"title", "nav", "errors"} && r.out.locals["errors"] == Null
    ensures r.out.locals["title"] == Str("Register")
  {
    Step(req, Render(Ok, RegisterView,
                     map["title" := Str("Register"), "nav" := Str(HtmlBuilders.Nav(rows)), "errors" := Null]))
  }

  /** `getAccountByEmail(account_email)` as the handler calls it: a missing field
      is sent as NULL, which no row's email equals. */
  function LookupEmail(db: AccountStore.Db, body: map<string, string>)
    : (r: Result<Option<AccountStore.Account>, AccountStore.DbError>)
    ensures r.Failure? <==> !db.online
    ensures Email in body ==> r == AccountStore.GetAccountByEmail(db, body[Email])
    ensures Email !in body && db.online ==> r == Success(None)
  {
    if Email in body then AccountStore.GetAccountByEmail(db, body[Email])
    else if db.online then Success(None)
    else Failure(AccountStore.ConnectionFailure)
  }

  /** `account_password !== accountData.account_password` is false: the field
      is present and string-equal to the stored password. */
  predicate PasswordMatches(body: map<string, string>, a: AccountStore.Account) {
    Password in body && body[Password] == a.password
  }

  /** The credentials are good: the lookup succeeded, found an account, and the
      submitted password is that account's, compared as plain text. */
  predicate Accepted(db: AccountStore.Db, body: map<string, string>) {
    var found := LookupEmail(db, body);
    found.Success? && found.value.Some? && PasswordMatches(body, found.value.value)
  }

  /** The answer to bad credentials: the "invalid" notice is queued, and the
      first pending notice is read back (emptying the category) and shown. */
  function Rejection(req: Request, rows: seq<HtmlBuilders.Classification>): (r: Step)
    ensures Flash.Pending(r.req.flash, NoticeCategory) == []
    ensures r.out.Render? && r.out.status == Unauthorized && r.out.view == LoginView
  {
    var read := Flash.Take(Flash.Push(req.flash, NoticeCategory, InvalidCredentials), NoticeCategory);
    Step(req.(flash := read.rest),
         Render(Unauthorized, LoginView,
                map["title" := Str("Login"), "nav" := Str(HtmlBuilders.Nav(rows)), "notice" := Str(read.messages[0])]))
  }

  /** loginAccount. A failing lookup answers 500 with the login view after
      queueing the "went wrong" notice; an unknown email and a wrong password
      get the same 401 answer; good credentials queue the welcome notice and
      redirect home. No cookie is set on any path, the table is only read, and
      no token is issued. */
  function LoginAccount(req: Request, db: AccountStore.Db, rows: seq<HtmlBuilders.Classification>): (r: Step)
    ensures r.req.body == req.body && r.req.jwt == req.jwt && r.req.locals == req.locals
    ensures r.req.cookieOps == req.cookieOps && r.req.errors == req.errors
    ensures r.out == Redirect(HomePath) <==> db.online && Accepted(db, req.body)
    ensures r.out.Render? && r.out.status == ServerError <==> !db.online
    ensures r.out.Render? && r.out.status == Unauthorized <==> db.online && !Accepted(db, req.body)
    ensures !db.online ==>
              && r.req.flash == Flash.Push(req.flash, NoticeCategory, LoginFailed)
              && r.out == Render(ServerError, LoginView,
                                 map["title" := Str("Login"), "nav" := Str(HtmlBuilders.Nav(rows))])
    ensures db.online && !Accepted(db, req.body) ==> r == Rejection(req, rows)
    ensures db.online && Accepted(db, req.body) ==>
              r.req.flash == Flash.Push(req.flash, NoticeCategory,
                                        Welcome(LookupEmail(db, req.body).value.value.firstname))
  {
    var nav := HtmlBuilders.Nav(rows);
    match LookupEmail(db, req.body)
    case Failure(_) =>
      Step(req.(flash := Flash.Push(req.flash, NoticeCategory, LoginFailed)),
           Render(ServerError, LoginView, map["title" := Str("Login"), "nav" := Str(nav)]))
    case Success(None) => Rejection(req, rows)
    case Success(Some(account)) =>
      if !PasswordMatches(req.body, account) then Rejection(req, rows)
      else Step(req.(flash := Flash.Push(req.flash, NoticeCategory, Welcome(account.firstname))), Redirect(HomePath))
  }

  /** The 401 answer shows the "invalid" notice whenever no older notice was
      waiting; an older one would be shown in its place. */
  lemma RejectionNotice(req: Request, rows: seq<HtmlBuilders.Classification>)
    ensures Flash.Pending(req.flash, NoticeCategory) == [] ==>
              Rejection(req, rows).out.locals["notice"] == Str(InvalidCredentials)
    ensures Flash.Pending(req.flash, NoticeCategory) != [] ==>
              Rejection(req, rows).out.locals["notice"] == Str(Flash.Pending(req.flash, NoticeCategory)[0])
  {
  }

  /** An email no account holds is answered 401 on a reachable table. */
  lemma UnknownEmailRejected(req: Request, db: AccountStore.Db, rows: seq<HtmlBuilders.Classification>)
    requires db.online && Email in req.body && !AccountStore.EmailTaken(db, req.body[Email])
    ensures LoginAccount(req, db, rows).out.Render? && LoginAccount(req, db, rows).out.status == Unauthorized
  {
  }

  /** An unknown email and a wrong password are answered alike: the same
      status, view, locals and flash, so the answer does not tell which. */
  lemma UnknownEmailLikeWrongPassword(req1: Request, req2: Request, db: AccountStore.Db,
                                      rows: seq<HtmlBuilders.Classification>)
    requires db.online && req1.flash == req2.flash
    requires LookupEmail(db, req1.body) == Success(None)
    requires LookupEmail(db, req2.body).Success? && LookupEmail(db, req2.body).value.Some?
    requires !PasswordMatches(req2.body, LookupEmail(db, req2.body).value.value)
    ensures LoginAccount(req1, db, rows).out == LoginAccount(req2, db, rows).out
    ensures LoginAccount(req1, db, rows).req.flash == LoginAccount(req2, db, rows).req.flash
  {
  }

  /** registerAccount. The account is stored with the submitted password as it
      is (a missing field is stored as the empty string). A store failure is
      passed on to the error handler (the handler runs inside `handleErrors`)
      and the table is unchanged; a result with rows queues the congratulation
      notice and answers 201 with the login view; a result without rows queues
      the failure notice and answers 501 with the registration view. */
  function RegisterAccount(req: Request, db: AccountStore.Db, rows: seq<HtmlBuilders.Classification>): (r: Effect)
    ensures r.step.req.body == req.body && r.step.req.jwt == req.jwt && r.step.req.locals == req.locals
    ensures r.step.req.cookieOps == req.cookieOps && r.step.req.errors == req.errors
    ensures var stored := AccountStore.RegisterAccount(db, BodyField(req.body, FirstName), BodyField(req.body, LastName),
                                                       BodyField(req.body, Email), BodyField(req.body, Password));
            && (stored.Failure? ==> r.step == Step(req, NextError(stored.error.message)) && r.db == db)
            && (stored.Success? ==> r.db == stored.value.db)
            && (stored.Success? && stored.value.result.rowCount > 0 ==>
                  && r.step.out == Render(Created, LoginView,
                                          map["title" := Str("Login"), "nav" := Str(HtmlBuilders.Nav(rows))])
                  && r.step.req.flash
                     == Flash.Push(req.flash, NoticeCategory, Registered(BodyText(req.body, FirstName))))
            && (stored.Success? && stored.value.result.rowCount == 0 ==>
                  && r.step.out == Render(NotImplemented, RegisterView,
                                          map["title" := Str("Register"), "nav" := Str(HtmlBuilders.Nav(rows))])
                  && r.step.req.flash == Flash.Push(req.flash, NoticeCategory, RegistrationFailed))
  {
    var nav := HtmlBuilders.Nav(rows);
    var stored := AccountStore.RegisterAccount(db, BodyField(req.body, FirstName), BodyField(req.body, LastName),
                                               BodyField(req.body, Email), BodyField(req.body, Password));
    match stored
    case Failure(e) => Effect(Step(req, NextError(e.message)), db)
    case Success(w) =>
      if w.result.rowCount > 0 then
        Effect(Step(req.(flash := Flash.Push(req.flash, NoticeCategory, Registered(BodyText(req.body, FirstName)))),
                    Render(Created, LoginView, map["title" := Str("Login"), "nav" := Str(nav)])),
               w.db)
      else
        Effect(Step(req.(flash := Flash.Push(req.flash, NoticeCategory, RegistrationFailed)),
                    Render(NotImplemented, RegisterView, map["title" := Str("Register"), "nav" := Str(nav)])),
               w.db)
  }

  /** On a reachable, valid table registration always answers 201 and adds the
      account: the 501 branch cannot be reached, because a successful insert
      reports one row. */
  lemma RegistrationAlwaysCreated(req: Request, db: AccountStore.Db, rows: seq<HtmlBuilders.Classification>)
    requires AccountStore.Valid(db) && db.online
    ensures RegisterAccount(req, db, rows).step.out.Render?
    ensures RegisterAccount(req, db, rows).step.out.status == Created
    ensures AccountStore.Valid(RegisterAccount(req, db, rows).db)
  {
  }

  /** Register, then log in with the same email and password fields: the
      password goes to the table exactly as submitted, so the plain-text
      comparison passes and the login redirects home with the welcome notice,
      provided no earlier account holds the email. */
  lemma RegisterThenLogin(reg: Request, login: Request, db: AccountStore.Db, rows: seq<HtmlBuilders.Classification>)
    requires AccountStore.Valid(db) && db.online
    requires Email in reg.body && Password in reg.body
    requires !AccountStore.EmailTaken(db, reg.body[Email])
    requires Email in login.body && login.body[Email] == reg.body[Email]
    requires Password in login.body && login.body[Password] == reg.body[Password]
    ensures var db' := RegisterAccount(reg, db, rows).db;
            && LoginAccount(login, db', rows).out == Redirect(HomePath)
            && LoginAccount(login, db', rows).req.flash
               == Flash.Push(login.flash, NoticeCategory, Welcome(BodyField(reg.body, FirstName)))
  {
    var b := reg.body;
    AccountStore.RegisteredAccountFoundByEmail(db, BodyField(b, FirstName), BodyField(b, LastName), b[Email], b[Password]);
  }

  /** The login page is shown on five paths with the same view, title and
      navigation list; they differ in the status and in the extra locals: the
      form (200, nothing more), a refused login form (200, the errors and the
      email), bad credentials (401, the notice), a failed lookup (500, nothing
      more), and a stored registration (201, nothing more). */
  lemma LoginPageShared(req: Request, db: AccountStore.Db, rows: seq<HtmlBuilders.Classification>)
    ensures var r := BuildLogin(req, rows).out;
            LoginPage(r, rows) && r.status == Ok && r.locals.Keys == {"title", "nav"}
    ensures var r := CheckLoginData(req, rows).out;
            r != Next ==> LoginPage(r, rows) && r.status == Ok && r.locals.Keys == {"title", "nav", "errors", Email}
    ensures var r := Rejection(req, rows).out;
            LoginPage(r, rows) && r.status == Unauthorized && r.locals.Keys == {"title", "nav", "notice"}
    ensures var r := LoginAccount(req, db, rows).out;
            !db.online ==> LoginPage(r, rows) && r.status == ServerError && r.locals.Keys == {"title", "nav"}
    ensures var r := RegisterAccount(req, db, rows).step.out;
            r.Render? && r.status == Created ==> LoginPage(r, rows) && r.locals.Keys == {"title", "nav"}
  {
  }

  /** The registration page is shown on three paths with the same view and
      navigation list. Only the form itself passes `errors` as null; a refused
      registration form passes the named errors and is titled "Registration",
      not "Register"; the 501 answer passes no errors at all. */
  lemma RegisterPageShared(req: Request, db: AccountStore.Db, rows: seq<HtmlBuilders.Classification>)
    ensures var r := BuildRegister(req, rows).out;
            RegisterPage(r, rows) && r.status == Ok && r.locals["title"] == Str("Register") && r.locals["errors"] == Null
    ensures var r := CheckRegData(req, rows).out;
            r.Render? ==>
              && RegisterPage(r, rows) && r.status == Ok && r.locals["title"] == Str("Registration")
              && "errors" in r.locals && r.locals["errors"] != Null
    ensures var r := RegisterAccount(req, db, rows).step.out;
            r.Render? && r.status == NotImplemented ==>
              RegisterPage(r, rows) && r.locals["title"] == Str("Register") && "errors" !in r.locals
  {
  }
}

=== FILE: account_store.dfy ===
/** The `account` table and the five statements models/account-model.js runs
    against it. The table is a sequence of rows in storage order (the order a
    query without ORDER BY returns them in); `nextId` is the next value of the
    `account_id` sequence; `online` is false when the database cannot be reached,
    in which case every statement fails. */
module AccountStore {
  import opened Wrappers

  datatype Account = Account(
    id: int,
    firstname: string,
    lastname: string,
    email: string,
    password: string,
    accountType: string)

  /** A row of `getAccountById`: every column except `account_password`. */
  datatype AccountSummary = AccountSummary(
    id: int,
    firstname: string,
    lastname: string,
    email: string,
    accountType: string)

  datatype Db = Db(rows: seq<Account>, nextId: int, online: bool)

  /** What the database driver throws. */
  datatype DbError = DbError(message: string)

  /** What `pool.query` resolves to: the number of rows affected or returned, and
      the rows of a RETURNING clause. */
  datatype QueryResult = QueryResult(rowCount: nat, rows: seq<Account>)

  /** A statement's effect: the table afterwards and the driver's result. */
  datatype Written = Written(db: Db, result: QueryResult)

  const ClientType := "Client"
  const ConnectionFailure := DbError("connection failure")
  const DuplicateKey := DbError("duplicate key value violates unique constraint \"account_pkey\"")

  predicate HasId(rows: seq<Account>, id: int) {
    exists i :: 0 <= i < |rows| && rows[i].id == id
  }

  predicate EmailTaken(db: Db, email: string) {
    exists i :: 0 <= i < |db.rows| && db.rows[i].email == email
  }

  /** `account_id` is the primary key, handed out by the sequence: the ids are
      distinct and all below the sequence's next value. */
  predicate Valid(db: Db) {
    && (forall i, j :: 0 <= i < j < |db.rows| ==> db.rows[i].id != db.rows[j].id)
    && (forall i :: 0 <= i < |db.rows| ==> db.rows[i].id < db.nextId)
  }

  /** registerAccount: INSERT with `account_type` fixed to 'Client' and the
      password stored exactly as given. It fails when the database is down or the
      next id is already taken; otherwise it appends exactly one row under the
      next id, leaves every other row as it was, and returns that row with a row
      count of 1. On a valid table the insert never collides. */
  function RegisterAccount(db: Db, firstname: string, lastname: string, email: string, password: string)
    : (r: Result<Written, DbError>)
    ensures r.Success? <==> db.online && !HasId(db.rows, db.nextId)
    ensures Valid(db) && db.online ==> r.Success?
    ensures r.Success? ==>
              var w := r.value;
              var a := Account(db.nextId, firstname, lastname, email, password, ClientType);
              && w.db.rows == db.rows + [a]
              && w.db.nextId > db.nextId && w.db.online
              && w.result == QueryResult(1, [a])
    ensures r.Success? && Valid(db) ==> Valid(r.value.db)
  {
    if !db.online then Failure(ConnectionFailure)
    else if HasId(db.rows, db.nextId) then Failure(DuplicateKey)
    else
      var a := Account(db.nextId, firstname, lastname, email, password, ClientType);
      Success(Written(Db(db.rows + [a], db.nextId + 1, true), QueryResult(1, [a])))
  }

  function Summarize(a: Account): AccountSummary {
    AccountSummary(a.id, a.firstname, a.lastname, a.email, a.accountType)
  }

  /** The position of the first row satisfying `p`, or the table's length when
      there is none. */
  function FirstWhere(rows: seq<Account>, p: Account -> bool): (k: nat)
    ensures k <= |rows|
    ensures forall j :: 0 <= j < k ==> !p(rows[j])
    ensures k < |rows| ==> p(rows[k])
  {
    if |rows| == 0 then 0
    else if p(rows[0]) then 0
    else 1 + FirstWhere(rows[1..], p)
  }

  /** `WHERE account_id = $1`. */
  function IdIs(id: int): Account -> bool {
    (a: Account) => a.id == id
  }

  /** `WHERE account_email = $1`, compared exactly. */
  function EmailIs(email: string): Account -> bool {
    (a: Account) => a.email == email
  }

  /** What `getAccountById` resolves to: the projected row, `undefined` when no row
      matches, or `null` when the query failed. */
  datatype ByIdLookup = Row(summary: AccountSummary) | NoRow | NullOnError

  /** getAccountById: a failure becomes `null`; otherwise the projection, without
      the password, of the first row with that id, or `undefined` when the id is
      unknown. */
  function GetAccountById(db: Db, id: int): (r: ByIdLookup)
    ensures r.NullOnError? <==> !db.online
    ensures r.NoRow? <==> db.online && !HasId(db.rows, id)
    ensures r.Row? ==> exists i :: 0 <= i < |db.rows| && db.rows[i].id == id && r.summary == Summarize(db.rows[i])
    ensures r.Row? ==> r.summary.id == id
  {
    if !db.online then NullOnError
    else
      var k := FirstWhere(db.rows, IdIs(id));
      if k == |db.rows| then NoRow else Row(Summarize(db.rows[k]))
  }

  /** getAccountByEmail: the failure is rethrown; otherwise the first row, in
      storage order, whose email is exactly the one given, or `undefined` when
      there is none. */
  function GetAccountByEmail(db: Db, email: string): (r: Result<Option<Account>, DbError>)
    ensures r.Failure? <==> !db.online
    ensures r.Success? && r.value.None? <==> db.online && !EmailTaken(db, email)
    ensures r.Success? && r.value.Some? ==>
              exists k :: 0 <= k < |db.rows| && db.rows[k] == r.value.value
                          && r.value.value.email == email
                          && forall j :: 0 <= j < k ==> db.rows[j].email != email
  {
    if !db.online then Failure(ConnectionFailure)
    else
      var k := FirstWhere(db.rows, EmailIs(email));
      if k == |db.rows| then Success(None) else Success(Some(db.rows[k]))
  }

  /** The table after applying `f` to every row with the given id. */
  function Rewrite(rows: seq<Account>, id: int, f: Account -> Account): (r: seq<Account>)
    ensures |r| == |rows|
    ensures forall i :: 0 <= i < |rows| ==> r[i] == if rows[i].id == id then f(rows[i]) else rows[i]
  {
    if |rows| == 0 then []
    else [if rows[0].id == id then f(rows[0]) else rows[0]] + Rewrite(rows[1..], id, f)
  }

  /** The rows with the given id, in storage order: what `RETURNING *` hands back. */
  function WithId(rows: seq<Account>, id: int): (r: seq<Account>)
    ensures |r| <= |rows|
    ensures forall a :: a in r <==> a in rows && a.id == id
    ensures |r| == 0 <==> !HasId(rows, id)
  {
    if |rows| == 0 then []
    else
      var rest := WithId(rows[1..], id);
      assert HasId(rows, id) <==> rows[0].id == id || HasId(rows[1..], id) by {
        if HasId(rows[1..], id) {
          var i :| 0 <= i < |rows[1..]| && rows[1..][i].id == id;
          assert rows[i + 1].id == id;
        }
        if HasId(rows, id) && rows[0].id != id {
          var i :| 0 <= i < |rows| && rows[i].id == id;
          assert rows[1..][i - 1].id == id;
        }
      }
      if rows[0].id == id then [rows[0]] + rest else rest
  }

  /** An UPDATE ... WHERE account_id = $id RETURNING *: rewrite the matching rows
      and return them with their count. */
  function UpdateWhereId(db: Db, id: int, f: Account -> Account): Written {
    var rows' := Rewrite(db.rows, id, f);
    var changed := WithId(rows', id);
    Written(db.(rows := rows'), QueryResult(|changed|, changed))
  }

  function SetInfo(firstname: string, lastname: string, email: string): Account -> Account {
    (a: Account) => a.(firstname := firstname, lastname := lastname, email := email)
  }

  function SetPassword(password: string): Account -> Account {
    (a: Account) => a.(password := password)
  }

  /** updateAccountInfo: fails when the database is down; otherwise changes the
      first name, last name and email of the row with the given id and nothing
      else, and returns the changed row. An unknown id changes nothing and reports
      a row count of 0. */
  function UpdateAccountInfo(db: Db, id: int, firstname: string, lastname: string, email: string)
    : (r: Result<Written, DbError>)
    ensures r.Failure? <==> !db.online
    ensures r.Success? ==>
              var w := r.value;
              && |w.db.rows| == |db.rows| && w.db.nextId == db.nextId && w.db.online
              && (forall i :: 0 <= i < |db.rows| && db.rows[i].id != id ==> w.db.rows[i] == db.rows[i])
              && (forall i :: 0 <= i < |db.rows| && db.rows[i].id == id ==>
                    w.db.rows[i] == db.rows[i].(firstname := firstname, lastname := lastname, email := email))
              && (w.result.rowCount == 0 <==> !HasId(db.rows, id))
              && (!HasId(db.rows, id) ==> w.db == db)
    ensures r.Success? && Valid(db) ==> Valid(r.value.db)
    ensures r.Success? && Valid(db) && HasId(db.rows, id) ==> r.value.result.rowCount == 1
  {
    if !db.online then Failure(ConnectionFailure)
    else
      UpdateWhereIdFacts(db, id, SetInfo(firstname, lastname, email));
      Success(UpdateWhereId(db, id, SetInfo(firstname, lastname, email)))
  }

  /** updatePassword: fails when the database is down; otherwise changes only the
      password of the row with the given id. An unknown id changes nothing. */
  function UpdatePassword(db: Db, id: int, password: string): (r: Result<Written, DbError>)
    ensures r.Failure? <==> !db.online
    ensures r.Success? ==>
              var w := r.value;
              && |w.db.rows| == |db.rows| && w.db.nextId == db.nextId && w.db.online
              && (forall i :: 0 <= i < |db.rows| && db.rows[i].id != id ==> w.db.rows[i] == db.rows[i])
              && (forall i :: 0 <= i < |db.rows| && db.rows[i].id == id ==>
                    w.db.rows[i] == db.rows[i].(password := password))
              && (w.result.rowCount == 0 <==> !HasId(db.rows, id))
              && (!HasId(db.rows, id) ==> w.db == db)
    ensures r.Success? && Valid(db) ==> Valid(r.value.db)
    ensures r.Success? && Valid(db) && HasId(db.rows, id) ==> r.value.result.rowCount == 1
  {
    if !db.online then Failure(ConnectionFailure)
    else
      UpdateWhereIdFacts(db, id, SetPassword(password));
      Success(UpdateWhereId(db, id, SetPassword(password)))
  }

  /** What an UPDATE by id does, for any change that keeps the id: the matching
      rows are changed, the others are not, the row count is 0 exactly when the id
      is unknown (and then nothing changes), and on a valid table the count is 1
      and the table stays valid. */
  lemma UpdateWhereIdFacts(db: Db, id: int, f: Account -> Account)
    requires forall a :: f(a).id == a.id
    ensures var w := UpdateWhereId(db, id, f);
            && |w.db.rows| == |db.rows| && w.db.nextId == db.nextId && w.db.online == db.online
            && (forall i :: 0 <= i < |db.rows| ==>
                  w.db.rows[i] == if db.rows[i].id == id then f(db.rows[i]) else db.rows[i])
            && (w.result.rowCount == 0 <==> !HasId(db.rows, id))
            && (!HasId(db.rows, id) ==> w.db == db)
            && (Valid(db) ==> Valid(w.db))
            && (Valid(db) && HasId(db.rows, id) ==> w.result.rowCount == 1)
  {
    var rows' := Rewrite(db.rows, id, f);
    assert forall i :: 0 <= i < |rows'| ==> rows'[i].id == db.rows[i].id;
    assert HasId(rows', id) <==> HasId(db.rows, id) by {
      RewriteKeepsIds(db.rows, id, f);
    }
    if !HasId(db.rows, id) {
      RewriteMissingId(db.rows, id, f);
    }
    if Valid(db) {
      assert Valid(db.(rows := rows')) by {
        RewriteKeepsIds(db.rows, id, f);
      }
      if HasId(db.rows, id) {
        WithIdUnique(rows', id);
      }
    }
  }

  /** Rewriting with a change that keeps the id keeps every row's id. */
  lemma RewriteKeepsIds(rows: seq<Account>, id: int, f: Account -> Account)
    requires forall a :: f(a).id == a.id
    ensures forall i :: 0 <= i < |rows| ==> Rewrite(rows, id, f)[i].id == rows[i].id
    ensures HasId(Rewrite(rows, id, f), id) <==> HasId(rows, id)
  {
    var r := Rewrite(rows, id, f);
    if HasId(rows, id) {
      var i :| 0 <= i < |rows| && rows[i].id == id;
      assert r[i].id == id;
    }
    if HasId(r, id) {
      var i :| 0 <= i < |r| && r[i].id == id;
      assert rows[i].id == id;
    }
  }

  /** Rewriting the rows of an id no row has changes nothing. */
  lemma RewriteMissingId(rows: seq<Account>, id: int, f: Account -> Account)
    requires !HasId(rows, id)
    ensures Rewrite(rows, id, f) == rows
  {
    var r := Rewrite(rows, id, f);
    assert forall i :: 0 <= i < |rows| ==> r[i] == rows[i];
  }

  /** In a table whose ids are distinct, an id that occurs occurs in one row. */
  lemma {:induction false} WithIdUnique(rows: seq<Account>, id: int)
    requires forall i, j :: 0 <= i < j < |rows| ==> rows[i].id != rows[j].id
    requires HasId(rows, id)
    ensures |WithId(rows, id)| == 1
  {
    var tail := rows[1..];
    if rows[0].id == id {
      forall i | 0 <= i < |tail| ensures tail[i].id != id {
        assert tail[i] == rows[i + 1];
      }
    } else {
      var i :| 0 <= i < |rows| && rows[i].id == id;
      assert tail[i - 1].id == id;
      WithIdUnique(tail, id);
    }
  }

  /** Two tables on which a condition holds at the same positions have their first
      match at the same position. */
  lemma {:induction false} FirstWhereAgrees(rows: seq<Account>, rows': seq<Account>, p: Account -> bool)
    requires |rows| == |rows'|
    requires forall i :: 0 <= i < |rows| ==> p(rows[i]) == p(rows'[i])
    ensures FirstWhere(rows, p) == FirstWhere(rows', p)
  {
    if |rows| > 0 && !p(rows[0]) {
      assert forall i :: 0 <= i < |rows| - 1 ==> rows[1..][i] == rows[i + 1] && rows'[1..][i] == rows'[i + 1];
      FirstWhereAgrees(rows[1..], rows'[1..], p);
    }
  }

  /** Registering an account under another email leaves an email that no row
      had still unused. */
  lemma RegisterKeepsEmailFree(db: Db, firstname: string, lastname: string, email: string, password: string,
                               other: string)
    requires RegisterAccount(db, firstname, lastname, email, password).Success?
    requires !EmailTaken(db, other) && email != other
    ensures !EmailTaken(RegisterAccount(db, firstname, lastname, email, password).value.db, other)
  {
    var db' := RegisterAccount(db, firstname, lastname, email, password).value.db;
    forall i | 0 <= i < |db'.rows| ensures db'.rows[i].email != other {
      if i < |db.rows| {
        assert db'.rows[i] == db.rows[i];
      }
    }
  }

  /** A freshly registered account, under an email no other account has, is what
      the email lookup finds afterwards: a Client holding the password as given. */
  lemma RegisteredAccountFoundByEmail(db: Db, firstname: string, lastname: string, email: string, password: string)
    requires db.online && !HasId(db.rows, db.nextId) && !EmailTaken(db, email)
    ensures RegisterAccount(db, firstname, lastname, email, password).Success?
    ensures var db' := RegisterAccount(db, firstname, lastname, email, password).value.db;
            GetAccountByEmail(db', email)
            == Success(Some(Account(db.nextId, firstname, lastname, email, password, ClientType)))
  {
    var db' := RegisterAccount(db, firstname, lastname, email, password).value.db;
    assert db'.rows[|db.rows|].email == email;
    assert EmailTaken(db', email);
  }

  /** Changing a password is invisible through getAccountById: the projection
      never includes the password. */
  lemma PasswordHiddenFromProjection(db: Db, id: int, other: int, password: string)
    requires db.online
    ensures GetAccountById(UpdatePassword(db, id, password).value.db, other) == GetAccountById(db, other)
  {
    var db' := UpdatePassword(db, id, password).value.db;
    forall i | 0 <= i < |db.rows| ensures Summarize(db'.rows[i]) == Summarize(db.rows[i]) {
      assert db'.rows[i] == db.rows[i] || db'.rows[i] == db.rows[i].(password := password);
    }
    assert forall i :: 0 <= i < |db.rows| ==> IdIs(other)(db.rows[i]) == IdIs(other)(db'.rows[i]) by {
      forall i | 0 <= i < |db.rows| ensures db'.rows[i].id == db.rows[i].id {
        assert Summarize(db'.rows[i]).id == Summarize(db.rows[i]).id;
      }
    }
    FirstWhereAgrees(db.rows, db'.rows, IdIs(other));
  }

  /** Registration leaves the rows that were already there visible unchanged
      through getAccountById. */
  lemma RegistrationKeepsExistingRows(db: Db, id: int, f: string, l: string, e: string, p: string)
    requires RegisterAccount(db, f, l, e, p).Success? && HasId(db.rows, id)
    ensures GetAccountById(RegisterAccount(db, f, l, e, p).value.db, id) == GetAccountById(db, id)
  {
    var db' := RegisterAccount(db, f, l, e, p).value.db;
    var k := FirstWhere(db.rows, IdIs(id));
    var k' := FirstWhere(db'.rows, IdIs(id));
    assert forall j :: 0 <= j < |db.rows| ==> db'.rows[j] == db.rows[j];
    assert k < |db.rows|;
    assert k' == k;
  }

  /** On a valid table, the account the email lookup finds is the one the id
      lookup finds under its id. */
  lemma EmailLookupAgreesWithIdLookup(db: Db, email: string)
    requires Valid(db)
    requires GetAccountByEmail(db, email).Success? && GetAccountByEmail(db, email).value.Some?
    ensures var a := GetAccountByEmail(db, email).value.value;
            GetAccountById(db, a.id) == Row(Summarize(a))
  {
    var a := GetAccountByEmail(db, email).value.value;
    var k := FirstWhere(db.rows, EmailIs(email));
    var k' := FirstWhere(db.rows, IdIs(a.id));
    assert db.rows[k] == a;
    assert k' == k;
  }
}

=== FILE: account_validation.dfy ===
/** The account form rules and the middleware that answers a request whose
    rules failed (utilities/account-validation.js). */
module AccountValidation {
  import opened Wrappers
  import opened Strings
  import opened Http
  import opened Validation
  import AccountStore
  import HtmlBuilders

  const FirstName := "account_firstname"
  const LastName := "account_lastname"
  const Email := "account_email"
  const Password := "account_password"
  const AccountId := "account_id"

  const FirstNameMissing := "Please provide a first name."
  const LastNameMissing := "Please provide a last name."
  const EmailInvalid := "A valid email is required."
  const PasswordWeak := "Password does not meet requirements."
  const PasswordShort := "Password must be at least 12 characters long."
  const FirstNameRequired := "First name is required."
  const LastNameRequired := "Last name is required."

  /** The message a custom email check reports when the account table cannot be
      reached: the message of the error the store throws. */
  const StoreDown := AccountStore.ConnectionFailure.message

  const RegisterView := "account/register"
  const LoginView := "account/login"
  const UpdateView := "account/update"

  /** A registration name: trimmed, escaped, then checked for presence (with the
      default message) and for a least length (with its own message). */
  function NameRule(field: string, least: nat, message: string): Chain {
    Chain(field, [Sanitize(TrimSpace), Sanitize(EscapeHtml), Validate(NotEmpty, None),
                  Validate(MinLength(least), Some(message))])
  }

  /** The registration email: trimmed, checked to be an email, normalized, and
      looked up under its normalized form. */
  const RegistrationEmailRule :=
    Chain(Email, [Sanitize(TrimSpace), Validate(IsEmail, Some(EmailInvalid)), Sanitize(NormalizeEmail),
                  Validate(EmailUnregistered, None)])

  /** The password of registration and of a password change: trimmed, present
      (default message) and strong. */
  const PasswordRule :=
    Chain(Password, [Sanitize(TrimSpace), Validate(NotEmpty, None), Validate(StrongPassword, Some(PasswordWeak))])

  /** registrationRules. */
  const RegistrationRules: seq<Chain> :=
    [NameRule(FirstName, 1, FirstNameMissing), NameRule(LastName, 2, LastNameMissing), RegistrationEmailRule, PasswordRule]

  /** loginRules: the email must look like one; the password only needs twelve
      characters once trimmed. */
  const LoginRules: seq<Chain> :=
    [Chain(Email, [Sanitize(TrimSpace), Validate(IsEmail, Some(EmailInvalid))]),
     Chain(Password, [Sanitize(TrimSpace), Validate(MinLength(12), Some(PasswordShort))])]

  /** The account-update email: trimmed, checked to be an email, and looked up
      as it is (not normalized). */
  const UpdateEmailRule :=
    Chain(Email, [Sanitize(TrimSpace), Validate(IsEmail, Some(EmailInvalid)), Validate(EmailFreeFor(AccountId), None)])

  /** updateAccountRules: both names present once trimmed; the email must look
      like one and must not be held by another account. */
  const UpdateAccountRules: seq<Chain> :=
    [TrimmedRequired(FirstName, FirstNameRequired), TrimmedRequired(LastName, LastNameRequired), UpdateEmailRule]

  /** updatePasswordRules: the registration password rule again. */
  const UpdatePasswordRules: seq<Chain> := [PasswordRule]

  // ---------------------------------------------------------------------------
  // What the rules report, stated without the chain interpreter

  /** A registration name: the default message when it is empty, its own message
      when it is shorter than `least`; both when it is empty and `least` > 0. */
  function NameErrors(field: string, value: string, least: nat, message: string): seq<FieldError> {
    Unless(value != "", field, InvalidValue) + Unless(ValidatorLength(value) >= least, field, message)
  }

  /** What the registration email lookup reports on the normalized email: the
      store's error when it is down, the "exists" message when an account has
      that email, nothing otherwise. */
  function AvailabilityErrors(db: AccountStore.Db, email: string): seq<FieldError> {
    if !db.online then [FieldError(Email, StoreDown)]
    else Unless(!AccountStore.EmailTaken(db, email), Email, EmailExists)
  }

  function PasswordErrors(value: string): seq<FieldError> {
    Unless(value != "", Password, InvalidValue) + Unless(IsStrongPassword(value), Password, PasswordWeak)
  }

  /** What the registration rules report, in rule order (nested to the right, as
      the chains run). The names are measured after trimming and escaping; the
      email is checked trimmed and looked up normalized. */
  function RegistrationErrors(body: map<string, string>, env: Env): seq<FieldError> {
    var email := Trim(BodyField(body, Email));
    NameErrors(FirstName, Escape(Trim(BodyField(body, FirstName))), 1, FirstNameMissing)
    + (NameErrors(LastName, Escape(Trim(BodyField(body, LastName))), 2, LastNameMissing)
    + ((Unless(env.oracles.isEmail(email), Email, EmailInvalid)
        + AvailabilityErrors(env.db, env.oracles.normalizeEmail(email)))
    + PasswordErrors(Trim(BodyField(body, Password)))))
  }

  /** A registration the rules accept, in plain terms. */
  predicate ValidRegistration(body: map<string, string>, env: Env) {
    var email := Trim(BodyField(body, Email));
    && ValidatorLength(Escape(Trim(BodyField(body, FirstName)))) >= 1
    && ValidatorLength(Escape(Trim(BodyField(body, LastName)))) >= 2
    && env.oracles.isEmail(email)
    && env.db.online && !AccountStore.EmailTaken(env.db, env.oracles.normalizeEmail(email))
    && IsStrongPassword(Trim(BodyField(body, Password)))
  }

  // ---------------------------------------------------------------------------
  // Registration: the rules, chain by chain

  /** The two sanitizers of a name rule leave the trimmed, escaped name in the
      body for its two checks. */
  lemma NameRuleSanitizes(field: string, least: nat, message: string, body: map<string, string>, env: Env)
    ensures var links := NameRule(field, least, message).links;
            && links[2..] == [Validate(NotEmpty, None), Validate(MinLength(least), Some(message))]
            && RunChain(NameRule(field, least, message), body, env)
               == RunLinks(field, links[2..], body[field := Escape(Trim(BodyField(body, field)))], env, [])
  {
    var links := NameRule(field, least, message).links;
    var t := Trim(BodyField(body, field));
    var b1 := body[field := t];
    assert RunChain(NameRule(field, least, message), body, env) == RunLinks(field, links[1..], b1, env, []) by {
      SanitizeStep(field, links, body, env, []);
    }
    assert RunLinks(field, links[1..], b1, env, []) == RunLinks(field, links[2..], body[field := Escape(t)], env, []) by {
      assert BodyField(b1, field) == t;
      SanitizeStep(field, links[1..], b1, env, []);
      assert links[1..][1..] == links[2..];
      UpdateTwice(body, field, t, Escape(t));
    }
  }

  lemma NameRuleReport(field: string, least: nat, message: string, body: map<string, string>, env: Env)
    ensures var v := Escape(Trim(BodyField(body, field)));
            RunChain(NameRule(field, least, message), body, env)
            == Pass(body[field := v], NameErrors(field, v, least, message))
  {
    var v := Escape(Trim(BodyField(body, field)));
    var b2 := body[field := v];
    NameRuleSanitizes(field, least, message, body, env);
    assert BodyField(b2, field) == v;
    TwoChecks(field, NotEmpty, None, MinLength(least), Some(message), b2, env);
    FoundBound(field, MinLength(least), message, v, b2, env);
  }

  /** The lookup the registration email rule makes reports what
      `AvailabilityErrors` says. */
  lemma AvailabilityFound(value: string, body: map<string, string>, env: Env)
    ensures Found(Email, EmailUnregistered, None, value, body, env) == AvailabilityErrors(env.db, value)
  {
    if !env.db.online {
      assert Evaluate(EmailUnregistered, value, body, env) == Threw(StoreDown);
    }
  }

  lemma RegistrationEmailReport(body: map<string, string>, env: Env)
    ensures var email := Trim(BodyField(body, Email));
            var normalized := env.oracles.normalizeEmail(email);
            RunChain(RegistrationEmailRule, body, env)
            == Pass(body[Email := normalized],
                    Unless(env.oracles.isEmail(email), Email, EmailInvalid) + AvailabilityErrors(env.db, normalized))
  {
    var links := RegistrationEmailRule.links;
    var email := Trim(BodyField(body, Email));
    var b1 := SanitizeField(TrimSpace, Email, body, env);
    var e1 := Found(Email, IsEmail, Some(EmailInvalid), email, b1, env);
    var b2 := SanitizeField(NormalizeEmail, Email, b1, env);
    assert links[1..] == [Validate(IsEmail, Some(EmailInvalid)), Sanitize(NormalizeEmail), Validate(EmailUnregistered, None)];
    assert links[1..][1..] == [Sanitize(NormalizeEmail), Validate(EmailUnregistered, None)];
    assert links[1..][1..][1..] == [Validate(EmailUnregistered, None)];
    SanitizeStep(Email, links, body, env, []);
    assert BodyField(b1, Email) == email;
    ValidateStep(Email, links[1..], b1, env, []);
    assert [] + e1 == e1;
    SanitizeStep(Email, links[1..][1..], b1, env, e1);
    assert BodyField(b2, Email) == env.oracles.normalizeEmail(email);
    ValidateStep(Email, links[1..][1..][1..], b2, env, e1);
    AvailabilityFound(env.oracles.normalizeEmail(email), b2, env);
    assert b2 == body[Email := env.oracles.normalizeEmail(email)];
  }

  lemma PasswordRuleReport(body: map<string, string>, env: Env)
    ensures var v := Trim(BodyField(body, Password));
            RunChain(PasswordRule, body, env) == Pass(body[Password := v], PasswordErrors(v))
  {
    SanitizeThenTwoChecks(Password, TrimSpace, NotEmpty, None, StrongPassword, Some(PasswordWeak), body, env);
  }

  /** The four registration fields are different, and no registration check
      reads another field. */
  lemma RegistrationRulesIndependent()
    ensures Independent(RegistrationRules)
  {
    var fields := [FirstName, LastName, Email, Password];
    assert forall i :: 0 <= i < |RegistrationRules| ==> RegistrationRules[i].field == fields[i];
    assert forall i, j :: 0 <= i < j < |fields| ==> fields[i] != fields[j] by {
      forall i, j | 0 <= i < j < |fields| ensures fields[i] != fields[j] {
        assert |fields[i]| != |fields[j]| || fields[i][8] != fields[j][8];
      }
    }
  }

  lemma RegistrationErrorsFrom(body: map<string, string>, env: Env)
    ensures ErrorsFrom(RegistrationRules, 0, body, env) == RegistrationErrors(body, env)
  {
    var rules := RegistrationRules;
    var email := Trim(BodyField(body, Email));
    var e0 := NameErrors(FirstName, Escape(Trim(BodyField(body, FirstName))), 1, FirstNameMissing);
    var e1 := NameErrors(LastName, Escape(Trim(BodyField(body, LastName))), 2, LastNameMissing);
    var e2 := Unless(env.oracles.isEmail(email), Email, EmailInvalid)
              + AvailabilityErrors(env.db, env.oracles.normalizeEmail(email));
    var e3 := PasswordErrors(Trim(BodyField(body, Password)));
    assert ErrorsFrom(rules, 4, body, env) == [];
    assert ErrorsFrom(rules, 3, body, env) == e3 by {
      PasswordRuleReport(body, env);
      assert e3 + [] == e3;
    }
    assert ErrorsFrom(rules, 2, body, env) == e2 + e3 by {
      RegistrationEmailReport(body, env);
    }
    assert ErrorsFrom(rules, 1, body, env) == e1 + (e2 + e3) by {
      NameRuleReport(LastName, 2, LastNameMissing, body, env);
    }
    assert ErrorsFrom(rules, 0, body, env) == e0 + (e1 + (e2 + e3)) by {
      NameRuleReport(FirstName, 1, FirstNameMissing, body, env);
    }
  }

  /** The registration rules report what `RegistrationErrors` says. */
  lemma RegistrationRulesReport(body: map<string, string>, env: Env)
    ensures RunChains(RegistrationRules, body, env).errors == RegistrationErrors(body, env)
  {
    RegistrationRulesIndependent();
    IndependentChainsApart(RegistrationRules, body, env);
    RegistrationErrorsFrom(body, env);
  }

  /** The registration rules leave the sanitized fields in the body. */
  lemma RegistrationRulesBody(body: map<string, string>, env: Env)
    ensures var after := RunChains(RegistrationRules, body, env).body;
            && FirstName in after && after[FirstName] == Escape(Trim(BodyField(body, FirstName)))
            && LastName in after && after[LastName] == Escape(Trim(BodyField(body, LastName)))
            && Email in after && after[Email] == env.oracles.normalizeEmail(Trim(BodyField(body, Email)))
            && Password in after && after[Password] == Trim(BodyField(body, Password))
  {
    var rules := RegistrationRules;
    RegistrationRulesIndependent();
    NameRuleReport(FirstName, 1, FirstNameMissing, body, env);
    NameRuleReport(LastName, 2, LastNameMissing, body, env);
    RegistrationEmailReport(body, env);
    PasswordRuleReport(body, env);
    IndependentChainsBody(rules, body, env, 0);
    IndependentChainsBody(rules, body, env, 1);
    IndependentChainsBody(rules, body, env, 2);
    IndependentChainsBody(rules, body, env, 3);
  }

  /** registrationRules in plain terms: the first name has at least one
      character and the last name at least two once trimmed and escaped, the
      trimmed email is an email, the store is reachable and has no account under
      the normalized email, and the trimmed password is strong. */
  lemma RegistrationRulesMeaning(body: map<string, string>, env: Env)
    ensures RunChains(RegistrationRules, body, env).errors == [] <==> ValidRegistration(body, env)
  {
    RegistrationRulesReport(body, env);
    var password := Trim(BodyField(body, Password));
    assert IsStrongPassword(password) ==> password != "";
    var first := Escape(Trim(BodyField(body, FirstName)));
    assert ValidatorLength(first) >= 1 ==> first != "";
    var last := Escape(Trim(BodyField(body, LastName)));
    assert ValidatorLength(last) >= 2 ==> last != "";
  }

  /** With the store reachable, the registration email rule reports the "exists"
      message exactly when an account already has the normalized email. */
  lemma RegistrationEmailTaken(body: map<string, string>, env: Env)
    requires env.db.online
    ensures var normalized := env.oracles.normalizeEmail(Trim(BodyField(body, Email)));
            FieldError(Email, EmailExists) in RunChains(RegistrationRules, body, env).errors
            <==> AccountStore.EmailTaken(env.db, normalized)
  {
    RegistrationRulesReport(body, env);
    ExistsReportedWhenTaken(body, env);
  }

  lemma ExistsReportedWhenTaken(body: map<string, string>, env: Env)
    requires env.db.online
    ensures var normalized := env.oracles.normalizeEmail(Trim(BodyField(body, Email)));
            FieldError(Email, EmailExists) in RegistrationErrors(body, env)
            <==> AccountStore.EmailTaken(env.db, normalized)
  {
    var email := Trim(BodyField(body, Email));
    ExistsOnlyFromLookup(Escape(Trim(BodyField(body, FirstName))), Escape(Trim(BodyField(body, LastName))),
                         env.oracles.isEmail(email), env.db, env.oracles.normalizeEmail(email),
                         Trim(BodyField(body, Password)));
  }

  lemma ExistsOnlyFromLookup(first: string, last: string, valid: bool, db: AccountStore.Db, email: string, password: string)
    requires db.online
    ensures FieldError(Email, EmailExists)
            in NameErrors(FirstName, first, 1, FirstNameMissing)
               + (NameErrors(LastName, last, 2, LastNameMissing)
               + ((Unless(valid, Email, EmailInvalid) + AvailabilityErrors(db, email)) + PasswordErrors(password)))
            <==> AccountStore.EmailTaken(db, email)
  {
    var x := FieldError(Email, EmailExists);
    assert x !in NameErrors(FirstName, first, 1, FirstNameMissing) by { assert |FirstName| != |Email|; }
    assert x !in NameErrors(LastName, last, 2, LastNameMissing) by { assert |LastName| != |Email|; }
    assert x !in Unless(valid, Email, EmailInvalid) by { assert |EmailInvalid| != |EmailExists|; }
    assert x !in PasswordErrors(password) by { assert |Password| != |Email|; }
  }

  /** The same strength policy guards registration and a password change. */
  lemma PasswordPolicyShared()
    ensures RegistrationRules[3] == UpdatePasswordRules[0] == PasswordRule
  {
  }

  /** updatePasswordRules in plain terms: the trimmed password is strong; an
      empty one is reported twice, once with the default message. */
  lemma UpdatePasswordRulesMeaning(body: map<string, string>, env: Env)
    ensures var v := Trim(BodyField(body, Password));
            var errors := RunChains(UpdatePasswordRules, body, env).errors;
            && errors == PasswordErrors(v)
            && (errors == [] <==> IsStrongPassword(v))
            && (v == "" ==> errors == [FieldError(Password, InvalidValue), FieldError(Password, PasswordWeak)])
  {
    PasswordRuleReport(body, env);
    var p := RunChain(PasswordRule, body, env);
    assert UpdatePasswordRules[1..] == [];
    assert p.errors + [] == p.errors;
    var v := Trim(BodyField(body, Password));
    assert IsStrongPassword(v) ==> v != "";
    assert Utf16Length("") == 0;
  }

  // ---------------------------------------------------------------------------
  // checkRegData

  /** checkRegData's filter: the errors whose message is not "Invalid value", in
      their order. */
  function Named(errors: seq<FieldError>): (r: seq<FieldError>)
    ensures |r| <= |errors|
    ensures forall e :: e in r ==> e in errors && e.msg != InvalidValue
    ensures forall e :: e in errors && e.msg != InvalidValue ==> e in r
  {
    if |errors| == 0 then []
    else (if errors[0].msg != InvalidValue then [errors[0]] else []) + Named(errors[1..])
  }

  lemma {:induction false} NamedAppend(a: seq<FieldError>, b: seq<FieldError>)
    ensures Named(a + b) == Named(a) + Named(b)
  {
    if |a| == 0 {
      assert a + b == b;
    } else {
      assert (a + b)[1..] == a[1..] + b;
      NamedAppend(a[1..], b);
    }
  }

  /** checkRegData: passes the request on exactly when no error was recorded.
      Otherwise it drops the errors with the default message; if some remain it
      renders the registration view with them and the submitted names and email
      (never the password), and if none remain it answers nothing at all. */
  function CheckRegData(req: Request, rows: seq<HtmlBuilders.Classification>): (r: Step)
    ensures r.req == req
    ensures r.out == Next <==> req.errors == []
    ensures r.out == NoResponse <==> req.errors != [] && Named(req.errors) == []
    ensures r.out.Render? <==> Named(req.errors) != []
    ensures r.out.Render? ==>
              && r.out.status == Ok && r.out.view == RegisterView
              && r.out.locals.Keys == {"errors", "title", "nav", FirstName, LastName, Email}
              && r.out.locals["errors"] == Errors(Named(req.errors))
              && r.out.locals["title"] == Str("Registration")
              && r.out.locals["nav"] == Str(HtmlBuilders.Nav(rows))
              && r.out.locals[FirstName] == BodyValue(req.body, FirstName)
              && r.out.locals[LastName] == BodyValue(req.body, LastName)
              && r.out.locals[Email] == BodyValue(req.body, Email)
  {
    if req.errors == [] then Step(req, Next)
    else
      var named := Named(req.errors);
      if |named| > 0 then
        Step(req, Render(Ok, RegisterView,
                         map["errors" := Errors(named),
                             "title" := Str("Registration"),
                             "nav" := Str(HtmlBuilders.Nav(rows)),
                             FirstName := BodyValue(req.body, FirstName),
                             LastName := BodyValue(req.body, LastName),
                             Email := BodyValue(req.body, Email)]))
      else Step(req, NoResponse)
  }

  /** A name that draws the default message is also too short, so its own
      message comes with it. */
  lemma NameErrorsNamed(field: string, value: string, least: nat, message: string)
    requires least >= 1 && message != InvalidValue
    ensures NameErrors(field, value, least, message) != [] ==> Named(NameErrors(field, value, least, message)) != []
  {
    NamedAppend(Unless(value != "", field, InvalidValue), Unless(ValidatorLength(value) >= least, field, message));
  }

  /** An empty password is not strong either, so the policy message comes with
      the default one. */
  lemma PasswordErrorsNamed(value: string)
    ensures PasswordErrors(value) != [] ==> Named(PasswordErrors(value)) != []
  {
    NamedAppend(Unless(value != "", Password, InvalidValue), Unless(IsStrongPassword(value), Password, PasswordWeak));
    assert Utf16Length("") == 0;
    assert PasswordWeak != InvalidValue by { assert |PasswordWeak| != |InvalidValue|; }
  }

  /** The email errors all carry named messages. */
  lemma EmailErrorsNamed(db: AccountStore.Db, valid: bool, email: string)
    ensures var errs := Unless(valid, Email, EmailInvalid) + AvailabilityErrors(db, email);
            Named(errs) == errs
  {
    var c := Unless(valid, Email, EmailInvalid);
    var d := AvailabilityErrors(db, email);
    NamedAppend(c, d);
    assert EmailInvalid != InvalidValue by { assert |EmailInvalid| != |InvalidValue|; }
    assert EmailExists != InvalidValue by { assert |EmailExists| != |InvalidValue|; }
    assert StoreDown != InvalidValue by { assert |StoreDown| != |InvalidValue|; }
  }

  /** Every default-message error the registration rules record comes with a
      named one, so the registration errors never filter down to nothing. */
  lemma RegistrationErrorsNamed(body: map<string, string>, env: Env)
    ensures RegistrationErrors(body, env) != [] ==> Named(RegistrationErrors(body, env)) != []
  {
    var email := Trim(BodyField(body, Email));
    var a := NameErrors(FirstName, Escape(Trim(BodyField(body, FirstName))), 1, FirstNameMissing);
    var b := NameErrors(LastName, Escape(Trim(BodyField(body, LastName))), 2, LastNameMissing);
    var cd := Unless(env.oracles.isEmail(email), Email, EmailInvalid)
              + AvailabilityErrors(env.db, env.oracles.normalizeEmail(email));
    var e := PasswordErrors(Trim(BodyField(body, Password)));
    assert RegistrationErrors(body, env) == a + (b + (cd + e));
    NameErrorsNamed(FirstName, Escape(Trim(BodyField(body, FirstName))), 1, FirstNameMissing) by {
      assert |FirstNameMissing| != |InvalidValue|;
    }
    NameErrorsNamed(LastName, Escape(Trim(BodyField(body, LastName))), 2, LastNameMissing) by {
      assert |LastNameMissing| != |InvalidValue|;
    }
    EmailErrorsNamed(env.db, env.oracles.isEmail(email), env.oracles.normalizeEmail(email));
    PasswordErrorsNamed(Trim(BodyField(body, Password)));
    NamedAppend(cd, e);
    NamedAppend(b, cd + e);
    NamedAppend(a, b + (cd + e));
  }

  /** POST /account/register past the rules: the request goes on to the handler
      exactly when the registration is valid; otherwise the form always comes
      back (never an empty answer), echoing the names trimmed and escaped and
      the email normalized, as the rules left them. */
  lemma RegistrationPipeline(req: Request, env: Env, rows: seq<HtmlBuilders.Classification>)
    requires req.errors == []
    ensures var r := CheckRegData(ApplyRules(RegistrationRules, req, env), rows);
            && (r.out == Next <==> ValidRegistration(req.body, env))
            && r.out != NoResponse
            && (r.out != Next ==>
                  && r.out.Render?
                  && r.out.locals[FirstName] == Str(Escape(Trim(BodyField(req.body, FirstName))))
                  && r.out.locals[LastName] == Str(Escape(Trim(BodyField(req.body, LastName))))
                  && r.out.locals[Email] == Str(env.oracles.normalizeEmail(Trim(BodyField(req.body, Email)))))
  {
    RegistrationRulesReport(req.body, env);
    RegistrationRulesMeaning(req.body, env);
    RegistrationRulesBody(req.body, env);
    RegistrationErrorsNamed(req.body, env);
    var p := RunChains(RegistrationRules, req.body, env);
    assert [] + p.errors == p.errors;
  }

  // ---------------------------------------------------------------------------
  // Login

  function LoginErrors(body: map<string, string>, env: Env): seq<FieldError> {
    Unless(env.oracles.isEmail(Trim(BodyField(body, Email))), Email, EmailInvalid)
    + Unless(ValidatorLength(Trim(BodyField(body, Password))) >= 12, Password, PasswordShort)
  }

  /** A login form the rules accept: the trimmed email is an email and the
      trimmed password has at least twelve characters; nothing else about the
      password is asked. */
  predicate ValidLogin(body: map<string, string>, env: Env) {
    env.oracles.isEmail(Trim(BodyField(body, Email))) && ValidatorLength(Trim(BodyField(body, Password))) >= 12
  }

  lemma LoginRulesIndependent()
    ensures Independent(LoginRules)
  {
    assert Email != Password by { assert |Email| != |Password|; }
  }

  lemma LoginEmailChain(body: map<string, string>, env: Env)
    ensures RunChain(LoginRules[0], body, env).errors
            == Unless(env.oracles.isEmail(Trim(BodyField(body, Email))), Email, EmailInvalid)
  {
    SanitizeThenCheck(Email, TrimSpace, IsEmail, Some(EmailInvalid), body, env);
  }

  lemma LoginPasswordChain(body: map<string, string>, env: Env)
    ensures RunChain(LoginRules[1], body, env).errors
            == Unless(ValidatorLength(Trim(BodyField(body, Password))) >= 12, Password, PasswordShort)
  {
    SanitizeThenCheck(Password, TrimSpace, MinLength(12), Some(PasswordShort), body, env);
  }

  lemma LoginErrorsFrom(body: map<string, string>, env: Env)
    ensures ErrorsFrom(LoginRules, 0, body, env) == LoginErrors(body, env)
  {
    LoginEmailChain(body, env);
    LoginPasswordChain(body, env);
    ErrorsFromPair(LoginRules, body, env);
  }

  /** The login rules report what `LoginErrors` says, pass exactly a valid login
      form, and leave the email and password trimmed in the body. */
  lemma LoginRulesReport(body: map<string, string>, env: Env)
    ensures var p := RunChains(LoginRules, body, env);
            && p.errors == LoginErrors(body, env)
            && (p.errors == [] <==> ValidLogin(body, env))
            && Email in p.body && p.body[Email] == Trim(BodyField(body, Email))
            && Password in p.body && p.body[Password] == Trim(BodyField(body, Password))
  {
    LoginRulesIndependent();
    IndependentChainsApart(LoginRules, body, env);
    LoginErrorsFrom(body, env);
    LoginRulesBody(body, env);
  }

  lemma LoginRulesBody(body: map<string, string>, env: Env)
    ensures var after := RunChains(LoginRules, body, env).body;
            && Email in after && after[Email] == Trim(BodyField(body, Email))
            && Password in after && after[Password] == Trim(BodyField(body, Password))
  {
    LoginRulesIndependent();
    SanitizeThenCheck(Email, TrimSpace, IsEmail, Some(EmailInvalid), body, env);
    SanitizeThenCheck(Password, TrimSpace, MinLength(12), Some(PasswordShort), body, env);
    IndependentChainsBody(LoginRules, body, env, 0);
    IndependentChainsBody(LoginRules, body, env, 1);
  }

  /** Twelve lower-case letters: trim leaves them alone, they are twelve
      characters long, and with no upper-case letter they are not strong. */
  lemma TwelveLettersWeak(v: string)
    requires v == seq(12, _ => 'a')
    ensures Trim(v) == v && ValidatorLength(v) == 12 && !IsStrongPassword(v)
  {
    assert forall i :: 0 <= i < |v| ==> v[i] == 'a';
    assert Trim(v) == v by {
      assert !IsJsWhitespace(v[0]) && !IsJsWhitespace(v[|v| - 1]);
    }
    assert CountWhere(v, IsVariationSelector) == 0 by {
      CountWherePositive(v, IsVariationSelector);
    }
    assert CountWhere(v, IsAsciiUpper) == 0 by {
      CountWherePositive(v, IsAsciiUpper);
    }
  }

  /** The login rule asks for length only: twelve lower-case letters pass it
      although the registration policy refuses them. */
  lemma LoginAcceptsWeakPassword(body: map<string, string>, env: Env)
    requires env.oracles.isEmail(Trim(BodyField(body, Email)))
    requires BodyField(body, Password) == seq(12, _ => 'a')
    ensures RunChains(LoginRules, body, env).errors == []
    ensures !IsStrongPassword(Trim(BodyField(body, Password)))
  {
    TwelveLettersWeak(BodyField(body, Password));
    LoginRulesReport(body, env);
  }

  /** checkLoginData: passes the request on exactly when no error was recorded;
      otherwise renders the login view with every error and the submitted email. */
  function CheckLoginData(req: Request, rows: seq<HtmlBuilders.Classification>): (r: Step)
    ensures r.req == req
    ensures r.out == Next <==> req.errors == []
    ensures r.out != Next ==>
              && r.out.Render? && r.out.status == Ok && r.out.view == LoginView
              && r.out.locals.Keys == {"errors", "title", "nav", Email}
              && r.out.locals["errors"] == Errors(req.errors)
              && r.out.locals["title"] == Str("Login")
              && r.out.locals["nav"] == Str(HtmlBuilders.Nav(rows))
              && r.out.locals[Email] == BodyValue(req.body, Email)
  {
    if req.errors == [] then Step(req, Next)
    else
      Step(req, Render(Ok, LoginView,
                       map["errors" := Errors(req.errors),
                           "title" := Str("Login"),
                           "nav" := Str(HtmlBuilders.Nav(rows)),
                           Email := BodyValue(req.body, Email)]))
  }

  /** The login rules followed by checkLoginData, on a request with no earlier
      errors: the request is passed on exactly when the form is valid, and
      otherwise answered with the login view. */
  lemma LoginPipeline(req: Request, env: Env, rows: seq<HtmlBuilders.Classification>)
    requires req.errors == []
    ensures var r := CheckLoginData(ApplyRules(LoginRules, req, env), rows);
            && (r.out == Next <==> ValidLogin(req.body, env))
            && (r.out != Next ==> r.out.Render? && r.out.status == Ok && r.out.view == LoginView)
  {
    LoginRulesReport(req.body, env);
    var p := RunChains(LoginRules, req.body, env);
    assert [] + p.errors == p.errors;
  }

  // ---------------------------------------------------------------------------
  // Account update

  /** `existingAccount.account_id != req.body.account_id`: the id field is
      missing, or does not loosely equal the account's id. */
  predicate OtherAccount(a: AccountStore.Account, body: map<string, string>) {
    !(AccountId in body && LooseEqualsNumber(a.id, body[AccountId]))
  }

  /** What the update email lookup reports: the store's error when it is down,
      the "in use" message when the first account with the email is another
      one, nothing otherwise. */
  function OwnershipErrors(db: AccountStore.Db, email: string, body: map<string, string>): seq<FieldError> {
    if !db.online then [FieldError(Email, StoreDown)]
    else
      var k := AccountStore.FirstWhere(db.rows, AccountStore.EmailIs(email));
      Unless(k == |db.rows| || !OtherAccount(db.rows[k], body), Email, EmailInUse)
  }

  function UpdateEmailErrors(body: map<string, string>, env: Env): seq<FieldError> {
    var email := Trim(BodyField(body, Email));
    Unless(env.oracles.isEmail(email), Email, EmailInvalid) + OwnershipErrors(env.db, email, body)
  }

  function UpdateAccountErrors(body: map<string, string>, env: Env): seq<FieldError> {
    Unless(Trim(BodyField(body, FirstName)) != "", FirstName, FirstNameRequired)
    + (Unless(Trim(BodyField(body, LastName)) != "", LastName, LastNameRequired)
    + UpdateEmailErrors(body, env))
  }

  predicate ValidAccountUpdate(body: map<string, string>, env: Env) {
    var email := Trim(BodyField(body, Email));
    && Trim(BodyField(body, FirstName)) != ""
    && Trim(BodyField(body, LastName)) != ""
    && env.oracles.isEmail(email)
    && OwnershipErrors(env.db, email, body) == []
  }

  /** The update email rule, against the store: with the store reachable it
      fails exactly when the lookup finds an account and that account's id
      differs (loosely) from the submitted `account_id`. */
  lemma OwnershipMeaning(db: AccountStore.Db, email: string, body: map<string, string>)
    requires db.online
    ensures var found := AccountStore.GetAccountByEmail(db, email);
            OwnershipErrors(db, email, body) != []
            <==> found.value.Some? && OtherAccount(found.value.value, body)
  {
  }

  /** Keeping one's own email passes: when the account the email lookup finds is
      the one whose id the form echoes back, no "in use" error is reported. */
  lemma OwnEmailAccepted(db: AccountStore.Db, email: string, body: map<string, string>, a: AccountStore.Account)
    requires AccountStore.GetAccountByEmail(db, email) == Success(Some(a))
    requires AccountId in body && body[AccountId] == IntToString(a.id)
    ensures OwnershipErrors(db, email, body) == []
  {
    LooseEqualsOwnText(a.id);
  }

  lemma OwnershipFound(value: string, body: map<string, string>, env: Env)
    ensures Found(Email, EmailFreeFor(AccountId), None, value, body, env) == OwnershipErrors(env.db, value, body)
  {
    if !env.db.online {
      assert Evaluate(EmailFreeFor(AccountId), value, body, env) == Threw(StoreDown);
    }
  }

  lemma UpdateEmailRuleReport(body: map<string, string>, env: Env)
    ensures RunChain(UpdateEmailRule, body, env).errors == UpdateEmailErrors(body, env)
  {
    var email := Trim(BodyField(body, Email));
    var b := SanitizeField(TrimSpace, Email, body, env);
    var f1 := Found(Email, IsEmail, Some(EmailInvalid), b[Email], b, env);
    var f2 := Found(Email, EmailFreeFor(AccountId), None, b[Email], b, env);
    assert RunChain(UpdateEmailRule, body, env).errors == f1 + f2 by {
      SanitizeThenTwoChecks(Email, TrimSpace, IsEmail, Some(EmailInvalid), EmailFreeFor(AccountId), None, body, env);
    }
    assert f1 == Unless(env.oracles.isEmail(email), Email, EmailInvalid);
    assert f2 == OwnershipErrors(env.db, email, body) by {
      OwnershipFound(email, b, env);
      assert AccountId != Email by { assert |AccountId| != |Email|; }
      OwnershipFrame(env.db, email, b, body);
    }
  }

  /** The ownership check reads `account_id` only. */
  lemma OwnershipFrame(db: AccountStore.Db, email: string, b1: map<string, string>, b2: map<string, string>)
    requires (AccountId in b1 <==> AccountId in b2) && (AccountId in b1 ==> b1[AccountId] == b2[AccountId])
    ensures OwnershipErrors(db, email, b1) == OwnershipErrors(db, email, b2)
  {
  }

  /** The email errors of the update rules depend on the email and `account_id`
      fields only. */
  lemma UpdateEmailErrorsFrame(b1: map<string, string>, b2: map<string, string>, env: Env)
    requires BodyField(b1, Email) == BodyField(b2, Email)
    requires (AccountId in b1 <==> AccountId in b2) && (AccountId in b1 ==> b1[AccountId] == b2[AccountId])
    ensures UpdateEmailErrors(b1, env) == UpdateEmailErrors(b2, env)
  {
    OwnershipFrame(env.db, Trim(BodyField(b1, Email)), b1, b2);
  }

  lemma UpdateRulesFromEmail(body: map<string, string>, env: Env)
    ensures RunChains(UpdateAccountRules[2..], body, env).errors == UpdateEmailErrors(body, env)
  {
    var rules := UpdateAccountRules[2..];
    assert rules == [UpdateEmailRule];
    UpdateEmailRuleReport(body, env);
    var p := RunChain(UpdateEmailRule, body, env);
    assert rules[1..] == [];
    assert p.errors + [] == p.errors;
  }

  /** The five account fields have different names. */
  lemma FieldsDistinct()
    ensures FirstName != LastName && FirstName != Email && FirstName != Password && FirstName != AccountId
    ensures LastName != Email && LastName != Password && LastName != AccountId
    ensures Email != Password && Email != AccountId && Password != AccountId
  {
    assert |FirstName| == 17 && |LastName| == 16 && |Email| == 13 && |Password| == 16 && |AccountId| == 10;
    assert LastName[8] != Password[8];
  }

  /** The update rules one by one. */
  lemma UpdateRulesShape()
    ensures UpdateAccountRules[0] == TrimmedRequired(FirstName, FirstNameRequired)
    ensures UpdateAccountRules[1..][0] == TrimmedRequired(LastName, LastNameRequired)
    ensures UpdateAccountRules[1..][1..] == UpdateAccountRules[2..] == [UpdateEmailRule]
  {
  }

  lemma UpdateRulesFromLastName(body: map<string, string>, env: Env)
    ensures RunChains(UpdateAccountRules[1..], body, env).errors
            == Unless(Trim(BodyField(body, LastName)) != "", LastName, LastNameRequired) + UpdateEmailErrors(body, env)
  {
    var last := Trim(BodyField(body, LastName));
    var b1 := body[LastName := last];
    var head := Unless(last != "", LastName, LastNameRequired);
    assert RunChains(UpdateAccountRules[1..], body, env).errors
           == head + RunChains(UpdateAccountRules[2..], b1, env).errors by {
      UpdateRulesShape();
      TrimmedRequiredReport(LastName, LastNameRequired, body, env);
      RunChainsStep(UpdateAccountRules[1..], body, env, Pass(b1, head));
    }
    assert RunChains(UpdateAccountRules[2..], b1, env).errors == UpdateEmailErrors(body, env) by {
      UpdateRulesFromEmail(b1, env);
      FieldsDistinct();
      UpdateEmailErrorsFrame(b1, body, env);
    }
  }

  /** The first-name chain trims the field and records its error, if any,
      ahead of the remaining chains run on the trimmed body. */
  lemma UpdateRulesFirstStep(body: map<string, string>, env: Env)
    ensures var first := Trim(BodyField(body, FirstName));
            RunChains(UpdateAccountRules, body, env).errors
            == Unless(first != "", FirstName, FirstNameRequired)
               + RunChains(UpdateAccountRules[1..], body[FirstName := first], env).errors
  {
    var first := Trim(BodyField(body, FirstName));
    UpdateRulesShape();
    TrimmedRequiredReport(FirstName, FirstNameRequired, body, env);
    RunChainsStep(UpdateAccountRules, body, env, Pass(body[FirstName := first], Unless(first != "", FirstName, FirstNameRequired)));
  }

  /** The update rules report what `UpdateAccountErrors` says. The email check
      reads `account_id` too, which no update rule rewrites. */
  lemma UpdateAccountRulesReport(body: map<string, string>, env: Env)
    ensures RunChains(UpdateAccountRules, body, env).errors == UpdateAccountErrors(body, env)
  {
    var b0 := body[FirstName := Trim(BodyField(body, FirstName))];
    UpdateRulesFirstStep(body, env);
    UpdateRulesFromLastName(b0, env);
    FieldsDistinct();
    UpdateEmailErrorsFrame(b0, body, env);
    assert BodyField(b0, LastName) == BodyField(body, LastName);
  }

  lemma UpdateAccountRulesMeaning(body: map<string, string>, env: Env)
    ensures RunChains(UpdateAccountRules, body, env).errors == [] <==> ValidAccountUpdate(body, env)
  {
    UpdateAccountRulesReport(body, env);
  }

  /** checkUpdateAccountData: passes the request on exactly when no error was
      recorded; otherwise answers 400 with the update view, the errors, and the
      submitted id, names and email. */
  function CheckUpdateAccountData(req: Request, rows: seq<HtmlBuilders.Classification>): (r: Step)
    ensures r.req == req
    ensures r.out == Next <==> req.errors == []
    ensures r.out != Next ==>
              && r.out.Render? && r.out.status == BadRequest && r.out.view == UpdateView
              && r.out.locals.Keys == {"title", "nav", "errors", AccountId, FirstName, LastName, Email}
              && r.out.locals["title"] == Str("Update Account")
              && r.out.locals["nav"] == Str(HtmlBuilders.Nav(rows))
              && r.out.locals["errors"] == Errors(req.errors)
              && r.out.locals[AccountId] == BodyValue(req.body, AccountId)
              && r.out.locals[FirstName] == BodyValue(req.body, FirstName)
              && r.out.locals[LastName] == BodyValue(req.body, LastName)
              && r.out.locals[Email] == BodyValue(req.body, Email)
  {
    if req.errors == [] then Step(req, Next)
    else
      Step(req, Render(BadRequest, UpdateView,
                       map["title" := Str("Update Account"),
                           "nav" := Str(HtmlBuilders.Nav(rows)),
                           "errors" := Errors(req.errors),
                           AccountId := BodyValue(req.body, AccountId),
                           FirstName := BodyValue(req.body, FirstName),
                           LastName := BodyValue(req.body, LastName),
                           Email := BodyValue(req.body, Email)]))
  }

  /** checkUpdatePasswordData: passes the request on exactly when no error was
      recorded; otherwise answers 400 with the update view, the errors and the
      submitted id only. */
  function CheckUpdatePasswordData(req: Request, rows: seq<HtmlBuilders.Classification>): (r: Step)
    ensures r.req == req
    ensures r.out == Next <==> req.errors == []
    ensures r.out != Next ==>
              && r.out.Render? && r.out.status == BadRequest && r.out.view == UpdateView
              && r.out.locals.Keys == {"title", "nav", "errors", AccountId}
              && r.out.locals["title"] == Str("Update Account")
              && r.out.locals["nav"] == Str(HtmlBuilders.Nav(rows))
              && r.out.locals["errors"] == Errors(req.errors)
              && r.out.locals[AccountId] == BodyValue(req.body, AccountId)
  {
    if req.errors == [] then Step(req, Next)
    else
      Step(req, Render(BadRequest, UpdateView,
                       map["title" := Str("Update Account"),
                           "nav" := Str(HtmlBuilders.Nav(rows)),
                           "errors" := Errors(req.errors),
                           AccountId := BodyValue(req.body, AccountId)]))
  }

  /** The email chain of the update rules trims the email and leaves the rest
      of the body as it was. */
  lemma UpdateRulesBodyFromEmail(body: map<string, string>, env: Env)
    ensures RunChains(UpdateAccountRules[2..], body, env).body == SanitizeField(TrimSpace, Email, body, env)
  {
    var rules := UpdateAccountRules[2..];
    assert rules == [UpdateEmailRule];
    var b := SanitizeField(TrimSpace, Email, body, env);
    var first := RunChain(UpdateEmailRule, body, env);
    assert first.body == b by {
      SanitizeThenTwoChecks(Email, TrimSpace, IsEmail, Some(EmailInvalid), EmailFreeFor(AccountId), None, body, env);
    }
    RunChainsStep(rules, body, env, first);
    assert rules[1..] == [];
  }

  /** The first-name chain hands the remaining chains the body with the first
      name trimmed. */
  lemma UpdateRulesBodyFirstStep(body: map<string, string>, env: Env)
    ensures RunChains(UpdateAccountRules, body, env).body
            == RunChains(UpdateAccountRules[1..], body[FirstName := Trim(BodyField(body, FirstName))], env).body
  {
    var first := Trim(BodyField(body, FirstName));
    UpdateRulesShape();
    TrimmedRequiredReport(FirstName, FirstNameRequired, body, env);
    RunChainsStep(UpdateAccountRules, body, env, Pass(body[FirstName := first], Unless(first != "", FirstName, FirstNameRequired)));
  }

  /** The last-name chain hands the email chain the body with the last name
      trimmed. */
  lemma UpdateRulesBodyLastStep(body: map<string, string>, env: Env)
    ensures RunChains(UpdateAccountRules[1..], body, env).body
            == RunChains(UpdateAccountRules[2..], body[LastName := Trim(BodyField(body, LastName))], env).body
  {
    var last := Trim(BodyField(body, LastName));
    UpdateRulesShape();
    TrimmedRequiredReport(LastName, LastNameRequired, body, env);
    RunChainsStep(UpdateAccountRules[1..], body, env, Pass(body[LastName := last], Unless(last != "", LastName, LastNameRequired)));
  }

  /** The update rules leave the names and the email trimmed in the body and
      `account_id` as it was submitted. */
  lemma UpdateAccountRulesBody(body: map<string, string>, env: Env)
    ensures var after := RunChains(UpdateAccountRules, body, env).body;
            && FirstName in after && after[FirstName] == Trim(BodyField(body, FirstName))
            && LastName in after && after[LastName] == Trim(BodyField(body, LastName))
            && Email in after && after[Email] == Trim(BodyField(body, Email))
            && (AccountId in after <==> AccountId in body)
            && (AccountId in body ==> after[AccountId] == body[AccountId])
  {
    var b0 := body[FirstName := Trim(BodyField(body, FirstName))];
    var b1 := b0[LastName := Trim(BodyField(b0, LastName))];
    var after := SanitizeField(TrimSpace, Email, b1, env);
    assert RunChains(UpdateAccountRules, body, env).body == after by {
      UpdateRulesBodyFirstStep(body, env);
      UpdateRulesBodyLastStep(b0, env);
      UpdateRulesBodyFromEmail(b1, env);
    }
    FieldsDistinct();
    assert BodyField(b0, LastName) == BodyField(body, LastName);
    assert BodyField(b1, Email) == BodyField(body, Email);
    assert (AccountId in after <==> AccountId in b1) && (AccountId in b1 ==> after[AccountId] == b1[AccountId]);
  }

  /** POST /account/update past the rules: the request goes on to the handler
      exactly when the update is valid; otherwise the form comes back with 400,
      every error the rules found, the names and email as the rules trimmed
      them, and the submitted `account_id`. */
  lemma UpdateAccountPipeline(req: Request, env: Env, rows: seq<HtmlBuilders.Classification>)
    requires req.errors == []
    ensures var r := CheckUpdateAccountData(ApplyRules(UpdateAccountRules, req, env), rows);
            && (r.out == Next <==> ValidAccountUpdate(req.body, env))
            && (r.out != Next ==>
                  && r.out.Render? && r.out.status == BadRequest && r.out.view == UpdateView
                  && r.out.locals["errors"] == Errors(UpdateAccountErrors(req.body, env))
                  && r.out.locals[FirstName] == Str(Trim(BodyField(req.body, FirstName)))
                  && r.out.locals[LastName] == Str(Trim(BodyField(req.body, LastName)))
                  && r.out.locals[Email] == Str(Trim(BodyField(req.body, Email)))
                  && r.out.locals[AccountId] == BodyValue(req.body, AccountId))
  {
    UpdateAccountRulesReport(req.body, env);
    UpdateAccountRulesMeaning(req.body, env);
    UpdateAccountRulesBody(req.body, env);
    var p := RunChains(UpdateAccountRules, req.body, env);
    assert [] + p.errors == p.errors;
  }

  /** POST /account/update-password past the rules: the request goes on exactly
      when the trimmed password is strong; otherwise the form comes back with
      400, the password errors, and only the submitted `account_id` echoed. */
  lemma UpdatePasswordPipeline(req: Request, env: Env, rows: seq<HtmlBuilders.Classification>)
    requires req.errors == []
    ensures var v := Trim(BodyField(req.body, Password));
            var r := CheckUpdatePasswordData(ApplyRules(UpdatePasswordRules, req, env), rows);
            && (r.out == Next <==> IsStrongPassword(v))
            && (r.out != Next ==>
                  && r.out.Render? && r.out.status == BadRequest && r.out.view == UpdateView
                  && r.out.locals.Keys == {"title", "nav", "errors", AccountId}
                  && r.out.locals["errors"] == Errors(PasswordErrors(v))
                  && r.out.locals[AccountId] == BodyValue(req.body, AccountId))
  {
    UpdatePasswordRulesMeaning(req.body, env);
    var p := RunChains(UpdatePasswordRules, req.body, env);
    assert p.body == req.body[Password := Trim(BodyField(req.body, Password))] by {
      PasswordRuleReport(req.body, env);
      RunChainsStep(UpdatePasswordRules, req.body, env, RunChain(PasswordRule, req.body, env));
      assert UpdatePasswordRules[1..] == [];
    }
    FieldsDistinct();
    assert BodyValue(p.body, AccountId) == BodyValue(req.body, AccountId);
    assert [] + p.errors == p.errors;
  }
}

=== FILE: auth_middleware.dfy ===
/** The per-request JWT middleware and the two gates built on what it leaves in
    `res.locals` (utilities/index.js). */
module AuthMiddleware {
  import opened Wrappers
  import opened Http
  import Flash

  const LoginPath := "/account/login"
  const NoticeCategory := "notice"
  /** checkLogin's notice. */
  const PleaseLogIn := "Please log in."
  /** checkAccountType's notice for a visitor who is not logged in (no period). */
  const PleaseLogInGate := "Please log in"
  const NotAuthorized := "You are not authorized to access Inventory Management."

  /** `jwt.verify(token, ACCESS_TOKEN_SECRET)`: the decoded payload, or None when it
      throws (bad signature, malformed token, expired). The secret and the clock
      are part of the oracle. */
  type Verifier = string -> Option<Payload>

  /** `if (!token)` fails: the cookie is absent or the empty string. */
  predicate HasToken(req: Request) {
    req.jwt.Some? && req.jwt.value != ""
  }

  /** The token is present and the verifier accepts it. */
  predicate TokenAccepted(req: Request, verify: Verifier) {
    HasToken(req) && verify(req.jwt.value).Some?
  }

  /** The account types admitted to inventory management, compared case-sensitively. */
  predicate StaffType(t: string) {
    t == "Employee" || t == "Admin"
  }

  /** The payload is a claims object whose `account_type` is a staff type. */
  predicate HasStaffRole(p: Option<Payload>) {
    p.Some? && p.value.Claims? && p.value.accountType.Some? && StaffType(p.value.accountType.value)
  }

  /** checkJWTToken: always passes the request on. Without a token it marks the
      visitor logged out and touches nothing else; with an accepted token it stores
      the payload and marks the visitor logged in; with a rejected token it clears
      the `jwt` cookie, marks the visitor logged out and leaves `accountData` as it was. */
  function CheckJWTToken(req: Request, verify: Verifier): (r: Step)
    ensures r.out == Next
    ensures r.req.body == req.body && r.req.jwt == req.jwt
    ensures r.req.flash == req.flash && r.req.errors == req.errors
    ensures r.req.locals.loggedin == Some(if TokenAccepted(req, verify) then 1 else 0)
    ensures !HasToken(req) ==>
              r.req.locals.accountData == req.locals.accountData && r.req.cookieOps == req.cookieOps
    ensures TokenAccepted(req, verify) ==>
              r.req.locals.accountData == verify(req.jwt.value) && r.req.cookieOps == req.cookieOps
    ensures HasToken(req) && !TokenAccepted(req, verify) ==>
              && r.req.locals.accountData == req.locals.accountData
              && r.req.cookieOps == req.cookieOps + [ClearCookie("jwt")]
  {
    if !HasToken(req) then
      Step(req.(locals := req.locals.(loggedin := Some(0))), Next)
    else
      match verify(req.jwt.value)
      case Some(payload) =>
        Step(req.(locals := Locals(Some(1), Some(payload))), Next)
      case None =>
        Step(req.(cookieOps := req.cookieOps + [ClearCookie("jwt")],
                  locals := req.locals.(loggedin := Some(0))), Next)
  }

  /** checkLogin: passes the request on, unchanged, exactly when `loggedin` is
      truthy; otherwise queues the "Please log in." notice and redirects to the
      login page. */
  function CheckLogin(req: Request): (r: Step)
    ensures r.out == Next <==> Truthy(req.locals.loggedin)
    ensures r.out == Next ==> r.req == req
    ensures r.out != Next ==>
              && r.out == Redirect(LoginPath)
              && r.req == req.(flash := Flash.Push(req.flash, NoticeCategory, PleaseLogIn))
  {
    if Truthy(req.locals.loggedin) then Step(req, Next)
    else Step(req.(flash := Flash.Push(req.flash, NoticeCategory, PleaseLogIn)), Redirect(LoginPath))
  }

  /** checkAccountType: passes the request on, unchanged, exactly when the visitor
      is logged in and the payload's `account_type` is "Employee" or "Admin".
      Otherwise it redirects to the login page with one of two notices: "Please log
      in" when `loggedin` or `accountData` is falsy, the not-authorized notice when
      the account type is anything else. */
  function CheckAccountType(req: Request): (r: Step)
    ensures r.out == Next <==> Truthy(req.locals.loggedin) && HasStaffRole(req.locals.accountData)
    ensures r.out == Next ==> r.req == req
    ensures r.out != Next ==> r.out == Redirect(LoginPath)
    ensures !Truthy(req.locals.loggedin) || !PayloadTruthy(req.locals.accountData) ==>
              r.req == req.(flash := Flash.Push(req.flash, NoticeCategory, PleaseLogInGate))
    ensures Truthy(req.locals.loggedin) && PayloadTruthy(req.locals.accountData)
            && !HasStaffRole(req.locals.accountData) ==>
              r.req == req.(flash := Flash.Push(req.flash, NoticeCategory, NotAuthorized))
  {
    if !Truthy(req.locals.loggedin) || !PayloadTruthy(req.locals.accountData) then
      Step(req.(flash := Flash.Push(req.flash, NoticeCategory, PleaseLogInGate)), Redirect(LoginPath))
    else if !HasStaffRole(req.locals.accountData) then
      Step(req.(flash := Flash.Push(req.flash, NoticeCategory, NotAuthorized)), Redirect(LoginPath))
    else
      Step(req, Next)
  }

  /** Whoever passes the staff gate also passes the login gate. */
  lemma StaffGateImpliesLoginGate(req: Request)
    ensures CheckAccountType(req).out == Next ==> CheckLogin(req).out == Next
  {
  }

  /** After the JWT middleware, the login gate admits the request exactly when the
      request carried a token the verifier accepts; whatever `res.locals` held
      before plays no part. */
  lemma LoginGateAfterToken(req: Request, verify: Verifier)
    ensures CheckLogin(CheckJWTToken(req, verify).req).out == Next <==> TokenAccepted(req, verify)
  {
  }

  /** After the JWT middleware, the staff gate admits the request exactly when the
      request carried an accepted token whose payload has a staff account type: a
      stale `accountData` left from before never opens the gate (fail closed). */
  lemma StaffGateAfterToken(req: Request, verify: Verifier)
    ensures CheckAccountType(CheckJWTToken(req, verify).req).out == Next
            <==> TokenAccepted(req, verify) && HasStaffRole(verify(req.jwt.value))
  {
    var after := CheckJWTToken(req, verify).req;
    if TokenAccepted(req, verify) {
      assert after.locals.accountData == verify(req.jwt.value);
    } else {
      assert after.locals.loggedin == Some(0);
    }
  }

  /** Among the account types of the account table, the staff gate admits a
      logged-in Employee or Admin and turns a Client away with the not-authorized
      notice; the comparison is case-sensitive. */
  lemma StaffGateByAccountType(req: Request, t: string)
    requires Truthy(req.locals.loggedin)
    requires req.locals.accountData.Some? && req.locals.accountData.value.Claims?
    requires req.locals.accountData.value.accountType == Some(t)
    ensures CheckAccountType(req).out == Next <==> t == "Employee" || t == "Admin"
    ensures t == "Client" || t == "admin" || t == "employee" ==>
              CheckAccountType(req).req.flash == Flash.Push(req.flash, NoticeCategory, NotAuthorized)
  {
  }

  /** Running the JWT middleware twice leaves the same login state as running it once. */
  lemma CheckJWTTokenIdempotent(req: Request, verify: Verifier)
    ensures CheckJWTToken(CheckJWTToken(req, verify).req, verify).req.locals
            == CheckJWTToken(req, verify).req.locals
  {
  }
}

=== FILE: flash.dfy ===
/** connect-flash: per-session notification messages, queued by category and
    handed back (and forgotten) when the category is read. */
module Flash {

  /** Pending messages by category, oldest first. */
  type Store = map<string, seq<string>>

  /** The messages waiting under `category`. */
  function Pending(f: Store, category: string): seq<string> {
    if category in f then f[category] else []
  }

  /** `req.flash(category, message)`: queue `message` behind the messages already
      pending under `category`; every other category is left alone. connect-flash
      queues only a non-empty message (an empty one makes the call a read of the
      category); every message the application pushes is non-empty. */
  function Push(f: Store, category: string, message: string): (f': Store)
    ensures Pending(f', category) == Pending(f, category) + [message]
    ensures forall c :: c != category ==> Pending(f', c) == Pending(f, c)
  {
    f[category := Pending(f, category) + [message]]
  }

  datatype Read = Read(messages: seq<string>, rest: Store)

  /** `req.flash(category)`: hand back the pending messages of `category` and
      remove them from the store; every other category is left alone. */
  function Take(f: Store, category: string): (r: Read)
    ensures r.messages == Pending(f, category)
    ensures Pending(r.rest, category) == []
    ensures forall c :: c != category ==> Pending(r.rest, c) == Pending(f, c)
  {
    Read(Pending(f, category), f - {category})
  }

  /** Read-once: a second read of a category, with no push in between, is empty. */
  lemma ReadOnce(f: Store, category: string)
    ensures Take(Take(f, category).rest, category).messages == []
  {
  }

  /** A pushed message is handed back by the next read, behind the messages that
      were already pending, and the read leaves the store as if neither had happened. */
  lemma PushThenTake(f: Store, category: string, message: string)
    ensures Take(Push(f, category, message), category).messages == Pending(f, category) + [message]
    ensures Take(Push(f, category, message), category).rest == Take(f, category).rest
  {
  }
}

=== FILE: html_builders.dfy ===
/** The HTML fragments utilities/index.js assembles from the classification table:
    the navigation list, the classification select list, and the vehicle detail
    view's not-found branch. The classification rows are a parameter. */
module HtmlBuilders {
  import opened Wrappers
  import opened Strings

  /** A row of the classification table, in the order the query returns them. */
  datatype Classification = Classification(id: int, name: string)

  const NavOpen := "<ul>"
  const NavHome := "<li><a href=\"/\" title=\"Home page\">Home</a></li>"
  const NavClose := "</ul>"

  /** The list item linking to one classification's inventory page. */
  function NavItem(row: Classification): string {
    "<li>" + "<a href=\"/inv/type/" + IntToString(row.id) + "\" title=\"See our inventory of "
    + row.name + " vehicles\">" + row.name + "</a>" + "</li>"
  }

  /** The items of `rows`, one after the other in row order. */
  function NavItems(rows: seq<Classification>): string {
    Concat(rows, NavItem)
  }

  /** The whole navigation list. */
  function Nav(rows: seq<Classification>): string {
    NavOpen + NavHome + NavItems(rows) + NavClose
  }

  /** getNav: the string is assembled item by item as the rows are visited. */
  method GetNav(rows: seq<Classification>) returns (list: string)
    ensures list == Nav(rows)
  {
    var items := "";
    var i := 0;
    while i < |rows|
      invariant 0 <= i <= |rows|
      invariant items == NavItems(rows[..i])
    {
      ConcatSnoc(rows, i, NavItem);
      items := items + NavItem(rows[i]);
      i := i + 1;
    }
    assert rows[..|rows|] == rows;
    list := NavOpen + NavHome + items + NavClose;
  }

  /** Each row contributes exactly one list item, standing after the items of the
      rows before it and before the items of the rows after it. */
  lemma NavItemInPlace(rows: seq<Classification>, i: int)
    requires 0 <= i < |rows|
    ensures NavItems(rows) == NavItems(rows[..i]) + NavItem(rows[i]) + NavItems(rows[i + 1..])
  {
    var front := rows[..i + 1];
    var back := rows[i + 1..];
    assert front + back == rows;
    ConcatAppend(front, back, NavItem);
    ConcatSnoc(rows, i, NavItem);
  }

  /** The navigation list opens with the Home link, whatever the rows. */
  lemma NavBeginsWithHome(rows: seq<Classification>)
    ensures |Nav(rows)| > |NavOpen + NavHome|
    ensures Nav(rows)[..|NavOpen + NavHome|] == NavOpen + NavHome
  {
    var head := NavOpen + NavHome;
    var tail := NavItems(rows) + NavClose;
    assert Nav(rows) == head + tail;
    PrefixOfConcat(head, tail);
  }

  lemma PrefixOfConcat(a: string, b: string)
    ensures (a + b)[..|a|] == a
  {
  }

  const SelectOpen := "<select name=\"classification_id\" id=\"classificationList\" required>"
  const Placeholder := "<option value=''>Choose a Classification</option>"
  const SelectClose := "</select>"

  /** One option of the select list: its value, its label and whether it carries
      the ` selected ` marker. */
  datatype SelectOption = SelectOption(value: string, text: string, selected: bool)

  /** `classification_id != null && row.classification_id == classification_id`,
      where the argument is a form field and `==` is JavaScript's loose equality. */
  predicate IsSelected(arg: Option<string>, id: int) {
    arg.Some? && LooseEqualsNumber(id, arg.value)
  }

  /** The options of the rows: one per row, in row order, each selected exactly
      when its id matches the argument. */
  function Options(rows: seq<Classification>, arg: Option<string>): (opts: seq<SelectOption>)
    ensures |opts| == |rows|
    ensures forall i :: 0 <= i < |rows| ==>
              && opts[i].value == IntToString(rows[i].id)
              && opts[i].text == rows[i].name
              && (opts[i].selected <==> IsSelected(arg, rows[i].id))
  {
    if |rows| == 0 then []
    else
      var last := rows[|rows| - 1];
      Options(rows[..|rows| - 1], arg) + [SelectOption(IntToString(last.id), last.name, IsSelected(arg, last.id))]
  }

  function OptionHtml(o: SelectOption): string {
    "<option value=\"" + o.value + "\"" + (if o.selected then " selected " else "") + ">" + o.text + "</option>"
  }

  function OptionsHtml(opts: seq<SelectOption>): string {
    Concat(opts, OptionHtml)
  }

  /** The select list: the placeholder option with an empty value, then the row options. */
  function SelectList(rows: seq<Classification>, arg: Option<string>): string {
    SelectOpen + Placeholder + OptionsHtml(Options(rows, arg)) + SelectClose
  }

  /** buildClassificationList: the string is assembled option by option as the
      rows are visited. */
  method BuildClassificationList(rows: seq<Classification>, arg: Option<string>) returns (html: string)
    ensures html == SelectList(rows, arg)
  {
    ghost var opts := Options(rows, arg);
    var options := "";
    var i := 0;
    while i < |rows|
      invariant 0 <= i <= |rows|
      invariant options == OptionsHtml(opts[..i])
    {
      var selected := arg.Some? && LooseEqualsNumber(rows[i].id, arg.value);
      var o := SelectOption(IntToString(rows[i].id), rows[i].name, selected);
      assert opts[i] == o;
      ConcatSnoc(opts, i, OptionHtml);
      options := options + OptionHtml(o);
      i := i + 1;
    }
    assert opts[..|rows|] == opts;
    html := SelectOpen + Placeholder + options + SelectClose;
  }

  /** With no argument (`null`), no option is selected. */
  lemma NothingSelectedWithoutArgument(rows: seq<Classification>)
    ensures forall i :: 0 <= i < |rows| ==> !Options(rows, None)[i].selected
  {
  }

  /** A form that echoes a row's id back selects that row. */
  lemma EchoedIdSelected(rows: seq<Classification>, i: int)
    requires 0 <= i < |rows|
    ensures Options(rows, Some(IntToString(rows[i].id)))[i].selected
  {
    LooseEqualsOwnText(rows[i].id);
  }

  /** The fields of a vehicle the detail view shows. */
  datatype Vehicle = Vehicle(id: int, make: string, model: string, year: int, description: string, color: string)

  const VehicleNotFound := "<p class=\"notice\">Sorry, vehicle not found.</p>"

  /** The detail view: the not-found notice when there is no vehicle, otherwise the
      vehicle's detail block (whose price and mileage formatting is not modelled). */
  datatype DetailView = NotFoundNotice(html: string) | VehicleDetail(vehicle: Vehicle)

  /** buildDetailView: a missing vehicle (`undefined` or `null`) yields exactly the
      not-found notice paragraph. */
  function BuildDetailView(vehicle: Option<Vehicle>): (v: DetailView)
    ensures v.NotFoundNotice? <==> vehicle.None?
    ensures v.NotFoundNotice? ==> v.html == VehicleNotFound
    ensures v.VehicleDetail? ==> v.vehicle == vehicle.value
  {
    match vehicle
    case None => NotFoundNotice(VehicleNotFound)
    case Some(car) => VehicleDetail(car)
  }

  /** `getVehicleById`: the first row of the inventory table with the id
      (`result.rows[0]`), or none when no row has it. */
  function VehicleById(vehicles: seq<Vehicle>, id: int): (r: Option<Vehicle>)
    ensures r.Some? ==> r.value in vehicles && r.value.id == id
    ensures r.None? <==> forall k :: 0 <= k < |vehicles| ==> vehicles[k].id != id
  {
    if |vehicles| == 0 then None
    else if vehicles[0].id == id then Some(vehicles[0])
    else VehicleById(vehicles[1..], id)
  }

  /** The detail view of a looked-up vehicle is the not-found notice exactly
      when no row has the id; otherwise it shows a row with that id. */
  lemma DetailNotFoundExactlyWhenMissing(vehicles: seq<Vehicle>, id: int)
    ensures BuildDetailView(VehicleById(vehicles, id)).NotFoundNotice?
            <==> forall k :: 0 <= k < |vehicles| ==> vehicles[k].id != id
    ensures var v := BuildDetailView(VehicleById(vehicles, id));
            v.VehicleDetail? ==> v.vehicle in vehicles && v.vehicle.id == id
  {
  }
}

=== FILE: http.dfy ===
/** The request/response state that Express middleware reads and writes, and the
    outcomes a middleware or handler can produce. */
module Http {
  import opened Wrappers
  import Flash

  /** What `jwt.verify` hands back: a JSON object carrying claims (only the claims
      the code reads are kept), or a bare string when the token's payload is one. */
  datatype Payload =
    | Claims(accountId: Option<int>, firstname: Option<string>, accountType: Option<string>)
    | Text(text: string)

  /** The `res.locals` entries the authentication middleware manages; `None` is
      `undefined`. */
  datatype Locals = Locals(loggedin: Option<int>, accountData: Option<Payload>)

  /** A `Set-Cookie` effect placed on the response. */
  datatype CookieOp = ClearCookie(name: string) | SetCookie(name: string, value: string)

  /** One express-validator error: the field it is about and its message. */
  datatype FieldError = FieldError(path: string, msg: string)

  /** A request in flight: the form body (as sanitized so far), the `jwt` cookie the
      client sent, `res.locals`, the session's flash store, the cookie effects on the
      response so far, and the validation errors recorded so far. */
  datatype Request = Request(
    body: map<string, string>,
    jwt: Option<string>,
    locals: Locals,
    flash: Flash.Store,
    cookieOps: seq<CookieOp>,
    errors: seq<FieldError>)

  /** A value passed to a view. */
  datatype Value = Str(s: string) | Errors(list: seq<FieldError>) | Null | Undefined

  /** What a middleware or handler did with the request: pass it on (`next()`),
      answer it, pass an error on (`next(err)`), or return without answering. */
  datatype Outcome =
    | Next
    | Redirect(path: string)
    | Render(status: int, view: string, locals: map<string, Value>)
    | Handled(handler: string)
    | NextError(message: string)
    | NoResponse

  datatype Step = Step(req: Request, out: Outcome)

  /** The status of `res.render` when none was set. */
  const Ok := 200
  const Created := 201
  const BadRequest := 400
  const Unauthorized := 401
  const ServerError := 500
  const NotImplemented := 501

  /** JavaScript truthiness of a number that may be `undefined`. */
  predicate Truthy(n: Option<int>) {
    n.Some? && n.value != 0
  }

  /** JavaScript truthiness of `res.locals.accountData`. */
  predicate PayloadTruthy(p: Option<Payload>) {
    match p
    case None => false
    case Some(Claims(_, _, _)) => true
    case Some(Text(t)) => t != ""
  }

  /** A body field as express-validator sees it: a missing field reads as "". */
  function BodyField(body: map<string, string>, key: string): string {
    if key in body then body[key] else ""
  }

  /** A body field as a view sees it: a missing field is `undefined`. */
  function BodyValue(body: map<string, string>, key: string): Value {
    if key in body then Str(body[key]) else Undefined
  }

  /** A body field interpolated into a template literal: a missing field prints
      as "undefined". */
  function BodyText(body: map<string, string>, key: string): string {
    if key in body then body[key] else "undefined"
  }

  /** Every body field, as spread into a view's locals with `...req.body`. */
  function BodyLocals(body: map<string, string>): (m: map<string, Value>)
    ensures m.Keys == body.Keys
    ensures forall k :: k in body ==> m[k] == Str(body[k])
  {
    map k | k in body :: Str(body[k])
  }
}

=== FILE: inventory_validation.dfy ===
/** The inventory form rules and the middleware that answers a request whose
    rules failed (utilities/inventory-validation.js). */
module InventoryValidation {
  import opened Wrappers
  import opened Strings
  import opened Http
  import opened Validation
  import HtmlBuilders

  const ClassificationName := "classification_name"
  const ClassificationId := "classification_id"
  const Make := "inv_make"
  const Model := "inv_model"
  const Year := "inv_year"
  const Description := "inv_description"
  const Image := "inv_image"
  const Thumbnail := "inv_thumbnail"
  const Price := "inv_price"
  const Miles := "inv_miles"
  const Color := "inv_color"
  const InvId := "inv_id"

  const NameRequired := "Classification name is required."
  const NameLettersDigits := "No spaces or special characters are allowed (letters/numbers only)."
  const ChooseClassification := "Please choose a classification."
  const ClassificationInvalid := "Classification is invalid."
  const MakeRequired := "Make is required."
  const ModelRequired := "Model is required."
  const YearRequired := "Year is required."
  const YearInvalid := "Year must be valid."
  const DescriptionRequired := "Description is required."
  const DescriptionShort := "Description must be at least 10 characters."
  const ImageRequired := "Image path is required."
  const ThumbnailRequired := "Thumbnail path is required."
  const PriceRequired := "Price is required."
  const PriceInvalid := "Price must be a positive number."
  const MilesRequired := "Miles is required."
  const MilesInvalid := "Miles must be a non-negative integer."
  const ColorRequired := "Color is required."

  /** The first year a car was built, the least model year accepted. */
  const FirstCarYear := 1886

  /** classificationRules: the name is trimmed, must not be empty and, if it is
      not, must consist of ASCII letters and digits only. */
  const ClassificationRules: seq<Chain> :=
    [Chain(ClassificationName,
           [Sanitize(TrimSpace), Validate(NotEmpty, Some(NameRequired)), Bail,
            Validate(AlphanumericOnly, Some(NameLettersDigits))])]

  /** inventoryRules. The rule set is built once, when the route module loads;
      `loadYear` is the calendar year at that moment, so the latest model year
      accepted is the one after it. */
  function InventoryRules(loadYear: int): seq<Chain> {
    [ Chain(ClassificationId, [Validate(NotEmpty, Some(ChooseClassification)),
                               Validate(IsInt(None, None), Some(ClassificationInvalid))]),
      TrimmedRequired(Make, MakeRequired),
      TrimmedRequired(Model, ModelRequired),
      Chain(Year, [Validate(NotEmpty, Some(YearRequired)),
                   Validate(IsInt(Some(FirstCarYear), Some(loadYear + 1)), Some(YearInvalid))]),
      Chain(Description, [Sanitize(TrimSpace), Validate(NotEmpty, Some(DescriptionRequired)),
                          Validate(MinLength(10), Some(DescriptionShort))]),
      TrimmedRequired(Image, ImageRequired),
      TrimmedRequired(Thumbnail, ThumbnailRequired),
      Chain(Price, [Validate(NotEmpty, Some(PriceRequired)), Validate(PositiveFloat, Some(PriceInvalid))]),
      Chain(Miles, [Validate(NotEmpty, Some(MilesRequired)), Validate(IsInt(Some(0), None), Some(MilesInvalid))]),
      TrimmedRequired(Color, ColorRequired) ]
  }

  /** What the classification rule reports: only the "required" message for a
      blank name, only the letters-and-digits message for a name with anything
      else in it, nothing otherwise. */
  function ClassificationErrors(body: map<string, string>): seq<FieldError> {
    var name := Trim(BodyField(body, ClassificationName));
    if name == "" then [FieldError(ClassificationName, NameRequired)]
    else Unless(MatchesAlphanumericPlus(name), ClassificationName, NameLettersDigits)
  }

  /** The classification chain up to its bail: the name is trimmed, then
      checked for presence. */
  lemma ClassificationChainStart(body: map<string, string>, env: Env)
    ensures var name := Trim(BodyField(body, ClassificationName));
            RunChains(ClassificationRules, body, env)
            == RunLinks(ClassificationName, [Bail, Validate(AlphanumericOnly, Some(NameLettersDigits))],
                        body[ClassificationName := name], env, Unless(name != "", ClassificationName, NameRequired))
  {
    var f := ClassificationName;
    var name := Trim(BodyField(body, f));
    var b := body[f := name];
    var rest := [Validate(NotEmpty, Some(NameRequired)), Bail, Validate(AlphanumericOnly, Some(NameLettersDigits))];
    var e1 := Unless(name != "", f, NameRequired);
    var p := RunChain(ClassificationRules[0], body, env);
    assert RunChains(ClassificationRules, body, env) == p by {
      RunChainsStep(ClassificationRules, body, env, p);
      assert ClassificationRules[1..] == [];
      assert p.errors + [] == p.errors;
    }
    assert p == RunLinks(f, rest, b, env, []) by {
      assert ClassificationRules[0].links[1..] == rest;
      SanitizeStep(f, ClassificationRules[0].links, body, env, []);
    }
    assert BodyField(b, f) == name;
    ValidateStep(f, rest, b, env, []);
    FoundBound(f, NotEmpty, NameRequired, name, b, env);
    assert [] + e1 == e1;
    assert rest[1..] == [Bail, Validate(AlphanumericOnly, Some(NameLettersDigits))];
  }

  /** The classification rule reports what `ClassificationErrors` says and leaves
      the trimmed name in the body. */
  lemma ClassificationRulesReport(body: map<string, string>, env: Env)
    ensures RunChains(ClassificationRules, body, env)
            == Pass(body[ClassificationName := Trim(BodyField(body, ClassificationName))], ClassificationErrors(body))
  {
    var f := ClassificationName;
    var name := Trim(BodyField(body, f));
    var b := body[f := name];
    var rest := [Bail, Validate(AlphanumericOnly, Some(NameLettersDigits))];
    var e1 := Unless(name != "", f, NameRequired);
    ClassificationChainStart(body, env);
    if name != "" {
      assert rest[1..] == [Validate(AlphanumericOnly, Some(NameLettersDigits))];
      assert BodyField(b, f) == name;
      LastCheck(f, AlphanumericOnly, NameLettersDigits, b, env);
    }
  }

  /** classificationRules in plain terms: the name passes exactly when, trimmed,
      it is a non-empty run of ASCII letters and digits; a blank name is reported
      once, with the "required" message only. */
  lemma ClassificationRuleMeaning(body: map<string, string>, env: Env)
    ensures RunChains(ClassificationRules, body, env).errors == []
            <==> MatchesAlphanumericPlus(Trim(BodyField(body, ClassificationName)))
    ensures Trim(BodyField(body, ClassificationName)) == ""
            ==> RunChains(ClassificationRules, body, env).errors == [FieldError(ClassificationName, NameRequired)]
  {
    ClassificationRulesReport(body, env);
  }

  /** What a field checked for presence and then for a property reports. */
  function RequiredThen(field: string, value: string, missing: string, ok: bool, invalid: string): seq<FieldError> {
    Unless(value != "", field, missing) + Unless(ok, field, invalid)
  }

  /** What the inventory rules report, field by field in rule order, on the body
      as submitted (nested to the right, as the chains run). */
  function InventoryErrors(body: map<string, string>, env: Env, loadYear: int): seq<FieldError> {
    var cid := BodyField(body, ClassificationId);
    var year := BodyField(body, Year);
    var description := Trim(BodyField(body, Description));
    var price := BodyField(body, Price);
    var miles := BodyField(body, Miles);
    RequiredThen(ClassificationId, cid, ChooseClassification, IsIntWithin(cid, None, None), ClassificationInvalid)
    + (Unless(Trim(BodyField(body, Make)) != "", Make, MakeRequired)
    + (Unless(Trim(BodyField(body, Model)) != "", Model, ModelRequired)
    + (RequiredThen(Year, year, YearRequired, IsIntWithin(year, Some(FirstCarYear), Some(loadYear + 1)), YearInvalid)
    + (RequiredThen(Description, description, DescriptionRequired, ValidatorLength(description) >= 10, DescriptionShort)
    + (Unless(Trim(BodyField(body, Image)) != "", Image, ImageRequired)
    + (Unless(Trim(BodyField(body, Thumbnail)) != "", Thumbnail, ThumbnailRequired)
    + (RequiredThen(Price, price, PriceRequired, env.oracles.isPositiveFloat(price), PriceInvalid)
    + (RequiredThen(Miles, miles, MilesRequired, IsIntWithin(miles, Some(0), None), MilesInvalid)
    + Unless(Trim(BodyField(body, Color)) != "", Color, ColorRequired)))))))))
  }

  /** A field checked as submitted: first that it is not empty, then the second
      validator, each reporting its own message. */
  lemma RequiredThenReport(field: string, m1: string, c: Check, m2: string, body: map<string, string>, env: Env)
    requires !c.EmailUnregistered? && !c.EmailFreeFor?
    ensures RunChain(Chain(field, [Validate(NotEmpty, Some(m1)), Validate(c, Some(m2))]), body, env).errors
            == RequiredThen(field, BodyField(body, field), m1,
                            Evaluate(c, BodyField(body, field), body, env).Passed?, m2)
  {
    TwoChecks(field, NotEmpty, Some(m1), c, Some(m2), body, env);
  }

  /** A field checked as submitted for presence and then for being an integer
      within bounds. */
  lemma RequiredIntReport(field: string, m1: string, min: Option<int>, max: Option<int>, m2: string,
                          body: map<string, string>, env: Env)
    ensures var v := BodyField(body, field);
            RunChain(Chain(field, [Validate(NotEmpty, Some(m1)), Validate(IsInt(min, max), Some(m2))]), body, env).errors
            == RequiredThen(field, v, m1, IsIntWithin(v, min, max), m2)
  {
    RequiredThenReport(field, m1, IsInt(min, max), m2, body, env);
  }

  /** A field trimmed, then checked for presence and a length. */
  lemma TrimmedRequiredThenReport(field: string, m1: string, least: nat, m2: string, body: map<string, string>, env: Env)
    ensures var v := Trim(BodyField(body, field));
            RunChain(Chain(field, [Sanitize(TrimSpace), Validate(NotEmpty, Some(m1)), Validate(MinLength(least), Some(m2))]),
                     body, env).errors
            == RequiredThen(field, v, m1, ValidatorLength(v) >= least, m2)
  {
    var b := SanitizeField(TrimSpace, field, body, env);
    var v := Trim(BodyField(body, field));
    SanitizeThenTwoChecks(field, TrimSpace, NotEmpty, Some(m1), MinLength(least), Some(m2), body, env);
    assert b[field] == v;
    FoundBound(field, NotEmpty, m1, v, b, env);
    FoundBound(field, MinLength(least), m2, v, b, env);
  }

  /** The inventory rules one by one. */
  lemma InventoryRulesAt(loadYear: int)
    ensures var rules := InventoryRules(loadYear);
            && |rules| == 10
            && rules[0] == Chain(ClassificationId, [Validate(NotEmpty, Some(ChooseClassification)),
                                                   Validate(IsInt(None, None), Some(ClassificationInvalid))])
            && rules[1] == TrimmedRequired(Make, MakeRequired)
            && rules[2] == TrimmedRequired(Model, ModelRequired)
            && rules[3] == Chain(Year, [Validate(NotEmpty, Some(YearRequired)),
                                        Validate(IsInt(Some(FirstCarYear), Some(loadYear + 1)), Some(YearInvalid))])
            && rules[4] == Chain(Description, [Sanitize(TrimSpace), Validate(NotEmpty, Some(DescriptionRequired)),
                                               Validate(MinLength(10), Some(DescriptionShort))])
            && rules[5] == TrimmedRequired(Image, ImageRequired)
            && rules[6] == TrimmedRequired(Thumbnail, ThumbnailRequired)
            && rules[7] == Chain(Price, [Validate(NotEmpty, Some(PriceRequired)), Validate(PositiveFloat, Some(PriceInvalid))])
            && rules[8] == Chain(Miles, [Validate(NotEmpty, Some(MilesRequired)), Validate(IsInt(Some(0), None), Some(MilesInvalid))])
            && rules[9] == TrimmedRequired(Color, ColorRequired)
  {
  }

  /** The first five inventory chains, each on the body as submitted. */
  lemma InventoryChainsFirst(body: map<string, string>, env: Env, loadYear: int)
    ensures var rules := InventoryRules(loadYear);
            var cid := BodyField(body, ClassificationId);
            var year := BodyField(body, Year);
            var description := Trim(BodyField(body, Description));
            && RunChain(rules[0], body, env).errors
               == RequiredThen(ClassificationId, cid, ChooseClassification, IsIntWithin(cid, None, None), ClassificationInvalid)
            && RunChain(rules[1], body, env).errors == Unless(Trim(BodyField(body, Make)) != "", Make, MakeRequired)
            && RunChain(rules[2], body, env).errors == Unless(Trim(BodyField(body, Model)) != "", Model, ModelRequired)
            && RunChain(rules[3], body, env).errors
               == RequiredThen(Year, year, YearRequired, IsIntWithin(year, Some(FirstCarYear), Some(loadYear + 1)), YearInvalid)
            && RunChain(rules[4], body, env).errors
               == RequiredThen(Description, description, DescriptionRequired, ValidatorLength(description) >= 10, DescriptionShort)
  {
    var rules := InventoryRules(loadYear);
    var cid := BodyField(body, ClassificationId);
    var year := BodyField(body, Year);
    var description := Trim(BodyField(body, Description));
    InventoryRulesAt(loadYear);
    assert RunChain(rules[0], body, env).errors
           == RequiredThen(ClassificationId, cid, ChooseClassification, IsIntWithin(cid, None, None), ClassificationInvalid) by {
      RequiredIntReport(ClassificationId, ChooseClassification, None, None, ClassificationInvalid, body, env);
    }
    assert RunChain(rules[1], body, env).errors == Unless(Trim(BodyField(body, Make)) != "", Make, MakeRequired) by {
      TrimmedRequiredReport(Make, MakeRequired, body, env);
    }
    assert RunChain(rules[2], body, env).errors == Unless(Trim(BodyField(body, Model)) != "", Model, ModelRequired) by {
      TrimmedRequiredReport(Model, ModelRequired, body, env);
    }
    assert RunChain(rules[3], body, env).errors
           == RequiredThen(Year, year, YearRequired, IsIntWithin(year, Some(FirstCarYear), Some(loadYear + 1)), YearInvalid) by {
      RequiredIntReport(Year, YearRequired, Some(FirstCarYear), Some(loadYear + 1), YearInvalid, body, env);
    }
    assert RunChain(rules[4], body, env).errors
           == RequiredThen(Description, description, DescriptionRequired, ValidatorLength(description) >= 10, DescriptionShort) by {
      TrimmedRequiredThenReport(Description, DescriptionRequired, 10, DescriptionShort, body, env);
    }
  }

  /** The last five inventory chains, each on the body as submitted. */
  lemma InventoryChainsLast(body: map<string, string>, env: Env, loadYear: int)
    ensures var rules := InventoryRules(loadYear);
            var price := BodyField(body, Price);
            var miles := BodyField(body, Miles);
            && RunChain(rules[5], body, env).errors == Unless(Trim(BodyField(body, Image)) != "", Image, ImageRequired)
            && RunChain(rules[6], body, env).errors
               == Unless(Trim(BodyField(body, Thumbnail)) != "", Thumbnail, ThumbnailRequired)
            && RunChain(rules[7], body, env).errors
               == RequiredThen(Price, price, PriceRequired, env.oracles.isPositiveFloat(price), PriceInvalid)
            && RunChain(rules[8], body, env).errors
               == RequiredThen(Miles, miles, MilesRequired, IsIntWithin(miles, Some(0), None), MilesInvalid)
            && RunChain(rules[9], body, env).errors == Unless(Trim(BodyField(body, Color)) != "", Color, ColorRequired)
  {
    var rules := InventoryRules(loadYear);
    var price := BodyField(body, Price);
    var miles := BodyField(body, Miles);
    InventoryRulesAt(loadYear);
    assert RunChain(rules[5], body, env).errors == Unless(Trim(BodyField(body, Image)) != "", Image, ImageRequired) by {
      TrimmedRequiredReport(Image, ImageRequired, body, env);
    }
    assert RunChain(rules[6], body, env).errors
           == Unless(Trim(BodyField(body, Thumbnail)) != "", Thumbnail, ThumbnailRequired) by {
      TrimmedRequiredReport(Thumbnail, ThumbnailRequired, body, env);
    }
    assert RunChain(rules[7], body, env).errors
           == RequiredThen(Price, price, PriceRequired, env.oracles.isPositiveFloat(price), PriceInvalid) by {
      RequiredThenReport(Price, PriceRequired, PositiveFloat, PriceInvalid, body, env);
    }
    assert RunChain(rules[8], body, env).errors
           == RequiredThen(Miles, miles, MilesRequired, IsIntWithin(miles, Some(0), None), MilesInvalid) by {
      RequiredIntReport(Miles, MilesRequired, Some(0), None, MilesInvalid, body, env);
    }
    assert RunChain(rules[9], body, env).errors == Unless(Trim(BodyField(body, Color)) != "", Color, ColorRequired) by {
      TrimmedRequiredReport(Color, ColorRequired, body, env);
    }
  }

  /** The inventory rules name ten different fields and read nothing but them. */
  lemma InventoryRulesIndependent(loadYear: int)
    ensures Independent(InventoryRules(loadYear))
  {
    var rules := InventoryRules(loadYear);
    var fields := [ClassificationId, Make, Model, Year, Description, Image, Thumbnail, Price, Miles, Color];
    assert forall i :: 0 <= i < |rules| ==> rules[i].field == fields[i];
    assert forall i, j :: 0 <= i < j < |fields| ==> fields[i] != fields[j] by {
      forall i, j | 0 <= i < j < |fields| ensures fields[i] != fields[j] {
        assert |fields[i]| != |fields[j]| || fields[i][4] != fields[j][4] || fields[i][5] != fields[j][5];
      }
    }
  }

  /** The inventory rules report what `InventoryErrors` says. */
  lemma InventoryRulesReport(body: map<string, string>, env: Env, loadYear: int)
    ensures RunChains(InventoryRules(loadYear), body, env).errors == InventoryErrors(body, env, loadYear)
  {
    var rules := InventoryRules(loadYear);
    InventoryRulesIndependent(loadYear);
    IndependentChainsApart(rules, body, env);
    InventoryErrorsFrom(body, env, loadYear);
  }

  /** The errors of the last five inventory chains, nested as `InventoryErrors` nests them. */
  lemma InventoryErrorsFromImage(body: map<string, string>, env: Env, loadYear: int)
    ensures var price := BodyField(body, Price);
            var miles := BodyField(body, Miles);
            ErrorsFrom(InventoryRules(loadYear), 5, body, env)
            == Unless(Trim(BodyField(body, Image)) != "", Image, ImageRequired)
               + (Unless(Trim(BodyField(body, Thumbnail)) != "", Thumbnail, ThumbnailRequired)
               + (RequiredThen(Price, price, PriceRequired, env.oracles.isPositiveFloat(price), PriceInvalid)
               + (RequiredThen(Miles, miles, MilesRequired, IsIntWithin(miles, Some(0), None), MilesInvalid)
               + Unless(Trim(BodyField(body, Color)) != "", Color, ColorRequired))))
  {
    var rules := InventoryRules(loadYear);
    InventoryChainsLast(body, env, loadYear);
    var price := BodyField(body, Price);
    var miles := BodyField(body, Miles);
    var t9 := Unless(Trim(BodyField(body, Color)) != "", Color, ColorRequired);
    var h8 := RequiredThen(Miles, miles, MilesRequired, IsIntWithin(miles, Some(0), None), MilesInvalid);
    var h7 := RequiredThen(Price, price, PriceRequired, env.oracles.isPositiveFloat(price), PriceInvalid);
    var h6 := Unless(Trim(BodyField(body, Thumbnail)) != "", Thumbnail, ThumbnailRequired);
    var h5 := Unless(Trim(BodyField(body, Image)) != "", Image, ImageRequired);
    assert ErrorsFrom(rules, 10, body, env) == [];
    ErrorsFromStep(rules, 9, body, env, t9, []);
    assert t9 + [] == t9;
    ErrorsFromStep(rules, 8, body, env, h8, t9);
    ErrorsFromStep(rules, 7, body, env, h7, h8 + t9);
    ErrorsFromStep(rules, 6, body, env, h6, h7 + (h8 + t9));
    ErrorsFromStep(rules, 5, body, env, h5, h6 + (h7 + (h8 + t9)));
  }

  lemma InventoryErrorsFrom(body: map<string, string>, env: Env, loadYear: int)
    ensures ErrorsFrom(InventoryRules(loadYear), 0, body, env) == InventoryErrors(body, env, loadYear)
  {
    var rules := InventoryRules(loadYear);
    InventoryChainsFirst(body, env, loadYear);
    InventoryErrorsFromImage(body, env, loadYear);
    var cid := BodyField(body, ClassificationId);
    var year := BodyField(body, Year);
    var description := Trim(BodyField(body, Description));
    var t5 := ErrorsFrom(rules, 5, body, env);
    var h4 := RequiredThen(Description, description, DescriptionRequired, ValidatorLength(description) >= 10,
                           DescriptionShort);
    var h3 := RequiredThen(Year, year, YearRequired, IsIntWithin(year, Some(FirstCarYear), Some(loadYear + 1)),
                           YearInvalid);
    var h2 := Unless(Trim(BodyField(body, Model)) != "", Model, ModelRequired);
    var h1 := Unless(Trim(BodyField(body, Make)) != "", Make, MakeRequired);
    var h0 := RequiredThen(ClassificationId, cid, ChooseClassification, IsIntWithin(cid, None, None), ClassificationInvalid);
    ErrorsFromStep(rules, 4, body, env, h4, t5);
    ErrorsFromStep(rules, 3, body, env, h3, h4 + t5);
    ErrorsFromStep(rules, 2, body, env, h2, h3 + (h4 + t5));
    ErrorsFromStep(rules, 1, body, env, h1, h2 + (h3 + (h4 + t5)));
    assert RunChain(rules[0], body, env).errors == h0;
    assert ErrorsFrom(rules, 0, body, env) == RunChain(rules[0], body, env).errors + ErrorsFrom(rules, 1, body, env);
  }

  /** An inventory form the rules accept, in plain terms: the classification id
      is an integer; make, model, image path, thumbnail path and color are not
      blank; the year is an integer from 1886 to the year after `loadYear`; the
      description has at least ten characters once trimmed; the price is present
      and positive; the mileage is a non-negative integer. */
  predicate ValidInventory(body: map<string, string>, env: Env, loadYear: int) {
    && ParseInt(BodyField(body, ClassificationId)).Some?
    && Trim(BodyField(body, Make)) != ""
    && Trim(BodyField(body, Model)) != ""
    && IsIntWithin(BodyField(body, Year), Some(FirstCarYear), Some(loadYear + 1))
    && ValidatorLength(Trim(BodyField(body, Description))) >= 10
    && Trim(BodyField(body, Image)) != ""
    && Trim(BodyField(body, Thumbnail)) != ""
    && BodyField(body, Price) != "" && env.oracles.isPositiveFloat(BodyField(body, Price))
    && IsIntWithin(BodyField(body, Miles), Some(0), None)
    && Trim(BodyField(body, Color)) != ""
  }

  /** The inventory rules report nothing exactly when the form is valid. */
  lemma InventoryRulesMeaning(body: map<string, string>, env: Env, loadYear: int)
    ensures RunChains(InventoryRules(loadYear), body, env).errors == [] <==> ValidInventory(body, env, loadYear)
  {
    InventoryRulesReport(body, env, loadYear);
    InventoryErrorsNone(body, env, loadYear);
  }

  /** The listed inventory errors are none exactly when the form is valid. */
  lemma InventoryErrorsNone(body: map<string, string>, env: Env, loadYear: int)
    ensures InventoryErrors(body, env, loadYear) == [] <==> ValidInventory(body, env, loadYear)
  {
    var description := Trim(BodyField(body, Description));
    assert ValidatorLength(description) >= 10 ==> description != "";
  }

  const AddClassificationView := "inventory/add-classification"
  const AddInventoryView := "inventory/add-inventory"
  const EditInventoryView := "inventory/edit-inventory"

  /** A form field as `buildClassificationList` receives it: `undefined` when absent. */
  function FieldArgument(body: map<string, string>, key: string): (arg: Option<string>)
    ensures arg.Some? <==> key in body
    ensures arg.Some? ==> arg.value == body[key]
  {
    if key in body then Some(body[key]) else None
  }

  /** checkClassificationData: passes the request on when the rules recorded no
      error; otherwise answers 400 with the add-classification view, the errors,
      the submitted name (as the rules left it) and no notice. */
  function CheckClassificationData(req: Request, rows: seq<HtmlBuilders.Classification>): (r: Step)
    ensures r.req == req
    ensures r.out == Next <==> req.errors == []
    ensures r.out != Next ==>
              && r.out.Render? && r.out.status == BadRequest && r.out.view == AddClassificationView
              && r.out.locals.Keys == {"title", "nav", "errors", ClassificationName, "notice"}
              && r.out.locals["title"] == Str("Add Classification")
              && r.out.locals["nav"] == Str(HtmlBuilders.Nav(rows))
              && r.out.locals["errors"] == Errors(req.errors)
              && r.out.locals[ClassificationName] == BodyValue(req.body, ClassificationName)
              && r.out.locals["notice"] == Null
  {
    if req.errors == [] then Step(req, Next)
    else
      Step(req, Render(BadRequest, AddClassificationView,
                       map["title" := Str("Add Classification"),
                           "nav" := Str(HtmlBuilders.Nav(rows)),
                           "errors" := Errors(req.errors),
                           ClassificationName := BodyValue(req.body, ClassificationName),
                           "notice" := Null]))
  }

  /** checkInventoryData: passes the request on when the rules recorded no error;
      otherwise answers 400 with the add-inventory view. Every submitted field is
      echoed, and because the body is spread last a submitted field overrides the
      entry of the same name; the select list keeps the submitted classification. */
  function CheckInventoryData(req: Request, rows: seq<HtmlBuilders.Classification>): (r: Step)
    ensures r.req == req
    ensures r.out == Next <==> req.errors == []
    ensures r.out != Next ==>
              && r.out.Render? && r.out.status == BadRequest && r.out.view == AddInventoryView
              && r.out.locals.Keys == {"title", "nav", "errors", "notice", "classificationList"} + req.body.Keys
              && (forall k :: k in req.body ==> r.out.locals[k] == Str(req.body[k]))
              && ("title" !in req.body ==> r.out.locals["title"] == Str("Add Inventory"))
              && ("nav" !in req.body ==> r.out.locals["nav"] == Str(HtmlBuilders.Nav(rows)))
              && ("errors" !in req.body ==> r.out.locals["errors"] == Errors(req.errors))
              && ("notice" !in req.body ==> r.out.locals["notice"] == Null)
              && ("classificationList" !in req.body ==>
                    r.out.locals["classificationList"]
                    == Str(HtmlBuilders.SelectList(rows, FieldArgument(req.body, ClassificationId))))
  {
    if req.errors == [] then Step(req, Next)
    else
      var fixed := map["title" := Str("Add Inventory"),
                       "nav" := Str(HtmlBuilders.Nav(rows)),
                       "errors" := Errors(req.errors),
                       "notice" := Null,
                       "classificationList" := Str(HtmlBuilders.SelectList(rows, FieldArgument(req.body, ClassificationId)))];
      Step(req, Render(BadRequest, AddInventoryView, fixed + BodyLocals(req.body)))
  }

  /** The vehicle fields the edit view is given back. */
  const EditFields := [InvId, Make, Model, Year, Description, Image, Thumbnail, Price, Miles, Color, ClassificationId]

  /** No vehicle field is named like one of the edit view's own locals. */
  lemma EditFieldsApart()
    ensures forall f :: f in EditFields ==> f != "title" && f != "nav" && f != "classificationList" && f != "errors"
  {
    forall f | f in EditFields
      ensures f != "title" && f != "nav" && f != "classificationList" && f != "errors"
    {
      assert |f| > 0 && (f[0] == 'i' || |f| == 17);
    }
  }

  /** The locals of the edit view: each vehicle field as submitted, then the
      title, navigation, select list and errors. */
  function EditLocals(req: Request, rows: seq<HtmlBuilders.Classification>): (locals: map<string, Value>)
    ensures locals.Keys == {"title", "nav", "classificationList", "errors"} + (set f | f in EditFields)
    ensures locals["title"] == Str("Edit " + BodyText(req.body, Make) + " " + BodyText(req.body, Model))
    ensures locals["nav"] == Str(HtmlBuilders.Nav(rows))
    ensures locals["errors"] == Errors(req.errors)
    ensures locals["classificationList"] == Str(HtmlBuilders.SelectList(rows, FieldArgument(req.body, ClassificationId)))
    ensures forall f :: f in EditFields ==> f in locals && locals[f] == BodyValue(req.body, f)
  {
    EditFieldsApart();
    var fields := map f | f in EditFields :: BodyValue(req.body, f);
    var fixed := map["title" := Str("Edit " + BodyText(req.body, Make) + " " + BodyText(req.body, Model)),
                     "nav" := Str(HtmlBuilders.Nav(rows)),
                     "classificationList" := Str(HtmlBuilders.SelectList(rows, FieldArgument(req.body, ClassificationId))),
                     "errors" := Errors(req.errors)];
    fields + fixed
  }

  /** checkUpdateData: passes the request on when the rules recorded no error;
      otherwise answers 400 with the edit view titled "Edit <make> <model>" (a
      missing field prints as "undefined"), the errors, the select list and each
      vehicle field as submitted. */
  function CheckUpdateData(req: Request, rows: seq<HtmlBuilders.Classification>): (r: Step)
    ensures r.req == req
    ensures r.out == Next <==> req.errors == []
    ensures r.out != Next ==>
              && r.out.Render? && r.out.status == BadRequest && r.out.view == EditInventoryView
              && r.out.locals.Keys == {"title", "nav", "classificationList", "errors"} + (set f | f in EditFields)
              && r.out.locals["title"] == Str("Edit " + BodyText(req.body, Make) + " " + BodyText(req.body, Model))
              && r.out.locals["nav"] == Str(HtmlBuilders.Nav(rows))
              && r.out.locals["errors"] == Errors(req.errors)
              && r.out.locals["classificationList"]
                 == Str(HtmlBuilders.SelectList(rows, FieldArgument(req.body, ClassificationId)))
              && (forall f :: f in EditFields ==> f in r.out.locals && r.out.locals[f] == BodyValue(req.body, f))
  {
    if req.errors == [] then Step(req, Next)
    else Step(req, Render(BadRequest, EditInventoryView, EditLocals(req, rows)))
  }

  /** POST /inv/add-classification past the gate: the request goes on to the
      handler exactly when the trimmed name is a non-empty run of ASCII letters and
      digits; otherwise the form comes back with the trimmed name and exactly the
      errors the rule states. */
  lemma ClassificationPipeline(req: Request, env: Env, rows: seq<HtmlBuilders.Classification>)
    requires req.errors == []
    ensures var r := CheckClassificationData(ApplyRules(ClassificationRules, req, env), rows);
            && (r.out == Next <==> MatchesAlphanumericPlus(Trim(BodyField(req.body, ClassificationName))))
            && (r.out != Next ==>
                  && r.out.locals["errors"] == Errors(ClassificationErrors(req.body))
                  && r.out.locals[ClassificationName] == Str(Trim(BodyField(req.body, ClassificationName))))
  {
    ClassificationRulesReport(req.body, env);
    ClassificationRuleMeaning(req.body, env);
    assert [] + ClassificationErrors(req.body) == ClassificationErrors(req.body);
  }

  /** POST /inv/add-inventory past the gate: the request goes on to the handler
      exactly when the form is valid; otherwise the add form comes back with
      exactly the errors `InventoryErrors` lists. */
  lemma InventoryPipeline(req: Request, env: Env, rows: seq<HtmlBuilders.Classification>, loadYear: int)
    requires req.errors == []
    requires "errors" !in req.body
    ensures var r := CheckInventoryData(ApplyRules(InventoryRules(loadYear), req, env), rows);
            && (r.out == Next <==> ValidInventory(req.body, env, loadYear))
            && (r.out != Next ==> r.out.locals["errors"] == Errors(InventoryErrors(req.body, env, loadYear)))
  {
    InventoryRulesReport(req.body, env, loadYear);
    InventoryRulesMeaning(req.body, env, loadYear);
    var p := RunChains(InventoryRules(loadYear), req.body, env);
    assert [] + p.errors == p.errors;
    InventoryRulesBodyKeys(req.body, env, loadYear);
  }

  /** POST /inv/update past the gate: the same rules decide, and a rejected edit
      comes back titled with the make and model as the rules left them. */
  lemma UpdatePipeline(req: Request, env: Env, rows: seq<HtmlBuilders.Classification>, loadYear: int)
    requires req.errors == []
    ensures var after := ApplyRules(InventoryRules(loadYear), req, env);
            var r := CheckUpdateData(after, rows);
            && (r.out == Next <==> ValidInventory(req.body, env, loadYear))
            && (r.out != Next ==>
                  && r.out.locals["errors"] == Errors(InventoryErrors(req.body, env, loadYear))
                  && r.out.locals["title"]
                     == Str("Edit " + Trim(BodyField(req.body, Make)) + " " + Trim(BodyField(req.body, Model))))
  {
    InventoryRulesReport(req.body, env, loadYear);
    InventoryRulesMeaning(req.body, env, loadYear);
    var p := RunChains(InventoryRules(loadYear), req.body, env);
    assert [] + p.errors == p.errors;
    InventoryRulesTrim(req.body, env, loadYear);
  }

  /** The inventory rules leave the make and model trimmed. */
  lemma InventoryRulesTrim(body: map<string, string>, env: Env, loadYear: int)
    ensures var after := RunChains(InventoryRules(loadYear), body, env).body;
            && Make in after && after[Make] == Trim(BodyField(body, Make))
            && Model in after && after[Model] == Trim(BodyField(body, Model))
  {
    var rules := InventoryRules(loadYear);
    InventoryRulesIndependent(loadYear);
    IndependentChainsBody(rules, body, env, 1);
    IndependentChainsBody(rules, body, env, 2);
    TrimmedRequiredReport(Make, MakeRequired, body, env);
    TrimmedRequiredReport(Model, ModelRequired, body, env);
  }

  /** The inventory rules add no body field but the ones they name. */
  lemma InventoryRulesBodyKeys(body: map<string, string>, env: Env, loadYear: int)
    ensures "errors" !in body ==> "errors" !in RunChains(InventoryRules(loadYear), body, env).body
  {
    var rules := InventoryRules(loadYear);
    RunChainsFrame(rules, body, env);
    assert forall c :: c in rules ==> c.field != "errors";
  }
}

=== FILE: routes.dfy ===
/** The route tables of routes/accountRoute.js and routes/inventoryRoute.js as
    data, the logout handler, and the runner that passes a request along a
    route's middleware the way Express does: each middleware either passes the
    request on or answers it, and the first answer ends the route. */
module Routes {
  import opened Wrappers
  import opened Strings
  import opened Http
  import Flash
  import AccountStore
  import HtmlBuilders
  import AuthMiddleware
  import opened Validation
  import opened AccountValidation
  import InventoryValidation
  import AccountController

  datatype Method = Get | Post

  /** The rule sets the routes install. */
  datatype RuleSet = RegistrationSet | LoginSet | UpdateAccountSet | UpdatePasswordSet | ClassificationSet | InventorySet

  /** The middleware that answers a request whose rules failed. */
  datatype Checker =
    | CheckRegData | CheckLoginData | CheckUpdateAccountData | CheckUpdatePasswordData
    | CheckClassificationData | CheckInventoryData | CheckUpdateData

  /** The handlers at the end of a route: the four the account controller
      exports, the logout handler, handlers that exist but whose code is not
      part of this model (`Opaque`), and names a route reads from a controller
      that does not export them (`Missing`), which are `undefined`. */
  datatype Handler =
    | BuildLogin | BuildRegister | LoginAccount | RegisterAccount | Logout
    | Opaque(name: string)
    | Missing(name: string)

  /** One middleware of a route. `wrapped` says whether the handler runs inside
      `handleErrors`, which passes a failure on with `next(err)`. */
  datatype Middleware =
    | CheckLogin
    | CheckAccountType
    | Rules(rules: RuleSet)
    | Check(checker: Checker)
    | Handle(handler: Handler, wrapped: bool)

  datatype Route = Route(verb: Method, path: string, chain: seq<Middleware>)

  /** What a route runs against besides the request: the validator oracles and
      the account table, the classification rows for the navigation list, and
      the calendar year when the inventory route module was loaded. */
  datatype Context = Context(env: Env, rows: seq<HtmlBuilders.Classification>, loadYear: int)

  // ---------------------------------------------------------------------------
  // The account routes (mounted under /account)

  const Dashboard := Route(Get, "/", [CheckLogin, Handle(Missing("buildAccount"), true)])
  const UpdateForm := Route(Get, "/update/:account_id", [CheckLogin, Handle(Missing("buildUpdateAccount"), false)])
  const UpdateInfo :=
    Route(Post, "/update", [CheckLogin, Rules(UpdateAccountSet), Check(CheckUpdateAccountData),
                            Handle(Missing("updateAccountInfo"), false)])
  const UpdatePassword :=
    Route(Post, "/update-password", [CheckLogin, Rules(UpdatePasswordSet), Check(CheckUpdatePasswordData),
                                     Handle(Missing("updatePassword"), true)])
  const LoginForm := Route(Get, "/login", [Handle(BuildLogin, true)])
  const RegisterForm := Route(Get, "/register", [Handle(BuildRegister, true)])
  const LoginPost := Route(Post, "/login", [Rules(LoginSet), Check(CheckLoginData), Handle(LoginAccount, true)])
  const RegisterPost :=
    Route(Post, "/register", [Rules(RegistrationSet), Check(CheckRegData), Handle(RegisterAccount, true)])
  const LogoutRoute := Route(Get, "/logout", [Handle(Logout, false)])

  const AccountRoutes: seq<Route> :=
    [Dashboard, UpdateForm, UpdateInfo, UpdatePassword, LoginForm, RegisterForm, LoginPost, RegisterPost, LogoutRoute]

  // ---------------------------------------------------------------------------
  // The inventory routes (mounted under /inv)

  /** A staff-only route that goes straight to its handler. The inventory
      controller exports only the three open handlers, so every staff-only
      handler is missing. */
  function StaffView(verb: Method, path: string, handler: string): Route {
    Route(verb, path, [CheckAccountType, Handle(Missing(handler), true)])
  }

  /** A staff-only form submission: gate, rules, check, handler. */
  function StaffForm(path: string, rules: RuleSet, checker: Checker, handler: string): Route {
    Route(Post, path, [CheckAccountType, Rules(rules), Check(checker), Handle(Missing(handler), true)])
  }

  const InventoryRoutes: seq<Route> :=
    [ Route(Get, "/type/:classificationId", [Handle(Opaque("buildByClassificationId"), false)]),
      Route(Get, "/detail/:inv_id", [Handle(Opaque("buildDetailView"), false)]),
      Route(Get, "/error-test", [Handle(Opaque("triggerError"), false)]),
      StaffView(Get, "/", "buildManagement"),
      StaffView(Get, "/add-classification", "buildAddClassification"),
      StaffView(Get, "/add-inventory", "buildAddInventory"),
      StaffForm("/add-classification", ClassificationSet, CheckClassificationData, "addClassification"),
      StaffForm("/add-inventory", InventorySet, CheckInventoryData, "addInventory"),
      StaffView(Get, "/getInventory/:classification_id", "getInventoryJSON"),
      StaffView(Get, "/edit/:inv_id", "editInventoryView"),
      StaffForm("/update", InventorySet, CheckUpdateData, "updateInventory"),
      StaffView(Get, "/delete/:inv_id", "buildDeleteConfirm"),
      StaffView(Post, "/delete/", "deleteInventoryItem") ]

  // ---------------------------------------------------------------------------
  // Running a route

  function RulesOf(rules: RuleSet, loadYear: int): seq<Chain> {
    match rules
    case RegistrationSet => AccountValidation.RegistrationRules
    case LoginSet => AccountValidation.LoginRules
    case UpdateAccountSet => AccountValidation.UpdateAccountRules
    case UpdatePasswordSet => AccountValidation.UpdatePasswordRules
    case ClassificationSet => InventoryValidation.ClassificationRules
    case InventorySet => InventoryValidation.InventoryRules(loadYear)
  }

  function RunChecker(c: Checker, req: Request, rows: seq<HtmlBuilders.Classification>): Step {
    match c
    case CheckRegData => AccountValidation.CheckRegData(req, rows)
    case CheckLoginData => AccountValidation.CheckLoginData(req, rows)
    case CheckUpdateAccountData => AccountValidation.CheckUpdateAccountData(req, rows)
    case CheckUpdatePasswordData => AccountValidation.CheckUpdatePasswordData(req, rows)
    case CheckClassificationData => InventoryValidation.CheckClassificationData(req, rows)
    case CheckInventoryData => InventoryValidation.CheckInventoryData(req, rows)
    case CheckUpdateData => InventoryValidation.CheckUpdateData(req, rows)
  }

  /** The TypeError `handleErrors` raises when the function it wraps is
      `undefined`. */
  const NotAFunction := "fn is not a function"

  const SuccessCategory := "success"
  const LoggedOut := "You have been logged out."

  /** The logout handler: whatever the login state, it clears the `jwt` cookie,
      queues the "logged out" message under "success" and redirects home. The
      next read of "success" ends with that message, after any older ones; the
      other categories, the body, the token and the errors are left alone. */
  function LogoutHandler(req: Request): (r: Step)
    ensures r.out == Redirect(AccountController.HomePath)
    ensures var ops := r.req.cookieOps;
            |ops| > 0 && ops[|ops| - 1] == ClearCookie("jwt") && ops[..|ops| - 1] == req.cookieOps
    ensures var read := Flash.Take(r.req.flash, SuccessCategory).messages;
            |read| > 0 && read[|read| - 1] == LoggedOut && read[..|read| - 1] == Flash.Pending(req.flash, SuccessCategory)
    ensures forall c :: c != SuccessCategory ==> Flash.Pending(r.req.flash, c) == Flash.Pending(req.flash, c)
    ensures r.req.body == req.body && r.req.jwt == req.jwt && r.req.locals == req.locals && r.req.errors == req.errors
  {
    Step(req.(cookieOps := req.cookieOps + [ClearCookie("jwt")],
              flash := Flash.Push(req.flash, SuccessCategory, LoggedOut)),
         Redirect(AccountController.HomePath))
  }

  function RunHandler(h: Handler, req: Request, ctx: Context): AccountController.Effect {
    match h
    case BuildLogin => AccountController.Effect(AccountController.BuildLogin(req, ctx.rows), ctx.env.db)
    case BuildRegister => AccountController.Effect(AccountController.BuildRegister(req, ctx.rows), ctx.env.db)
    case LoginAccount => AccountController.Effect(AccountController.LoginAccount(req, ctx.env.db, ctx.rows), ctx.env.db)
    case RegisterAccount => AccountController.RegisterAccount(req, ctx.env.db, ctx.rows)
    case Logout => AccountController.Effect(LogoutHandler(req), ctx.env.db)
    case Opaque(name) => AccountController.Effect(Step(req, Handled(name)), ctx.env.db)
    case Missing(_) => AccountController.Effect(Step(req, NextError(NotAFunction)), ctx.env.db)
  }

  /** Runs the middleware in order. A gate or a check that answers ends the
      route; rules always pass the request on; the handler ends the route. A
      failure an unwrapped handler raises is never answered. */
  function Run(chain: seq<Middleware>, req: Request, ctx: Context): AccountController.Effect
    decreases |chain|
  {
    if |chain| == 0 then AccountController.Effect(Step(req, Next), ctx.env.db)
    else
      match chain[0]
      case CheckLogin =>
        var s := AuthMiddleware.CheckLogin(req);
        if s.out == Next then Run(chain[1..], s.req, ctx) else AccountController.Effect(s, ctx.env.db)
      case CheckAccountType =>
        var s := AuthMiddleware.CheckAccountType(req);
        if s.out == Next then Run(chain[1..], s.req, ctx) else AccountController.Effect(s, ctx.env.db)
      case Rules(rules) =>
        Run(chain[1..], ApplyRules(RulesOf(rules, ctx.loadYear), req, ctx.env), ctx)
      case Check(c) =>
        var s := RunChecker(c, req, ctx.rows);
        if s.out == Next then Run(chain[1..], s.req, ctx) else AccountController.Effect(s, ctx.env.db)
      case Handle(h, wrapped) =>
        var e := RunHandler(h, req, ctx);
        if !wrapped && e.step.out.NextError? then AccountController.Effect(Step(e.step.req, NoResponse), e.db)
        else e
  }

  /** A request served by a route, after the application-wide JWT middleware. */
  function Serve(route: Route, req: Request, verify: AuthMiddleware.Verifier, ctx: Context): AccountController.Effect {
    Run(route.chain, AuthMiddleware.CheckJWTToken(req, verify).req, ctx)
  }

  // ---------------------------------------------------------------------------
  // Loading a route module

  /** Express accepts a route only if every middleware is a function. A handler
      wrapped in `handleErrors` always is; an unwrapped missing handler is
      `undefined`, and declaring the route throws. */
  predicate Declarable(route: Route) {
    forall m :: m in route.chain && m.Handle? && m.handler.Missing? ==> m.wrapped
  }

  /** Requiring a route module declares its routes in order; it completes only
      if every route can be declared. */
  predicate Loads(routes: seq<Route>) {
    forall i :: 0 <= i < |routes| ==> Declarable(routes[i])
  }

  /** The account route module throws when it is loaded: the update form and
      the info update pass an unexported, unwrapped handler to the router, and
      they are the only routes that do. */
  lemma AccountRoutesDoNotLoad()
    ensures forall i :: 0 <= i < |AccountRoutes| ==> (!Declarable(AccountRoutes[i]) <==> i == 1 || i == 2)
    ensures !Loads(AccountRoutes)
  {
    assert AccountRoutes[1].chain[1] in AccountRoutes[1].chain;
    forall i | 0 <= i < |AccountRoutes| && i != 1 && i != 2
      ensures Declarable(AccountRoutes[i])
    {
    }
  }

  /** The inventory route module loads: its missing handlers are all wrapped. */
  lemma InventoryRoutesLoad()
    ensures Loads(InventoryRoutes)
  {
  }

  // ---------------------------------------------------------------------------
  // The shape of the tables

  /** The route's first middleware is the given gate. */
  predicate GatedBy(route: Route, gate: Middleware) {
    |route.chain| > 0 && route.chain[0] == gate
  }

  /** The checker written for a rule set. */
  predicate Paired(rules: RuleSet, checker: Checker) {
    match rules
    case RegistrationSet => checker == CheckRegData
    case LoginSet => checker == CheckLoginData
    case UpdateAccountSet => checker == CheckUpdateAccountData
    case UpdatePasswordSet => checker == CheckUpdatePasswordData
    case ClassificationSet => checker == CheckClassificationData
    case InventorySet => checker == CheckInventoryData || checker == CheckUpdateData
  }

  /** A form submission behind `gate`: the gate, the rules, the checker paired
      with them, then the handler, and nothing else. */
  predicate GatedForm(route: Route, gate: Middleware) {
    && |route.chain| == 4 && route.chain[0] == gate
    && route.chain[1].Rules? && route.chain[2].Check?
    && Paired(route.chain[1].rules, route.chain[2].checker)
    && route.chain[3].Handle?
  }

  /** A gate only ever comes first, the handler comes last and nowhere else,
      every rule set is followed at once by its own checker, and every checker
      follows a rule set. */
  predicate WellOrdered(route: Route) {
    var c := route.chain;
    && |c| > 0 && c[|c| - 1].Handle?
    && (forall i :: 0 <= i < |c| - 1 ==> !c[i].Handle?)
    && (forall i :: 1 <= i < |c| ==> !c[i].CheckLogin? && !c[i].CheckAccountType?)
    && (forall i :: 0 <= i < |c| && c[i].Rules? ==>
          i + 1 < |c| && c[i + 1].Check? && Paired(c[i].rules, c[i + 1].checker))
    && (forall i :: 0 <= i < |c| && c[i].Check? ==> 0 < i && c[i - 1].Rules?)
  }

  /** A handler alone is well ordered. */
  lemma HandlerOnlyWellOrdered(verb: Method, path: string, h: Handler, w: bool)
    ensures WellOrdered(Route(verb, path, [Handle(h, w)]))
  {
  }

  /** A gate in front of a handler is well ordered. */
  lemma GatedHandlerWellOrdered(verb: Method, path: string, gate: Middleware, h: Handler, w: bool)
    requires gate == CheckLogin || gate == CheckAccountType
    ensures WellOrdered(Route(verb, path, [gate, Handle(h, w)]))
  {
  }

  /** Rules, their own checker and a handler are well ordered. */
  lemma ValidatedWellOrdered(verb: Method, path: string, rules: RuleSet, c: Checker, h: Handler, w: bool)
    requires Paired(rules, c)
    ensures WellOrdered(Route(verb, path, [Rules(rules), Check(c), Handle(h, w)]))
  {
  }

  /** A gate in front of rules, their own checker and a handler is well
      ordered. */
  lemma GatedValidatedWellOrdered(verb: Method, path: string, gate: Middleware, rules: RuleSet, c: Checker,
                                  h: Handler, w: bool)
    requires gate == CheckLogin || gate == CheckAccountType
    requires Paired(rules, c)
    ensures WellOrdered(Route(verb, path, [gate, Rules(rules), Check(c), Handle(h, w)]))
  {
  }

  lemma AccountRoutesWellOrdered()
    ensures forall i :: 0 <= i < |AccountRoutes| ==> WellOrdered(AccountRoutes[i])
  {
    forall i | 0 <= i < |AccountRoutes|
      ensures WellOrdered(AccountRoutes[i])
    {
      var r := AccountRoutes[i];
      var c := r.chain[|r.chain| - 1];
      if i == 0 || i == 1 {
        GatedHandlerWellOrdered(r.verb, r.path, CheckLogin, c.handler, c.wrapped);
      } else if i == 2 {
        GatedValidatedWellOrdered(r.verb, r.path, CheckLogin, UpdateAccountSet, CheckUpdateAccountData, c.handler, c.wrapped);
      } else if i == 3 {
        GatedValidatedWellOrdered(r.verb, r.path, CheckLogin, UpdatePasswordSet, CheckUpdatePasswordData, c.handler, c.wrapped);
      } else if i == 6 {
        ValidatedWellOrdered(r.verb, r.path, LoginSet, CheckLoginData, c.handler, c.wrapped);
      } else if i == 7 {
        ValidatedWellOrdered(r.verb, r.path, RegistrationSet, CheckRegData, c.handler, c.wrapped);
      } else {
        HandlerOnlyWellOrdered(r.verb, r.path, c.handler, c.wrapped);
      }
    }
  }

  lemma InventoryRoutesWellOrdered()
    ensures forall i :: 0 <= i < |InventoryRoutes| ==> WellOrdered(InventoryRoutes[i])
  {
    forall i | 0 <= i < |InventoryRoutes|
      ensures WellOrdered(InventoryRoutes[i])
    {
      var r := InventoryRoutes[i];
      var c := r.chain[|r.chain| - 1];
      if i < 3 {
        HandlerOnlyWellOrdered(r.verb, r.path, c.handler, c.wrapped);
      } else if i == 6 {
        GatedValidatedWellOrdered(r.verb, r.path, CheckAccountType, ClassificationSet, CheckClassificationData, c.handler, c.wrapped);
      } else if i == 7 {
        GatedValidatedWellOrdered(r.verb, r.path, CheckAccountType, InventorySet, CheckInventoryData, c.handler, c.wrapped);
      } else if i == 10 {
        GatedValidatedWellOrdered(r.verb, r.path, CheckAccountType, InventorySet, CheckUpdateData, c.handler, c.wrapped);
      } else {
        GatedHandlerWellOrdered(r.verb, r.path, CheckAccountType, c.handler, c.wrapped);
      }
    }
  }

  /** The account paths that need a login. */
  const SignedInPaths: set<string> := {"/", "/update/:account_id", "/update", "/update-password"}

  /** Exactly the dashboard, the update form and the two update submissions are
      behind the login gate, and no account route is behind the staff gate:
      the login and registration forms, their submissions and logout are open
      to every visitor. */
  lemma AccountGates()
    ensures forall i :: 0 <= i < |AccountRoutes| ==>
              (GatedBy(AccountRoutes[i], CheckLogin) <==> AccountRoutes[i].path in SignedInPaths)
    ensures forall i :: 0 <= i < |AccountRoutes| ==> !GatedBy(AccountRoutes[i], CheckAccountType)
  {
  }

  /** The first three inventory routes (classification listing, vehicle detail,
      the error trigger) are open GETs; every other one starts with the staff
      gate. No inventory route uses the login gate, and the delete submission
      runs no rules. */
  lemma InventoryGates()
    ensures |InventoryRoutes| == 13
    ensures forall i :: 0 <= i < |InventoryRoutes| ==> (GatedBy(InventoryRoutes[i], CheckAccountType) <==> 3 <= i)
    ensures forall i :: 0 <= i < |InventoryRoutes| ==> !GatedBy(InventoryRoutes[i], CheckLogin)
    ensures forall i :: 0 <= i < 3 ==> InventoryRoutes[i].verb == Get
    ensures InventoryRoutes[12].verb == Post && InventoryRoutes[12].path == "/delete/"
    ensures forall m :: m in InventoryRoutes[12].chain ==> !m.Rules? && !m.Check?
  {
  }

  /** The form submissions behind a gate run gate, rules, checker and handler
      in that order: the two account updates behind the login gate, and the
      classification, inventory and vehicle update forms behind the staff
      gate, where the update form reuses the inventory rules with its own
      checker. */
  lemma GatedFormsValidateBeforeHandling()
    ensures GatedForm(UpdateInfo, CheckLogin) && GatedForm(UpdatePassword, CheckLogin)
    ensures |InventoryRoutes| > 10
    ensures InventoryRoutes[6].verb == Post && GatedForm(InventoryRoutes[6], CheckAccountType)
    ensures InventoryRoutes[7].verb == Post && GatedForm(InventoryRoutes[7], CheckAccountType)
    ensures InventoryRoutes[10].verb == Post && GatedForm(InventoryRoutes[10], CheckAccountType)
    ensures InventoryRoutes[10].chain[1] == InventoryRoutes[7].chain[1]
    ensures InventoryRoutes[10].chain[2] == Check(CheckUpdateData)
  {
  }

  // ---------------------------------------------------------------------------
  // The gates in front of the routes

  /** Behind the login gate, a visitor without an accepted token is redirected
      to the login page before any rule, checker or handler runs, and the table
      is untouched; a visitor with one goes on to the rest of the route. */
  lemma LoginGateGuardsRoute(route: Route, req: Request, verify: AuthMiddleware.Verifier, ctx: Context)
    requires GatedBy(route, CheckLogin)
    ensures var after := AuthMiddleware.CheckJWTToken(req, verify).req;
            && (!AuthMiddleware.TokenAccepted(req, verify) ==>
                  && Serve(route, req, verify, ctx)
                     == AccountController.Effect(AuthMiddleware.CheckLogin(after), ctx.env.db)
                  && Serve(route, req, verify, ctx).step.out == Redirect(AuthMiddleware.LoginPath))
            && (AuthMiddleware.TokenAccepted(req, verify) ==>
                  Serve(route, req, verify, ctx) == Run(route.chain[1..], after, ctx))
  {
    AuthMiddleware.LoginGateAfterToken(req, verify);
  }

  /** Behind the staff gate, only an accepted token whose payload names an
      Employee or Admin goes on to the rest of the route; every other request is
      redirected to the login page before anything else runs. */
  lemma StaffGateGuardsRoute(route: Route, req: Request, verify: AuthMiddleware.Verifier, ctx: Context)
    requires GatedBy(route, CheckAccountType)
    ensures var after := AuthMiddleware.CheckJWTToken(req, verify).req;
            var staff := AuthMiddleware.TokenAccepted(req, verify)
                         && AuthMiddleware.HasStaffRole(verify(req.jwt.value));
            && (!staff ==>
                  && Serve(route, req, verify, ctx)
                     == AccountController.Effect(AuthMiddleware.CheckAccountType(after), ctx.env.db)
                  && Serve(route, req, verify, ctx).step.out == Redirect(AuthMiddleware.LoginPath))
            && (staff ==> Serve(route, req, verify, ctx) == Run(route.chain[1..], after, ctx))
  {
    AuthMiddleware.StaffGateAfterToken(req, verify);
  }

  /** No inventory management route after the first three reaches its handler
      unless the request carried an accepted token naming an Employee or
      Admin; a Client or a visitor is redirected to the login page. */
  lemma InventoryManagementNeedsStaff(i: nat, req: Request, verify: AuthMiddleware.Verifier, ctx: Context)
    requires 3 <= i < |InventoryRoutes|
    ensures var r := Serve(InventoryRoutes[i], req, verify, ctx);
            && (r.step.out.NextError? ==>
                  AuthMiddleware.TokenAccepted(req, verify) && AuthMiddleware.HasStaffRole(verify(req.jwt.value)))
            && (!(AuthMiddleware.TokenAccepted(req, verify) && AuthMiddleware.HasStaffRole(verify(req.jwt.value))) ==>
                  r.step.out == Redirect(AuthMiddleware.LoginPath) && r.db == ctx.env.db)
  {
    InventoryGates();
    StaffGateGuardsRoute(InventoryRoutes[i], req, verify, ctx);
  }

  /** The staff-only views reach their handler only to fail: a staff request
      is passed on as the TypeError of calling the missing handler, and the
      table is unchanged. */
  lemma StaffViewsPassError(i: nat, req: Request, verify: AuthMiddleware.Verifier, ctx: Context)
    requires i in {3, 4, 5, 8, 9, 11, 12}
    requires AuthMiddleware.TokenAccepted(req, verify) && AuthMiddleware.HasStaffRole(verify(req.jwt.value))
    ensures var r := Serve(InventoryRoutes[i], req, verify, ctx);
            r.step.out == NextError(NotAFunction) && r.db == ctx.env.db
  {
    var route := InventoryRoutes[i];
    InventoryGates();
    StaffGateGuardsRoute(route, req, verify, ctx);
    assert route.chain[1..] == [Handle(Missing(route.chain[1].handler.name), true)];
    RunHandleStep(route.chain[1].handler, AuthMiddleware.CheckJWTToken(req, verify).req, ctx);
  }

  /** Logout needs no login: whatever the request, the cookie is cleared, the
      "logged out" message is queued and the visitor is sent home. */
  lemma LogoutAlwaysSignsOut(req: Request, verify: AuthMiddleware.Verifier, ctx: Context)
    ensures var r := Serve(LogoutRoute, req, verify, ctx);
            && r.step.out == Redirect(AccountController.HomePath)
            && r.db == ctx.env.db
            && |r.step.req.cookieOps| > 0 && r.step.req.cookieOps[|r.step.req.cookieOps| - 1] == ClearCookie("jwt")
            && r.step.req.flash == Flash.Push(req.flash, SuccessCategory, LoggedOut)
  {
  }

  // ---------------------------------------------------------------------------
  // Registration and login through their routes

  /** One step of Run at a rule set: the rules rewrite the request and the
      rest of the chain runs on it. */
  lemma RunRulesStep(chain: seq<Middleware>, req: Request, ctx: Context)
    requires |chain| > 0 && chain[0].Rules?
    ensures Run(chain, req, ctx) == Run(chain[1..], ApplyRules(RulesOf(chain[0].rules, ctx.loadYear), req, ctx.env), ctx)
  {
  }

  /** One step of Run at a checker: an answer ends the route with the table
      untouched, passing on runs the rest of the chain. */
  lemma RunCheckStep(chain: seq<Middleware>, req: Request, ctx: Context)
    requires |chain| > 0 && chain[0].Check?
    ensures var k := RunChecker(chain[0].checker, req, ctx.rows);
            && (k.out != Next ==> Run(chain, req, ctx) == AccountController.Effect(k, ctx.env.db))
            && (k.out == Next ==> Run(chain, req, ctx) == Run(chain[1..], k.req, ctx))
  {
  }

  /** The last step of Run: a wrapped handler's answer and table are the
      route's. */
  lemma RunHandleStep(h: Handler, req: Request, ctx: Context)
    ensures Run([Handle(h, true)], req, ctx) == RunHandler(h, req, ctx)
  {
  }

  /** A route of rules, checker and handler: the handler runs, on the request
      the rules left, exactly when the checker passes it on; otherwise the
      checker's answer is the route's and the table is untouched. */
  lemma RunValidated(rules: RuleSet, c: Checker, h: Handler, req: Request, ctx: Context)
    ensures var k := RunChecker(c, ApplyRules(RulesOf(rules, ctx.loadYear), req, ctx.env), ctx.rows);
            && (k.out != Next ==>
                  Run([Rules(rules), Check(c), Handle(h, true)], req, ctx) == AccountController.Effect(k, ctx.env.db))
            && (k.out == Next ==> Run([Rules(rules), Check(c), Handle(h, true)], req, ctx) == RunHandler(h, k.req, ctx))
  {
    var chain := [Rules(rules), Check(c), Handle(h, true)];
    var tail := [Check(c), Handle(h, true)];
    var after := ApplyRules(RulesOf(rules, ctx.loadYear), req, ctx.env);
    var k := RunChecker(c, after, ctx.rows);
    assert chain[1..] == tail;
    RunRulesStep(chain, req, ctx);
    RunCheckStep(tail, after, ctx);
    assert tail[1..] == [Handle(h, true)];
    RunHandleStep(h, k.req, ctx);
  }

  /** POST /account/register: a form the rules refuse is answered with the
      registration view and never reaches the table; a form they accept goes to
      registerAccount with the sanitized fields. */
  lemma RegisterRouteGuardsTable(req: Request, ctx: Context)
    requires req.errors == []
    ensures var r := Run(RegisterPost.chain, req, ctx);
            && (!ValidRegistration(req.body, ctx.env) ==>
                  && r.db == ctx.env.db
                  && r.step.out.Render? && r.step.out.status == Ok && r.step.out.view == RegisterView)
            && (ValidRegistration(req.body, ctx.env) ==>
                  r == RunHandler(RegisterAccount, ApplyRules(RegistrationRules, req, ctx.env), ctx))
  {
    var after := ApplyRules(RegistrationRules, req, ctx.env);
    var k := AccountValidation.CheckRegData(after, ctx.rows);
    assert k.out == Next <==> ValidRegistration(req.body, ctx.env) by {
      AccountValidation.RegistrationPipeline(req, ctx.env, ctx.rows);
    }
    RunValidated(RegistrationSet, CheckRegData, RegisterAccount, req, ctx);
    assert RunChecker(CheckRegData, after, ctx.rows) == k;
    if k.out != Next {
      AccountValidation.RegistrationPipeline(req, ctx.env, ctx.rows);
    }
  }

  /** POST /account/login runs the login rules, then `checkLoginData`, whose
      refusal is the answer; what it passes on goes to loginAccount. */
  lemma LoginRouteSteps(req: Request, ctx: Context)
    ensures var k := AccountValidation.CheckLoginData(ApplyRules(LoginRules, req, ctx.env), ctx.rows);
            Run(LoginPost.chain, req, ctx)
            == if k.out != Next then AccountController.Effect(k, ctx.env.db) else RunHandler(LoginAccount, k.req, ctx)
  {
    var k := AccountValidation.CheckLoginData(ApplyRules(LoginRules, req, ctx.env), ctx.rows);
    assert LoginPost.chain == [Rules(LoginSet), Check(CheckLoginData), Handle(LoginAccount, true)];
    RunValidated(LoginSet, CheckLoginData, LoginAccount, req, ctx);
    assert RunChecker(CheckLoginData, ApplyRules(LoginRules, req, ctx.env), ctx.rows) == k;
  }

  /** POST /account/login never writes the table. A form the rules refuse is
      answered with the login view; a form they accept goes to loginAccount
      with the trimmed fields. */
  lemma LoginRouteOnlyReads(req: Request, ctx: Context)
    requires req.errors == []
    ensures var r := Run(LoginPost.chain, req, ctx);
            && r.db == ctx.env.db
            && (!ValidLogin(req.body, ctx.env) ==>
                  r.step.out.Render? && r.step.out.status == Ok && r.step.out.view == LoginView)
            && (ValidLogin(req.body, ctx.env) ==>
                  r.step == AccountController.LoginAccount(ApplyRules(LoginRules, req, ctx.env), ctx.env.db, ctx.rows))
  {
    var after := ApplyRules(LoginRules, req, ctx.env);
    var k := AccountValidation.CheckLoginData(after, ctx.rows);
    LoginRouteSteps(req, ctx);
    AccountValidation.LoginPipeline(req, ctx.env, ctx.rows);
    if k.out == Next {
      assert RunHandler(LoginAccount, after, ctx)
             == AccountController.Effect(AccountController.LoginAccount(after, ctx.env.db, ctx.rows), ctx.env.db);
    }
  }

  /** The account a registration through the route stores: the escaped names,
      the normalized email, the trimmed password, and the Client type. */
  function StoredBy(body: map<string, string>, env: Env, id: int): AccountStore.Account {
    AccountStore.Account(id, Escape(Trim(BodyField(body, FirstName))), Escape(Trim(BodyField(body, LastName))),
                         env.oracles.normalizeEmail(Trim(BodyField(body, Email))), Trim(BodyField(body, Password)),
                         AccountStore.ClientType)
  }

  /** The registration handler on a valid, reachable table answers 201 with
      the login view and appends the submitted account under the next id. */
  lemma RegisterHandlerStores(req: Request, ctx: Context)
    requires AccountStore.Valid(ctx.env.db) && ctx.env.db.online
    ensures var r := RunHandler(RegisterAccount, req, ctx);
            var a := AccountStore.Account(ctx.env.db.nextId, BodyField(req.body, FirstName),
                                          BodyField(req.body, LastName), BodyField(req.body, Email),
                                          BodyField(req.body, Password), AccountStore.ClientType);
            && r.step.out.Render? && r.step.out.status == Created && r.step.out.view == LoginView
            && r.db == AccountStore.RegisterAccount(ctx.env.db, a.firstname, a.lastname, a.email, a.password).value.db
            && r.db.rows == ctx.env.db.rows + [a]
            && AccountStore.Valid(r.db) && r.db.online
  {
  }

  /** A valid registration on a valid, reachable table answers 201 with the
      login view and appends exactly the sanitized account under the next id. */
  lemma RegisterRouteStores(req: Request, ctx: Context)
    requires AccountStore.Valid(ctx.env.db) && req.errors == [] && ValidRegistration(req.body, ctx.env)
    ensures var r := Run(RegisterPost.chain, req, ctx);
            var a := StoredBy(req.body, ctx.env, ctx.env.db.nextId);
            && r.step.out.Render? && r.step.out.status == Created && r.step.out.view == LoginView
            && r.db.rows == ctx.env.db.rows + [a]
            && r.db == AccountStore.RegisterAccount(ctx.env.db, a.firstname, a.lastname, a.email, a.password).value.db
            && AccountStore.Valid(r.db) && r.db.online
  {
    var after := ApplyRules(RegistrationRules, req, ctx.env);
    RegisterRouteGuardsTable(req, ctx);
    AccountValidation.RegistrationRulesBody(req.body, ctx.env);
    RegisterHandlerStores(after, ctx);
  }

  /** Register, then log in with the same email and password fields: when the
      normalizer leaves the trimmed email as it is and the trimmed password is
      long enough for the login rule, the login redirects home. */
  lemma RegisterThenLogInThroughRoutes(reg: Request, login: Request, ctx: Context)
    requires AccountStore.Valid(ctx.env.db)
    requires reg.errors == [] && login.errors == [] && ValidRegistration(reg.body, ctx.env)
    requires BodyField(login.body, Email) == BodyField(reg.body, Email)
    requires BodyField(login.body, Password) == BodyField(reg.body, Password)
    requires ctx.env.oracles.normalizeEmail(Trim(BodyField(reg.body, Email))) == Trim(BodyField(reg.body, Email))
    requires ValidatorLength(Trim(BodyField(reg.body, Password))) >= 12
    ensures var db' := Run(RegisterPost.chain, reg, ctx).db;
            Run(LoginPost.chain, login, ctx.(env := ctx.env.(db := db'))).step.out == Redirect(AccountController.HomePath)
  {
    var db := ctx.env.db;
    var a := StoredBy(reg.body, ctx.env, db.nextId);
    RegisterRouteStores(reg, ctx);
    var db' := Run(RegisterPost.chain, reg, ctx).db;
    var ctx' := ctx.(env := ctx.env.(db := db'));
    LoginRouteOnlyReads(login, ctx');
    AccountValidation.LoginRulesReport(login.body, ctx'.env);
    var after := ApplyRules(LoginRules, login, ctx'.env);
    assert after.body[Email] == a.email && after.body[Password] == a.password;
    AccountStore.RegisteredAccountFoundByEmail(db, a.firstname, a.lastname, a.email, a.password);
    assert AccountController.Accepted(db', after.body);
  }

  /** The same round trip fails when the normalizer changes the typed email
      (for example by lower-casing it): the account is stored under the
      normalized form, the login looks up the typed form, finds no account,
      and answers 401. */
  lemma UnnormalizedEmailLocksOut(reg: Request, login: Request, ctx: Context)
    requires AccountStore.Valid(ctx.env.db)
    requires reg.errors == [] && login.errors == [] && ValidRegistration(reg.body, ctx.env)
    requires BodyField(login.body, Email) == BodyField(reg.body, Email)
    requires BodyField(login.body, Password) == BodyField(reg.body, Password)
    requires ctx.env.oracles.normalizeEmail(Trim(BodyField(reg.body, Email))) != Trim(BodyField(reg.body, Email))
    requires !AccountStore.EmailTaken(ctx.env.db, Trim(BodyField(reg.body, Email)))
    requires ValidatorLength(Trim(BodyField(reg.body, Password))) >= 12
    ensures var db' := Run(RegisterPost.chain, reg, ctx).db;
            var r := Run(LoginPost.chain, login, ctx.(env := ctx.env.(db := db')));
            r.step.out.Render? && r.step.out.status == Unauthorized
  {
    var db := ctx.env.db;
    var typed := Trim(BodyField(reg.body, Email));
    var a := StoredBy(reg.body, ctx.env, db.nextId);
    var db' := Run(RegisterPost.chain, reg, ctx).db;
    var ctx' := ctx.(env := ctx.env.(db := db'));
    var after := ApplyRules(LoginRules, login, ctx'.env);
    RegisterRouteStores(reg, ctx);
    AccountStore.RegisterKeepsEmailFree(db, a.firstname, a.lastname, a.email, a.password, typed);
    AccountValidation.LoginRulesBody(login.body, ctx'.env);
    AccountController.UnknownEmailRejected(after, db', ctx.rows);
    LoginRouteOnlyReads(login, ctx');
  }

  /** A password the registration policy accepts can be too short for the login
      rule, because the policy counts UTF-16 units and the login rule counts
      characters: such an account registers, but every login with the same
      password is sent back to the login form and never reaches the comparison. */
  lemma ShortCountedPasswordLocksOut(reg: Request, login: Request, ctx: Context)
    requires AccountStore.Valid(ctx.env.db)
    requires reg.errors == [] && login.errors == [] && ValidRegistration(reg.body, ctx.env)
    requires BodyField(login.body, Password) == BodyField(reg.body, Password)
    requires ValidatorLength(Trim(BodyField(reg.body, Password))) < 12
    ensures Run(RegisterPost.chain, reg, ctx).step.out.Render?
    ensures Run(RegisterPost.chain, reg, ctx).step.out.status == Created
    ensures var db' := Run(RegisterPost.chain, reg, ctx).db;
            var r := Run(LoginPost.chain, login, ctx.(env := ctx.env.(db := db')));
            r.step.out.Render? && r.step.out.status == Ok && r.step.out.view == LoginView
  {
    RegisterRouteStores(reg, ctx);
    var db' := Run(RegisterPost.chain, reg, ctx).db;
    LoginRouteOnlyReads(login, ctx.(env := ctx.env.(db := db')));
  }

  /** Four ASCII characters of the four classes followed by four emoji. */
  predicate IsEmojiSample(w: string) {
    var e := '\U{1F600}';
    w == "Aa1!" + [e, e, e, e]
  }

  /** Each emoji is two UTF-16 units. */
  lemma EmojiSampleUtf16(w: string)
    requires IsEmojiSample(w)
    ensures Utf16Length(w) == 12
  {
    var e := '\U{1F600}';
    var pair := [e, e];
    assert Utf16Length(pair) == 4;
    assert [e, e, e, e] == pair + pair;
    Utf16LengthAppend(pair, pair);
    assert Utf16Length("Aa") == 2 && Utf16Length("1!") == 2;
    assert "Aa1!" == "Aa" + "1!";
    Utf16LengthAppend("Aa", "1!");
    Utf16LengthAppend("Aa1!", [e, e, e, e]);
  }

  /** The sample has a character of each class the policy asks for. */
  lemma EmojiSampleClasses(w: string)
    requires IsEmojiSample(w)
    ensures CountWhere(w, IsAsciiLower) >= 1 && CountWhere(w, IsAsciiUpper) >= 1
    ensures CountWhere(w, IsDigit) >= 1 && CountWhere(w, IsPasswordSymbol) >= 1
  {
    assert w[0] == 'A' && w[1] == 'a' && w[2] == '1' && w[3] == '!';
    assert CountWhere(w, IsAsciiUpper) >= 1 by {
      CountWherePositive(w, IsAsciiUpper);
      assert IsAsciiUpper(w[0]);
    }
    assert CountWhere(w, IsAsciiLower) >= 1 by {
      CountWherePositive(w, IsAsciiLower);
      assert IsAsciiLower(w[1]);
    }
    assert CountWhere(w, IsDigit) >= 1 by {
      CountWherePositive(w, IsDigit);
      assert IsDigit(w[2]);
    }
    assert CountWhere(w, IsPasswordSymbol) >= 1 by {
      CountWherePositive(w, IsPasswordSymbol);
      assert IsPasswordSymbol(w[3]);
    }
  }

  /** The sample has no variation selector and no surrounding white space. */
  lemma EmojiSampleShape(w: string)
    requires IsEmojiSample(w)
    ensures |w| == 8 && CountWhere(w, IsVariationSelector) == 0 && Trim(w) == w
  {
    CountWherePositive(w, IsVariationSelector);
    assert !IsJsWhitespace(w[0]) && !IsJsWhitespace(w[7]);
  }

  /** Such passwords exist: four ASCII characters of the four classes and four
      emoji make twelve UTF-16 units but only eight characters. */
  lemma StrongButShortPassword()
    ensures var e := '\U{1F600}';
            var w := "Aa1!" + [e, e, e, e];
            && IsStrongPassword(w) && Trim(w) == w && ValidatorLength(w) == 8
  {
    var e := '\U{1F600}';
    var w := "Aa1!" + [e, e, e, e];
    EmojiSampleUtf16(w);
    EmojiSampleClasses(w);
    EmojiSampleShape(w);
  }
}

=== FILE: strings.dfy ===
/** String primitives with the semantics of the JavaScript and validator.js
    operations the validators and HTML builders rely on. A string is a sequence
    of Unicode scalar values (code points). */
module Strings {
  import opened Wrappers

  /** The characters JavaScript's `\s` matches (WhiteSpace and LineTerminator):
      what `String.prototype.trim`, validator.js `trim` and `ToNumber` strip. */
  predicate IsJsWhitespace(c: char) {
    || c == ' ' || c == '\t' || c == '\n' || c == '\r' || c == '\U{B}' || c == '\U{C}'
    || c == '\U{A0}' || c == '\U{1680}' || ('\U{2000}' <= c <= '\U{200A}')
    || c == '\U{2028}' || c == '\U{2029}' || c == '\U{202F}' || c == '\U{205F}'
    || c == '\U{3000}' || c == '\U{FEFF}'
  }

  predicate AllWhitespace(s: string) {
    forall i :: 0 <= i < |s| ==> IsJsWhitespace(s[i])
  }

  /** `r` is a slice of `s` with nothing but whitespace before and after it. */
  predicate WhitespaceFramed(s: string, r: string) {
    exists i, j :: 0 <= i <= j <= |s| && r == s[i..j] && AllWhitespace(s[..i]) && AllWhitespace(s[j..])
  }

  /** Drops the leading whitespace: the result is the suffix of `s` that starts at
      its first non-whitespace character. */
  function TrimStart(s: string): (r: string)
    ensures |r| <= |s| && r == s[|s| - |r|..]
    ensures forall i :: 0 <= i < |s| - |r| ==> IsJsWhitespace(s[i])
    ensures |r| > 0 ==> !IsJsWhitespace(r[0])
  {
    if |s| > 0 && IsJsWhitespace(s[0]) then TrimStart(s[1..]) else s
  }

  /** Drops the trailing whitespace: the result is the prefix of `s` that ends at
      its last non-whitespace character. */
  function TrimEnd(s: string): (r: string)
    ensures |r| <= |s| && r == s[..|r|]
    ensures forall i :: |r| <= i < |s| ==> IsJsWhitespace(s[i])
    ensures |r| > 0 ==> !IsJsWhitespace(r[|r| - 1])
  {
    if |s| > 0 && IsJsWhitespace(s[|s| - 1]) then TrimEnd(s[..|s| - 1]) else s
  }

  /** Cutting leading, then trailing whitespace leaves nothing exactly when `s`
      is all whitespace, and otherwise a string whose ends are not whitespace. */
  lemma TrimEnds(s: string)
    ensures var r := TrimEnd(TrimStart(s));
            && (r == "" <==> AllWhitespace(s))
            && (|r| > 0 ==> !IsJsWhitespace(r[0]) && !IsJsWhitespace(r[|r| - 1]))
  {
    var t := TrimStart(s);
    var r := TrimEnd(t);
    assert |t| > 0 ==> |r| > 0 by {
      if |t| > 0 {
        assert !IsJsWhitespace(t[0]);
      }
    }
    assert |r| > 0 ==> !IsJsWhitespace(r[0]) by {
      if |r| > 0 {
        assert r[0] == t[0];
      }
    }
  }

  /** `trim()`: the result is `s` without its leading and trailing whitespace
      (`TrimSlice`). It is empty exactly when `s` is all whitespace, and
      otherwise neither starts nor ends with whitespace. */
  function Trim(s: string): (r: string)
    ensures |r| <= |s|
    ensures r == "" <==> AllWhitespace(s)
    ensures |r| > 0 ==> !IsJsWhitespace(r[0]) && !IsJsWhitespace(r[|r| - 1])
    ensures (|s| == 0 || (!IsJsWhitespace(s[0]) && !IsJsWhitespace(s[|s| - 1]))) ==> r == s
  {
    TrimEnds(s);
    TrimEnd(TrimStart(s))
  }

  /** What `trim()` returns is a slice of its input with nothing but
      whitespace cut from either end. */
  lemma TrimSlice(s: string)
    ensures WhitespaceFramed(s, Trim(s))
  {
    var t := TrimStart(s);
    var r := TrimEnd(t);
    var i := |s| - |t|;
    var j := i + |r|;
    assert r == s[i..j];
    assert AllWhitespace(s[..i]);
    assert AllWhitespace(s[j..]) by {
      assert s[j..] == t[|r|..];
    }
  }

  /** Trimming twice is trimming once. */
  lemma TrimIdempotent(s: string)
    ensures Trim(Trim(s)) == Trim(s)
  {
  }

  predicate IsDigit(c: char) {
    '0' <= c <= '9'
  }

  predicate AllDigits(s: string) {
    forall i :: 0 <= i < |s| ==> IsDigit(s[i])
  }

  function DigitValue(c: char): (d: nat)
    requires IsDigit(c)
    ensures d < 10
  {
    (c as int) - ('0' as int)
  }

  function DigitChar(d: nat): (c: char)
    requires d < 10
    ensures IsDigit(c) && DigitValue(c) == d
  {
    (('0' as int) + d) as char
  }

  /** The value of a string of decimal digits, most significant first. */
  function DigitsValue(s: string): nat
    requires AllDigits(s)
  {
    if |s| == 0 then 0 else DigitsValue(s[..|s| - 1]) * 10 + DigitValue(s[|s| - 1])
  }

  /** The decimal digits of `n`, without leading zeros. */
  function NatToString(n: nat): (s: string)
    ensures |s| > 0 && AllDigits(s)
    ensures s[0] == '0' ==> n == 0
  {
    if n < 10 then [DigitChar(n)] else NatToString(n / 10) + [DigitChar(n % 10)]
  }

  lemma {:induction false} NatToStringRoundTrip(n: nat)
    ensures DigitsValue(NatToString(n)) == n
  {
    if n >= 10 {
      NatToStringRoundTrip(n / 10);
      var s := NatToString(n);
      assert s[..|s| - 1] == NatToString(n / 10);
    }
  }

  /** JavaScript `String(n)` for an integer-valued number (below 1e21 in magnitude). */
  function IntToString(n: int): string {
    if n < 0 then "-" + NatToString(-n) else NatToString(n)
  }

  /** validator.js `isInt` with its default `allow_leading_zeroes`: the string matches
      `^[-+]?[0-9]+$`; the result is the integer it denotes. */
  function ParseInt(s: string): (r: Option<int>)
    ensures r.Some? ==> |s| > 0 && !IsJsWhitespace(s[0]) && !IsJsWhitespace(s[|s| - 1])
  {
    if |s| > 0 && (s[0] == '-' || s[0] == '+') then
      var digits := s[1..];
      if |digits| > 0 && AllDigits(digits) then
        assert s[|s| - 1] == digits[|digits| - 1];
        var magnitude: int := DigitsValue(digits);
        Some(if s[0] == '-' then -magnitude else magnitude)
      else None
    else if |s| > 0 && AllDigits(s) then Some(DigitsValue(s))
    else None
  }

  /** Every integer's own decimal text is an integer string denoting it. */
  lemma {:induction false} ParseIntRoundTrip(n: int)
    ensures ParseInt(IntToString(n)) == Some(n)
  {
    var s := IntToString(n);
    if n < 0 {
      var t := NatToString(-n);
      NatToStringRoundTrip(-n);
      assert s == "-" + t;
      assert s[0] == '-' && s[1..] == t;
    } else {
      NatToStringRoundTrip(n);
      assert s[0] != '-' && s[0] != '+' by {
        assert IsDigit(s[0]);
      }
    }
  }

  /** The number of leading decimal digits of `s`. */
  function LeadingDigitCount(s: string): (k: nat)
    ensures k <= |s| && AllDigits(s[..k])
    ensures k < |s| ==> !IsDigit(s[k])
    ensures AllDigits(s) ==> k == |s|
  {
    if |s| > 0 && IsDigit(s[0]) then
      var k := 1 + LeadingDigitCount(s[1..]);
      assert s[..k] == [s[0]] + s[1..][..k - 1];
      k
    else 0
  }

  /** JavaScript `ToNumber(s)` when it is an integer: whitespace is trimmed, a blank
      string is 0, `[+-]?digits` optionally followed by `.` and zeros denotes
      that integer, and `[+-]?.` followed by at least one zero is 0. Every other
      form yields None. */
  function JsNumberAsInt(s: string): Option<int> {
    var t := Trim(s);
    if t == "" then Some(0) else SignedIntegral(t)
  }

  /** `[+-]?` followed by an unsigned integral text: the signed integer it denotes. */
  function SignedIntegral(t: string): Option<int> {
    if |t| == 0 then None
    else if t[0] == '-' then
      match UnsignedIntegral(t[1..])
      case Some(m) => Some(-(m as int))
      case None => None
    else if t[0] == '+' then
      match UnsignedIntegral(t[1..])
      case Some(m) => Some(m)
      case None => None
    else
      match UnsignedIntegral(t)
      case Some(m) => Some(m)
      case None => None
  }

  /** `digits` or `digits.` followed only by zeros: the integer the digits
      denote; `.` followed by at least one zero and nothing else: zero. */
  function UnsignedIntegral(u: string): Option<nat> {
    var k := LeadingDigitCount(u);
    if k > 0 && (k == |u| || (u[k] == '.' && AllZeros(u[k + 1..]))) then Some(DigitsValue(u[..k]))
    else if k == 0 && |u| >= 2 && u[0] == '.' && AllZeros(u[1..]) then Some(0)
    else None
  }

  predicate AllZeros(s: string) {
    forall i :: 0 <= i < |s| ==> s[i] == '0'
  }

  /** JavaScript's loose `==` between a number `n` and a string `s`. */
  predicate LooseEqualsNumber(n: int, s: string) {
    JsNumberAsInt(s) == Some(n)
  }

  /** A fraction of zeros with no integer digits is zero to `ToNumber`. */
  lemma PointZeroIsZero()
    ensures UnsignedIntegral(".0") == Some(0) && LooseEqualsNumber(0, ".0")
  {
    var u := ".0";
    assert LeadingDigitCount(u) == 0 by {
      assert !IsDigit(u[0]);
    }
    assert AllZeros(u[1..]);
    assert Trim(u) == u by {
      assert !IsJsWhitespace(u[0]) && !IsJsWhitespace(u[1]);
    }
  }

  /** "-.0" has no surrounding whitespace. */
  lemma MinusPointZeroTrimmed()
    ensures Trim("-.0") == "-.0"
  {
    var v := "-.0";
    assert !IsJsWhitespace(v[0]) && !IsJsWhitespace(v[2]);
  }

  /** "-.0" is the negation of ".0". */
  lemma MinusPointZeroSigned()
    ensures SignedIntegral("-.0") == Some(0)
  {
    var v := "-.0";
    assert v[0] == '-' && v[1..] == ".0";
    PointZeroIsZero();
  }

  /** So is its negation, which JavaScript reads as -0, equal to 0. */
  lemma MinusPointZeroIsZero()
    ensures LooseEqualsNumber(0, "-.0")
  {
    MinusPointZeroTrimmed();
    MinusPointZeroSigned();
  }

  /** A lone point is not a number. */
  lemma LonePointNotNumber()
    ensures JsNumberAsInt(".") == None
  {
    assert Trim(".") == "." by {
      assert !IsJsWhitespace("."[0]);
    }
    assert LeadingDigitCount(".") == 0 by {
      assert !IsDigit("."[0]);
    }
  }

  /** A number is loosely equal to its own decimal text, so a form field that
      echoes an id matches that id. */
  lemma LooseEqualsOwnText(n: int)
    ensures LooseEqualsNumber(n, IntToString(n))
  {
    var s := IntToString(n);
    ParseIntRoundTrip(n);
    assert Trim(s) == s;
    var u := if n < 0 then s[1..] else s;
    assert AllDigits(u);
    assert u[..|u|] == u;
  }

  /** The number of characters of `s` that satisfy `p`. */
  function CountWhere(s: string, p: char -> bool): (n: nat)
    ensures n <= |s|
  {
    if |s| == 0 then 0 else (if p(s[0]) then 1 else 0) + CountWhere(s[1..], p)
  }

  lemma {:induction false} CountWherePositive(s: string, p: char -> bool)
    ensures CountWhere(s, p) > 0 <==> exists i :: 0 <= i < |s| && p(s[i])
  {
    if |s| > 0 {
      CountWherePositive(s[1..], p);
      if exists i :: 0 <= i < |s| && p(s[i]) {
        var i :| 0 <= i < |s| && p(s[i]);
        if i > 0 {
          assert s[1..][i - 1] == s[i];
        }
      }
      if exists i :: 0 <= i < |s[1..]| && p(s[1..][i]) {
        var i :| 0 <= i < |s[1..]| && p(s[1..][i]);
        assert s[i + 1] == s[1..][i];
      }
    }
  }

  /** U+FE0E and U+FE0F select text or emoji presentation of the preceding character. */
  predicate IsVariationSelector(c: char) {
    c == '\U{FE0E}' || c == '\U{FE0F}'
  }

  /** validator.js `isLength` measure: code points, not counting variation selectors. */
  function ValidatorLength(s: string): nat {
    |s| - CountWhere(s, IsVariationSelector)
  }

  /** The strings `f` gives for the elements of `xs`, one after the other: a
      string built up in a loop over `xs`. */
  function Concat<T>(xs: seq<T>, f: T -> string): string {
    if |xs| == 0 then "" else Concat(xs[..|xs| - 1], f) + f(xs[|xs| - 1])
  }

  /** One more element adds its string at the end. */
  lemma ConcatSnoc<T>(xs: seq<T>, i: nat, f: T -> string)
    requires i < |xs|
    ensures Concat(xs[..i + 1], f) == Concat(xs[..i], f) + f(xs[i])
  {
    assert xs[..i + 1][..i] == xs[..i];
  }

  /** Two consecutive runs of elements give the first run's strings followed by
      the second's. */
  lemma {:induction false} ConcatAppend<T>(a: seq<T>, b: seq<T>, f: T -> string)
    ensures Concat(a + b, f) == Concat(a, f) + Concat(b, f)
    decreases |b|
  {
    if |b| > 0 {
      var b' := b[..|b| - 1];
      assert (a + b)[..|a + b| - 1] == a + b';
      ConcatAppend(a, b', f);
    } else {
      assert a + b == a;
    }
  }

  /** JavaScript `.length`: UTF-16 code units, two for a code point above U+FFFF. */
  function Utf16Length(s: string): (n: nat)
    ensures |s| <= n <= 2 * |s|
  {
    if |s| == 0 then 0 else (if s[0] as int > 0xFFFF then 2 else 1) + Utf16Length(s[1..])
  }

  /** The UTF-16 length of a concatenation is the sum of the parts' lengths. */
  lemma {:induction false} Utf16LengthAppend(a: string, b: string)
    ensures Utf16Length(a + b) == Utf16Length(a) + Utf16Length(b)
  {
    if |a| == 0 {
      assert a + b == b;
    } else {
      assert (a + b)[1..] == a[1..] + b;
      Utf16LengthAppend(a[1..], b);
    }
  }

  predicate IsAsciiLower(c: char) {
    'a' <= c <= 'z'
  }

  predicate IsAsciiUpper(c: char) {
    'A' <= c <= 'Z'
  }

  predicate IsAsciiAlphanumeric(c: char) {
    IsAsciiLower(c) || IsAsciiUpper(c) || IsDigit(c)
  }

  /** The regular expression `^[A-Za-z0-9]+$`. */
  predicate MatchesAlphanumericPlus(s: string) {
    |s| > 0 && forall i :: 0 <= i < |s| ==> IsAsciiAlphanumeric(s[i])
  }
}

=== FILE: validation.dfy ===
/** express-validator as the rule modules use it: a rule is a chain of links run
    against one body field, in order. A sanitizer rewrites the field in the body;
    a validator records an error when it fails, with the message `withMessage`
    bound to it, or "Invalid value" when none was; `bail` stops the chain once
    it has recorded an error. The chains of a rule set run one after the other
    and their errors are collected in that order. */
module Validation {
  import opened Wrappers
  import opened Strings
  import opened Http
  import AccountStore

  /** The validator.js functions whose internals are not modelled: `isEmail`,
      `normalizeEmail` and `isFloat({ gt: 0 })`. */
  datatype Oracles = Oracles(
    isEmail: string -> bool,
    normalizeEmail: string -> string,
    isPositiveFloat: string -> bool)

  /** What a validator can consult besides the field: the account table (for
      the custom email checks) and the oracles. */
  datatype Env = Env(db: AccountStore.Db, oracles: Oracles)

  datatype Sanitizer = TrimSpace | EscapeHtml | NormalizeEmail

  datatype Check =
    | NotEmpty
    | MinLength(least: nat)
    | IsEmail
    | IsInt(min: Option<int>, max: Option<int>)
    | AlphanumericOnly
    | StrongPassword
    | PositiveFloat
      /** The registration custom check: no account may have the email yet. */
    | EmailUnregistered
      /** The account-update custom check: an account with the email must be the
          one whose id the body field `idField` names. */
    | EmailFreeFor(idField: string)

  /** One link of a chain. `Validate` carries the message `withMessage` attached
      to that validator, if any. */
  datatype Link = Sanitize(sanitizer: Sanitizer) | Validate(check: Check, message: Option<string>) | Bail

  /** `body(field)` followed by its links. */
  datatype Chain = Chain(field: string, links: seq<Link>)

  /** The body after the chains ran, and the errors they recorded. */
  datatype Pass = Pass(body: map<string, string>, errors: seq<FieldError>)

  /** How a validator came out: it passed, it returned false, or (a custom
      validator) it threw an error with the given message. */
  datatype Verdict = Passed | Failed | Threw(message: string)

  const InvalidValue := "Invalid value"
  const EmailExists := "Email exists. Please log in or use different email"
  const EmailInUse := "Email already exists. Please use a different one."

  /** validator.js `escape`: the eight HTML-significant characters become entities. */
  function EscapeChar(c: char): string {
    if c == '&' then "&amp;"
    else if c == '"' then "&quot;"
    else if c == '\'' then "&#x27;"
    else if c == '<' then "&lt;"
    else if c == '>' then "&gt;"
    else if c == '/' then "&#x2F;"
    else if c == '\\' then "&#x5C;"
    else if c == '`' then "&#96;"
    else [c]
  }

  /** A character `escape` replaces. */
  predicate IsHtmlSpecial(c: char) {
    c == '&' || c == '"' || c == '\'' || c == '<' || c == '>' || c == '/' || c == '\\' || c == '`'
  }

  /** A character that never survives `escape`: every special one but the `&`
      that starts each entity. */
  predicate IsMarkup(c: char) {
    IsHtmlSpecial(c) && c != '&'
  }

  /** The escaped text: no markup character is left, it is never shorter than
      the input, it is empty exactly when the input is, and text without special
      characters comes back unchanged. */
  function Escape(s: string): (r: string)
    ensures forall i :: 0 <= i < |r| ==> !IsMarkup(r[i])
    ensures |r| >= |s|
    ensures r == "" <==> s == ""
    ensures (forall i :: 0 <= i < |s| ==> !IsHtmlSpecial(s[i])) ==> r == s
  {
    if |s| == 0 then ""
    else
      var head := EscapeChar(s[0]);
      var tail := Escape(s[1..]);
      assert forall i :: 0 <= i < |head| ==> !IsMarkup(head[i]);
      head + tail
  }

  function Sanitized(s: Sanitizer, value: string, env: Env): string {
    match s
    case TrimSpace => Trim(value)
    case EscapeHtml => Escape(value)
    case NormalizeEmail => env.oracles.normalizeEmail(value)
  }

  /** The `isStrongPassword` symbol class `[-#!$@£%^&*()_+|~=`{}[\]:";'<>?,./\\ ]`. */
  predicate IsPasswordSymbol(c: char) {
    || c == '-' || c == '#' || c == '!' || c == '$' || c == '@' || c == '\U{00A3}' || c == '%' || c == '^'
    || c == '&' || c == '*' || c == '(' || c == ')' || c == '_' || c == '+' || c == '|' || c == '~'
    || c == '=' || c == '`' || c == '{' || c == '}' || c == '[' || c == ']' || c == ':' || c == '"'
    || c == ';' || c == '\'' || c == '<' || c == '>' || c == '?' || c == ',' || c == '.' || c == '/'
    || c == '\\' || c == ' '
  }

  /** `isStrongPassword({ minLength: 12, minLowercase: 1, minUppercase: 1,
      minNumbers: 1, minSymbols: 1 })`: the length is counted in UTF-16 units, the
      classes in characters. */
  predicate IsStrongPassword(s: string) {
    && Utf16Length(s) >= 12
    && CountWhere(s, IsAsciiLower) >= 1
    && CountWhere(s, IsAsciiUpper) >= 1
    && CountWhere(s, IsDigit) >= 1
    && CountWhere(s, IsPasswordSymbol) >= 1
  }

  /** The password policy in plain terms: at least twelve UTF-16 units, and at
      least one lower-case letter, one upper-case letter, one digit and one symbol. */
  lemma StrongPasswordMeaning(s: string)
    ensures IsStrongPassword(s) <==>
              && Utf16Length(s) >= 12
              && (exists i :: 0 <= i < |s| && IsAsciiLower(s[i]))
              && (exists i :: 0 <= i < |s| && IsAsciiUpper(s[i]))
              && (exists i :: 0 <= i < |s| && IsDigit(s[i]))
              && (exists i :: 0 <= i < |s| && IsPasswordSymbol(s[i]))
  {
    CountWherePositive(s, IsAsciiLower);
    CountWherePositive(s, IsAsciiUpper);
    CountWherePositive(s, IsDigit);
    CountWherePositive(s, IsPasswordSymbol);
  }

  /** validator.js `isInt` with optional bounds, both inclusive. */
  predicate IsIntWithin(value: string, min: Option<int>, max: Option<int>) {
    && ParseInt(value).Some?
    && (min.None? || ParseInt(value).value >= min.value)
    && (max.None? || ParseInt(value).value <= max.value)
  }

  /** A validator's outcome on the field's current value. */
  function Evaluate(c: Check, value: string, body: map<string, string>, env: Env): (v: Verdict)
    ensures v.Threw? ==> c.EmailUnregistered? || c.EmailFreeFor?
  {
    match c
    case NotEmpty => if |value| > 0 then Passed else Failed
    case MinLength(least) => if ValidatorLength(value) >= least then Passed else Failed
    case IsEmail => if env.oracles.isEmail(value) then Passed else Failed
    case IsInt(min, max) => if IsIntWithin(value, min, max) then Passed else Failed
    case AlphanumericOnly => if MatchesAlphanumericPlus(value) then Passed else Failed
    case StrongPassword => if IsStrongPassword(value) then Passed else Failed
    case PositiveFloat => if env.oracles.isPositiveFloat(value) then Passed else Failed
    case EmailUnregistered =>
      (match AccountStore.GetAccountByEmail(env.db, value)
       case Failure(e) => Threw(e.message)
       case Success(None) => Passed
       case Success(Some(_)) => Threw(EmailExists))
    case EmailFreeFor(idField) =>
      match AccountStore.GetAccountByEmail(env.db, value)
      case Failure(e) => Threw(e.message)
      case Success(None) => Passed
      case Success(Some(a)) =>
        if idField in body && LooseEqualsNumber(a.id, body[idField]) then Passed else Threw(EmailInUse)
  }

  /** The message of a failed validator: the one bound with `withMessage`, else
      the thrown error's message, else "Invalid value". */
  function MessageOf(bound: Option<string>, v: Verdict): (m: string)
    requires !v.Passed?
    ensures bound.Some? ==> m == bound.value
    ensures bound.None? && v.Threw? && v.message != "" ==> m == v.message
    ensures m == InvalidValue <==>
              (bound.Some? && bound.value == InvalidValue)
              || (bound.None? && (v.Failed? || v.message == "" || v.message == InvalidValue))
  {
    match bound
    case Some(msg) => msg
    case None => if v.Threw? && v.message != "" then v.message else InvalidValue
  }

  /** An error about `field` with `message`, unless `ok`. */
  function Unless(ok: bool, field: string, message: string): seq<FieldError> {
    if ok then [] else [FieldError(field, message)]
  }

  /** Runs the remaining links of a chain on `field`, given the errors the chain
      recorded so far. */
  function RunLinks(field: string, links: seq<Link>, body: map<string, string>, env: Env, errors: seq<FieldError>)
    : Pass
    decreases |links|
  {
    if |links| == 0 then Pass(body, errors)
    else
      match links[0]
      case Sanitize(s) =>
        RunLinks(field, links[1..], body[field := Sanitized(s, BodyField(body, field), env)], env, errors)
      case Validate(c, bound) =>
        var v := Evaluate(c, BodyField(body, field), body, env);
        if v.Passed? then RunLinks(field, links[1..], body, env, errors)
        else RunLinks(field, links[1..], body, env, errors + [FieldError(field, MessageOf(bound, v))])
      case Bail =>
        if |errors| > 0 then Pass(body, errors) else RunLinks(field, links[1..], body, env, errors)
  }

  function RunChain(c: Chain, body: map<string, string>, env: Env): Pass {
    RunLinks(c.field, c.links, body, env, [])
  }

  /** Runs the chains in order, each on the body the previous ones left; the
      errors are those of the first chain, then those of the second, and so on. */
  function RunChains(chains: seq<Chain>, body: map<string, string>, env: Env): Pass
    decreases |chains|
  {
    if |chains| == 0 then Pass(body, [])
    else
      var first := RunChain(chains[0], body, env);
      var rest := RunChains(chains[1..], first.body, env);
      Pass(rest.body, first.errors + rest.errors)
  }

  /** A chain only rewrites its own field. */
  lemma {:induction false} RunLinksKeepsOtherFields(field: string, links: seq<Link>, body: map<string, string>,
                                                    env: Env, errors: seq<FieldError>)
    ensures var p := RunLinks(field, links, body, env, errors);
            && (forall k :: k != field ==> (k in p.body <==> k in body))
            && (forall k :: k != field && k in body ==> p.body[k] == body[k])
    decreases |links|
  {
    if |links| > 0 {
      var p := RunLinks(field, links, body, env, errors);
      match links[0]
      case Sanitize(s) =>
        var body' := body[field := Sanitized(s, BodyField(body, field), env)];
        assert p == RunLinks(field, links[1..], body', env, errors);
        RunLinksKeepsOtherFields(field, links[1..], body', env, errors);
        assert forall k :: k != field ==> (k in body' <==> k in body);
        assert forall k :: k != field && k in body ==> body'[k] == body[k];
      case Validate(c, bound) =>
        var v := Evaluate(c, BodyField(body, field), body, env);
        var errors' := if v.Passed? then errors else errors + [FieldError(field, MessageOf(bound, v))];
        assert p == RunLinks(field, links[1..], body, env, errors');
        RunLinksKeepsOtherFields(field, links[1..], body, env, errors');
      case Bail =>
        if |errors| == 0 {
          RunLinksKeepsOtherFields(field, links[1..], body, env, errors);
        }
    }
  }

  /** A chain records errors only about its own field, behind the errors it
      had recorded already. */
  lemma {:induction false} RunLinksErrorsAbout(field: string, links: seq<Link>, body: map<string, string>,
                                               env: Env, errors: seq<FieldError>)
    ensures var p := RunLinks(field, links, body, env, errors);
            && |p.errors| >= |errors| && p.errors[..|errors|] == errors
            && (forall i :: |errors| <= i < |p.errors| ==> p.errors[i].path == field)
    decreases |links|
  {
    if |links| > 0 {
      var p := RunLinks(field, links, body, env, errors);
      match links[0]
      case Sanitize(s) =>
        var body' := body[field := Sanitized(s, BodyField(body, field), env)];
        assert p == RunLinks(field, links[1..], body', env, errors);
        RunLinksErrorsAbout(field, links[1..], body', env, errors);
      case Validate(c, bound) =>
        var v := Evaluate(c, BodyField(body, field), body, env);
        var errors' := if v.Passed? then errors else errors + [FieldError(field, MessageOf(bound, v))];
        assert p == RunLinks(field, links[1..], body, env, errors');
        RunLinksErrorsAbout(field, links[1..], body, env, errors');
        assert p.errors[..|errors|] == p.errors[..|errors'|][..|errors|];
        forall i | |errors| <= i < |p.errors| ensures p.errors[i].path == field {
          if i < |errors'| {
            assert p.errors[i] == p.errors[..|errors'|][i] == errors'[i];
          }
        }
      case Bail =>
        if |errors| == 0 {
          RunLinksErrorsAbout(field, links[1..], body, env, errors);
        }
    }
  }

  /** Fields no chain names come through the chains untouched, and every error
      is about a field some chain names. */
  lemma {:induction false} RunChainsFrame(chains: seq<Chain>, body: map<string, string>, env: Env)
    ensures var p := RunChains(chains, body, env);
            && (forall k :: (forall c :: c in chains ==> c.field != k) ==>
                  (k in p.body <==> k in body) && (k in body ==> p.body[k] == body[k]))
            && (forall e :: e in p.errors ==> exists c :: c in chains && c.field == e.path)
    decreases |chains|
  {
    if |chains| > 0 {
      var first := RunChain(chains[0], body, env);
      RunLinksKeepsOtherFields(chains[0].field, chains[0].links, body, env, []);
      RunLinksErrorsAbout(chains[0].field, chains[0].links, body, env, []);
      RunChainsFrame(chains[1..], first.body, env);
      assert forall c :: c in chains[1..] ==> c in chains;
      forall e | e in first.errors ensures e.path == chains[0].field {
        var i :| 0 <= i < |first.errors| && first.errors[i] == e;
      }
    }
  }

  /** The errors one validator adds when it runs on `value`: none when it
      passes, otherwise one about `field` carrying its message. */
  function Found(field: string, c: Check, bound: Option<string>, value: string, body: map<string, string>, env: Env)
    : (errs: seq<FieldError>)
    ensures |errs| <= 1
    ensures errs == [] <==> Evaluate(c, value, body, env).Passed?
    ensures forall e :: e in errs ==> e.path == field
  {
    var v := Evaluate(c, value, body, env);
    if v.Passed? then [] else [FieldError(field, MessageOf(bound, v))]
  }

  /** A validator with a bound message reports that message when it does not pass. */
  lemma FoundBound(field: string, c: Check, m: string, value: string, body: map<string, string>, env: Env)
    ensures Found(field, c, Some(m), value, body, env) == Unless(Evaluate(c, value, body, env).Passed?, field, m)
  {
  }

  /** Writing a field twice keeps the second value. */
  lemma UpdateTwice(body: map<string, string>, field: string, first: string, second: string)
    ensures body[field := first][field := second] == body[field := second]
  {
  }

  /** The body with `field` rewritten by a sanitizer. */
  function SanitizeField(s: Sanitizer, field: string, body: map<string, string>, env: Env): (b: map<string, string>)
    ensures field in b && b[field] == Sanitized(s, BodyField(body, field), env)
    ensures forall k :: k != field ==> (k in b <==> k in body) && (k in body ==> b[k] == body[k])
  {
    body[field := Sanitized(s, BodyField(body, field), env)]
  }

  /** Running a sanitizer link rewrites the field and goes on with the rest. */
  lemma SanitizeStep(field: string, links: seq<Link>, body: map<string, string>, env: Env, errors: seq<FieldError>)
    requires |links| > 0 && links[0].Sanitize?
    ensures RunLinks(field, links, body, env, errors)
            == RunLinks(field, links[1..], SanitizeField(links[0].sanitizer, field, body, env), env, errors)
  {
  }

  /** Running a validator link appends what it found and goes on with the rest. */
  lemma ValidateStep(field: string, links: seq<Link>, body: map<string, string>, env: Env, errors: seq<FieldError>)
    requires |links| > 0 && links[0].Validate?
    ensures RunLinks(field, links, body, env, errors)
            == RunLinks(field, links[1..], body, env,
                        errors + Found(field, links[0].check, links[0].message, BodyField(body, field), body, env))
  {
    var found := Found(field, links[0].check, links[0].message, BodyField(body, field), body, env);
    if found == [] {
      assert errors + found == errors;
    }
  }

  /** A last validator with a bound message, after no errors. */
  lemma LastCheck(field: string, c: Check, m: string, body: map<string, string>, env: Env)
    ensures RunLinks(field, [Validate(c, Some(m))], body, env, [])
            == Pass(body, Unless(Evaluate(c, BodyField(body, field), body, env).Passed?, field, m))
  {
    var links := [Validate(c, Some(m))];
    var e := Found(field, c, Some(m), BodyField(body, field), body, env);
    ValidateStep(field, links, body, env, []);
    assert links[1..] == [];
    assert [] + e == e;
  }

  /** A sanitizer followed by one validator: the validator sees the sanitized
      value. */
  lemma SanitizeThenCheck(field: string, s: Sanitizer, c: Check, bound: Option<string>, body: map<string, string>, env: Env)
    ensures var b := SanitizeField(s, field, body, env);
            RunChain(Chain(field, [Sanitize(s), Validate(c, bound)]), body, env)
            == Pass(b, Found(field, c, bound, b[field], b, env))
  {
    var links := [Sanitize(s), Validate(c, bound)];
    var b := SanitizeField(s, field, body, env);
    assert links[1..] == [Validate(c, bound)];
    assert links[1..][1..] == [];
    assert BodyField(b, field) == b[field];
    ValidateStep(field, links[1..], b, env, []);
    assert [] + Found(field, c, bound, b[field], b, env) == Found(field, c, bound, b[field], b, env);
  }

  /** A sanitizer followed by two validators: both see the sanitized value and
      both report, in order. */
  lemma SanitizeThenTwoChecks(field: string, s: Sanitizer, c1: Check, bound1: Option<string>,
                              c2: Check, bound2: Option<string>, body: map<string, string>, env: Env)
    ensures var b := SanitizeField(s, field, body, env);
            RunChain(Chain(field, [Sanitize(s), Validate(c1, bound1), Validate(c2, bound2)]), body, env)
            == Pass(b, Found(field, c1, bound1, b[field], b, env) + Found(field, c2, bound2, b[field], b, env))
  {
    var links := [Sanitize(s), Validate(c1, bound1), Validate(c2, bound2)];
    var b := SanitizeField(s, field, body, env);
    var e1 := Found(field, c1, bound1, b[field], b, env);
    var e2 := Found(field, c2, bound2, b[field], b, env);
    assert links[1..] == [Validate(c1, bound1), Validate(c2, bound2)];
    assert links[2..] == [Validate(c2, bound2)];
    assert links[1..][1..] == links[2..];
    assert links[2..][1..] == [];
    assert BodyField(b, field) == b[field];
    assert RunLinks(field, links, body, env, []) == RunLinks(field, links[1..], b, env, []);
    ValidateStep(field, links[1..], b, env, []);
    assert [] + e1 == e1;
    ValidateStep(field, links[2..], b, env, e1);
  }

  /** Two validators on the value as submitted, both reporting, in order. */
  lemma TwoChecks(field: string, c1: Check, bound1: Option<string>, c2: Check, bound2: Option<string>,
                  body: map<string, string>, env: Env)
    ensures var v := BodyField(body, field);
            RunChain(Chain(field, [Validate(c1, bound1), Validate(c2, bound2)]), body, env)
            == Pass(body, Found(field, c1, bound1, v, body, env) + Found(field, c2, bound2, v, body, env))
  {
    var links := [Validate(c1, bound1), Validate(c2, bound2)];
    var v := BodyField(body, field);
    var e1 := Found(field, c1, bound1, v, body, env);
    assert links[1..] == [Validate(c2, bound2)];
    assert links[1..][1..] == [];
    ValidateStep(field, links, body, env, []);
    assert [] + e1 == e1;
    ValidateStep(field, links[1..], body, env, e1);
  }

  /** A required field that is trimmed first. */
  function TrimmedRequired(field: string, message: string): Chain {
    Chain(field, [Sanitize(TrimSpace), Validate(NotEmpty, Some(message))])
  }

  /** A trimmed required field, as a chain: the trimmed value and at most the
      field's one message. */
  lemma TrimmedRequiredReport(field: string, message: string, body: map<string, string>, env: Env)
    ensures RunChain(TrimmedRequired(field, message), body, env)
            == Pass(body[field := Trim(BodyField(body, field))],
                    Unless(Trim(BodyField(body, field)) != "", field, message))
  {
    SanitizeThenCheck(field, TrimSpace, NotEmpty, Some(message), body, env);
  }

  /** A chain whose validators look at nothing in the body but its own field. */
  predicate ReadsOwnField(c: Chain) {
    forall i :: 0 <= i < |c.links| && c.links[i].Validate? ==> !c.links[i].check.EmailFreeFor?
  }

  /** Chains over pairwise different fields, each looking only at its own. */
  predicate Independent(chains: seq<Chain>) {
    && (forall i, j :: 0 <= i < j < |chains| ==> chains[i].field != chains[j].field)
    && (forall i :: 0 <= i < |chains| ==> ReadsOwnField(chains[i]))
  }

  /** What a chain does depends on its field's value only, when it reads nothing else. */
  lemma {:induction false} RunLinksOwnField(field: string, links: seq<Link>, body1: map<string, string>,
                                            body2: map<string, string>, env: Env, errors: seq<FieldError>)
    requires forall i :: 0 <= i < |links| && links[i].Validate? ==> !links[i].check.EmailFreeFor?
    requires BodyField(body1, field) == BodyField(body2, field)
    ensures var p1 := RunLinks(field, links, body1, env, errors);
            var p2 := RunLinks(field, links, body2, env, errors);
            && p1.errors == p2.errors && BodyField(p1.body, field) == BodyField(p2.body, field)
            && ((field in body1 <==> field in body2) ==> (field in p1.body <==> field in p2.body))
    decreases |links|
  {
    if |links| > 0 {
      match links[0]
      case Sanitize(s) =>
        SanitizeStep(field, links, body1, env, errors);
        SanitizeStep(field, links, body2, env, errors);
        RunLinksOwnField(field, links[1..], SanitizeField(s, field, body1, env), SanitizeField(s, field, body2, env),
                         env, errors);
      case Validate(c, bound) =>
        var v1 := Evaluate(c, BodyField(body1, field), body1, env);
        var v2 := Evaluate(c, BodyField(body2, field), body2, env);
        assert v1 == v2;
        ValidateStep(field, links, body1, env, errors);
        ValidateStep(field, links, body2, env, errors);
        var errors' := errors + Found(field, c, bound, BodyField(body1, field), body1, env);
        assert errors' == errors + Found(field, c, bound, BodyField(body2, field), body2, env);
        RunLinksOwnField(field, links[1..], body1, body2, env, errors');
      case Bail =>
        if |errors| == 0 {
          RunLinksOwnField(field, links[1..], body1, body2, env, errors);
        }
    }
  }

  /** The errors of the chains from position `k` on, each run on the same body,
      one chain after the other. */
  function ErrorsFrom(chains: seq<Chain>, k: nat, body: map<string, string>, env: Env): seq<FieldError>
    decreases |chains| - k
  {
    if k >= |chains| then [] else RunChain(chains[k], body, env).errors + ErrorsFrom(chains, k + 1, body, env)
  }

  /** One step of RunChains: the first chain runs on the body, the others on
      the body it leaves, and the first chain's errors come first. */
  lemma RunChainsStep(chains: seq<Chain>, body: map<string, string>, env: Env, first: Pass)
    requires |chains| > 0 && RunChain(chains[0], body, env) == first
    ensures var rest := RunChains(chains[1..], first.body, env);
            RunChains(chains, body, env) == Pass(rest.body, first.errors + rest.errors)
  {
  }

  /** One step of ErrorsFrom: the chain at `k` reports first, the later ones after. */
  lemma ErrorsFromStep(chains: seq<Chain>, k: nat, body: map<string, string>, env: Env,
                       head: seq<FieldError>, rest: seq<FieldError>)
    requires k < |chains|
    requires RunChain(chains[k], body, env).errors == head
    requires ErrorsFrom(chains, k + 1, body, env) == rest
    ensures ErrorsFrom(chains, k, body, env) == head + rest
  {
  }

  /** Two chains on the same body: the first one's errors, then the second one's. */
  lemma ErrorsFromPair(chains: seq<Chain>, body: map<string, string>, env: Env)
    requires |chains| == 2
    ensures ErrorsFrom(chains, 0, body, env)
            == RunChain(chains[0], body, env).errors + RunChain(chains[1], body, env).errors
  {
    assert ErrorsFrom(chains, 2, body, env) == [];
    assert ErrorsFrom(chains, 1, body, env) == RunChain(chains[1], body, env).errors + [];
  }

  lemma {:induction false} ErrorsFromShift(chains: seq<Chain>, k: nat, body: map<string, string>, env: Env)
    requires |chains| > 0
    ensures ErrorsFrom(chains[1..], k, body, env) == ErrorsFrom(chains, k + 1, body, env)
    decreases |chains| - k
  {
    if k < |chains| - 1 {
      ErrorsFromShift(chains, k + 1, body, env);
    }
  }

  lemma {:induction false} ErrorsFromOwnFields(chains: seq<Chain>, k: nat, body1: map<string, string>,
                                               body2: map<string, string>, env: Env)
    requires forall i :: k <= i < |chains| ==> ReadsOwnField(chains[i])
    requires forall i :: k <= i < |chains| ==> BodyField(body1, chains[i].field) == BodyField(body2, chains[i].field)
    ensures ErrorsFrom(chains, k, body1, env) == ErrorsFrom(chains, k, body2, env)
    decreases |chains| - k
  {
    if k < |chains| {
      RunLinksOwnField(chains[k].field, chains[k].links, body1, body2, env, []);
      ErrorsFromOwnFields(chains, k + 1, body1, body2, env);
    }
  }

  /** Independent chains report as if each ran alone on the body as submitted:
      no chain's sanitizing changes what another chain sees. */
  lemma {:induction false} IndependentChainsApart(chains: seq<Chain>, body: map<string, string>, env: Env)
    requires Independent(chains)
    ensures RunChains(chains, body, env).errors == ErrorsFrom(chains, 0, body, env)
  {
    if |chains| > 0 {
      var first := RunChain(chains[0], body, env);
      RunLinksKeepsOtherFields(chains[0].field, chains[0].links, body, env, []);
      var rest := chains[1..];
      assert Independent(rest) by {
        assert forall i :: 0 <= i < |rest| ==> rest[i] == chains[i + 1];
      }
      IndependentChainsApart(rest, first.body, env);
      forall i | 0 <= i < |rest| ensures BodyField(first.body, rest[i].field) == BodyField(body, rest[i].field) {
        assert rest[i] == chains[i + 1];
      }
      ErrorsFromOwnFields(rest, 0, first.body, body, env);
      ErrorsFromShift(chains, 0, body, env);
    }
  }

  /** After independent chains, each chain's field holds what that chain left
      in it when run alone on the body as submitted. */
  lemma {:induction false} IndependentChainsBody(chains: seq<Chain>, body: map<string, string>, env: Env, i: nat)
    requires Independent(chains) && i < |chains|
    ensures BodyField(RunChains(chains, body, env).body, chains[i].field)
            == BodyField(RunChain(chains[i], body, env).body, chains[i].field)
    ensures chains[i].field in RunChains(chains, body, env).body
            <==> chains[i].field in RunChain(chains[i], body, env).body
  {
    var first := RunChain(chains[0], body, env);
    var rest := chains[1..];
    assert Independent(rest) by {
      assert forall j :: 0 <= j < |rest| ==> rest[j] == chains[j + 1];
    }
    RunLinksKeepsOtherFields(chains[0].field, chains[0].links, body, env, []);
    if i == 0 {
      RunChainsFrame(rest, first.body, env);
      forall c | c in rest ensures c.field != chains[0].field {
        var j :| 0 <= j < |rest| && rest[j] == c;
        assert rest[j] == chains[j + 1];
      }
    } else {
      IndependentChainsBody(rest, first.body, env, i - 1);
      assert rest[i - 1] == chains[i];
      RunLinksOwnField(chains[i].field, chains[i].links, first.body, body, env, []);
    }
  }

  /** A rule set as route middleware: the chains run on the request's body, the
      sanitized body replaces it, and their errors join those already recorded. */
  function ApplyRules(chains: seq<Chain>, req: Request, env: Env): (r: Request)
    ensures r.jwt == req.jwt && r.locals == req.locals && r.flash == req.flash && r.cookieOps == req.cookieOps
    ensures |r.errors| >= |req.errors| && r.errors[..|req.errors|] == req.errors
  {
    var p := RunChains(chains, req.body, env);
    assert (req.errors + p.errors)[..|req.errors|] == req.errors;
    req.(body := p.body, errors := req.errors + p.errors)
  }
}

=== FILE: wrappers.dfy ===
/** Failure-carrying values used across the model: `Option` for the JavaScript
    values that may be absent (`undefined`, `null`) and `Result` for calls that
    either return or throw. */
module Wrappers {

  datatype Option<+T> = None | Some(value: T) {

    /** The wrapped value, or `default` when there is none. */
    function GetOr(default: T): T {
      match this
      case Some(v) => v
      case None => default
    }
  }

  /** The outcome of a call that may throw: `Failure` carries what was thrown. */
  datatype Result<+T, +E> = Success(value: T) | Failure(error: E)
}
